=== FILE: README.md ===
# vto-flask in Dafny

A model of the decision logic of vto-flask, a Flask bridge between Dahua VTO
door stations, the Bemfa IoT cloud (MQTT and REST) and Apple HomeKit. The
model covers:

- the two names a door station derives from its record: its MQTT topic and
  its display name (`DeviceModel`);
- the JSON-RPC conversation that opens a door: the challenge login, the
  digest login, door-handle acquisition, open, destroy and logout, in the
  service version and in the older `DahuaLogin` of `app.py` (`Dahua`);
- the reconciliation of visible door stations with the topics of one or
  more Bemfa accounts, and the counting of the answers (`BemfaSync`);
- the MQTT client flags, the subscribed-topic sets, open-command handling
  with the status push, and the manager's key-to-client map (`Mqtt`);
- the HomeKit helpers and state: the pairing PIN, the accessory id, the
  bridge MAC, the critical-configuration test, the lock characteristics,
  and the accessory map together with the accessory ids the bridge holds
  (`HomeKit`);
- the decisions the route handlers take for devices, Bemfa keys and the
  MQTT switch, the HomeKit pages and the user accounts (`DeviceRoutes`,
  `SettingsRoutes`, `HomeKitRoutes`, `AuthRoutes`);
- the start-up seeding of the preset door stations and the migration of
  the legacy Bemfa key (`AppInit`).

Every remote call becomes an input. The Dahua RPC server is a script of
replies, where the k-th POST receives the k-th reply and a missing reply is
a network error. The Bemfa topic list and the per-request answer codes are
an `AccountEnv` per key. Whether an MQTT connect succeeds is a predicate on
the key. MD5 is a function parameter, and so are werkzeug's
`generate_password_hash` (`hash`) and `check_password_hash` (`verify`). The
random draw of a HomeKit PIN is an input. Database tables are sequences of
rows in table order (the HomeKit start sorts its rows by device id, as its
query does), and a handler returns the new table together with the MQTT or
HomeKit effects it performs. The HomeKit bridge refuses an accessory id it
already holds, as HAP-python's `Bridge.add_accessory` does.

Where the code and its written description disagree, the model follows the
code:

- The topic of "172.16.11.1" is "vto17216111006", and the derivation is not
  injective: "172.161.1.1" gives the same topic (`DeviceModel.TopicNotInjective`).
- The MQTT service has no reconnect worker, no backoff and no health check,
  so none is modelled.
- `sync_bemfa_devices` builds its message from a variable `accounts` that is
  bound only when the sync returned a truthy result. A falsy result would
  raise an `UnboundLocalError` (a `NameError`), and the reply would be the
  failure message with that error's text. The sync always returns a
  dictionary, so this only shows in `SettingsRoutes.SyncMessageOf`.
- `edit_user` assigns the new username before it checks the password
  length. The short-password branch redirects without committing, so the
  rename is lost with the request's session (`AuthRoutes.EditUser`).
- `add_user` checks neither for an empty username nor strips it; `edit_user`
  accepts an empty username as well.

## Model

| member | source | states |
|---|---|---|
| DeviceModel.MqttTopic | models/device.py:29-34 | an empty address has no topic; otherwise the topic starts with "vto", holds no dot, and is the dot-free address framed by "vto" and "006" |
| DeviceModel.TopicAddressInverse | models/device.py:31-33 | removing the "vto" prefix and the "006" suffix from a topic gives back the address without its dots |
| DeviceModel.TopicCollision | models/device.py:31-33 | two addresses share a topic exactly when they agree once their dots are removed |
| DeviceModel.QuadTopic | models/device.py:31-33 | the topic of a dotted quad is "vto", the four parts run together, "006" |
| DeviceModel.TopicNotInjective | models/device.py:31-33 | 172.16.11.1 and 172.161.1.1 are different addresses with the same topic vto17216111006 |
| DeviceModel.FindById | routes/device.py:260 | the lookup finds nothing exactly when no stored device has the id, and otherwise a stored device with that id |
| DeviceModel.PositionPart | models/device.py:41-43 | "<position>号" for a non-empty position, and nothing exactly when the position is absent or empty |
| DeviceModel.BaseName | models/device.py:41-43 | the name is section, "区", building, "幢", followed by the position part |
| DeviceModel.GenerateDeviceName | models/device.py:36-52 | the name is never already taken; it is the base name whenever that is free; otherwise it is the first free candidate in base, base-1, base-2, ... |
| DeviceModel.CandidatesBound | models/device.py:47-51 | if the first n candidates are all taken there are at least n taken names, which is why the search ends |
| Dahua.Post | services/dahua_service.py:147-150 | each request takes the next id, one more than the previous, and is appended to the conversation; ids stay consecutive |
| Dahua.Decode | services/dahua_service.py:122-125 | a reply gives a body exactly when it has status 200 and a JSON body; any other status is a status failure |
| Dahua.PasswordHashThroughDigest | services/dahua_service.py:69-79 | `_calculate_password_hash` is MD5 of user, random and the inner MD5 of user, realm and password, so the password reaches the hash only through that inner digest: two accounts of one user whose inner digests agree give the same hash for every challenge |
| Dahua.LoginSteps | services/dahua_service.py:82-145 | the first request is the challenge with session 0; a failed challenge is the only request; a truthy challenge result logs in without a second request; the second request is sent exactly when realm, random and encryption are all present, and it carries U(MD5(user:random:U(MD5(user:realm:password)))) and passes realm, random and encryption on unchanged; the session is the one the challenge handed out |
| Dahua.ServiceLogin | services/dahua_service.py:139-145 | login never raises: any failure gives success false and no session, while the requests already sent stay sent |
| Dahua.GetInstance | services/dahua_service.py:152-182 | the door-handle request succeeds exactly when the reply decodes and carries a result, and yields that result |
| Dahua.Command | services/dahua_service.py:184-247 | open and destroy succeed exactly when the reply decodes, and yield its result or false when it has none |
| Dahua.ServiceLogout | services/dahua_service.py:249-282 | without a session logout answers true and sends nothing; with one it sends one request and answers false on any failure instead of raising |
| Dahua.DoorSequence | services/dahua_service.py:306-317 | instance, open, destroy run in that order and stop at the first failure, keeping the session; they all return exactly when the three replies decode and the first names a handle, and then the handle is that reply's result, the open and destroy requests carry it, and the open and destroy results are the `result`s of the second and third replies |
| Dahua.ServiceDoorRun | services/dahua_service.py:306-346 | after the door steps exactly one logout is attempted, whether they finished or raised part way; the run finishes exactly when the door replies decode, reporting the handle and the open and destroy results of those replies |
| Dahua.ServiceFlow | services/dahua_service.py:284-346 | the flow never raises; it reports a failed login exactly when the login fails, and then sends nothing after the login; otherwise it runs the door steps (all of them, or up to the one that failed) followed by the logout, with request ids consecutive from 1001; it finishes exactly when the door replies decode, the open request carries the handle it reports, and its success is the truthiness of the open result |
| Dahua.LegacyLogout | app.py:260-277 | the legacy logout always sends its request and raises on a non-200 status |
| Dahua.LegacyDoorRun | app.py:289-312 | the legacy flow runs logout inside the try, so a failed logout leads to a second logout attempt in the handler |
| Dahua.LegacyFlow | app.py:279-312 | the legacy flow raises exactly when its login raises, because login runs before the try; otherwise its steps have the shape of the service flow with at most one extra logout |
| Dahua.ChallengeFailureContrast | app.py:105-124 | a failed challenge makes the service flow report a failed login but makes the legacy flow raise, after one request in both |
| Dahua.LogoutFailureContrast | app.py:289-312 | when the final logout fails after a successful open, the service flow still succeeds with a false logout result, whereas the legacy flow fails and sends one more logout |
| BemfaSync.VisibleDevices | services/bemfa_service.py:174 | the devices kept are exactly the visible ones |
| BemfaSync.Names | services/bemfa_service.py:250-253 | every listed topic has a name, every key comes from the list, and a later entry overrides an earlier one |
| BemfaSync.Remote | services/bemfa_service.py:250-253 | remote topics count only when the list answered code 0; otherwise the account is treated as empty |
| BemfaSync.Desired | services/bemfa_service.py:256-260 | the desired topics are exactly the non-empty topics of the visible devices |
| BemfaSync.ToDelete | services/bemfa_service.py:263-266 | a topic is deleted exactly when it exists remotely, starts with "vto" and no visible device wants it; other topics are never deleted |
| BemfaSync.CreatePlan | services/bemfa_service.py:284-290 | every visible device whose topic is not remote is created with its name, and nothing else is |
| BemfaSync.UpdatePlan | services/bemfa_service.py:291-295 | every visible device whose remote topic carries another name is renamed, and nothing else is |
| BemfaSync.PlansDisjoint | services/bemfa_service.py:284-295 | no topic is both created and renamed |
| BemfaSync.CreateTally | services/bemfa_service.py:298-316 | every create answer is counted exactly once: as created (code 0), as already existing (40006), or as failed |
| BemfaSync.DeletedCount | services/bemfa_service.py:269-281 | at most one per deleted topic, and equal to the number of deletes exactly when every delete answered code 0 |
| BemfaSync.SyncSingle | services/bemfa_service.py:238-338 | the sync raises exactly when a listed topic lacks its key; otherwise deleted counts the code-0 deletes, created and failed split the create answers and together stay within the create plan, and updated counts the code-0 renames |
| BemfaSync.SyncMirrors | services/bemfa_service.py:238-338 | when every request succeeds, the account afterwards holds every visible device's topic under the device's name |
| BemfaSync.SyncLeavesNoStale | services/bemfa_service.py:263-281 | when every request succeeds, no "vto" topic outside the visible devices' topics is left |
| BemfaSync.EnabledKeys | services/bemfa_service.py:139 | exactly the enabled keys, in table order |
| BemfaSync.KeyHint | services/bemfa_service.py:199 | the hint is the first eight characters of the key (or the whole shorter key) followed by "..." |
| BemfaSync.Report | services/bemfa_service.py:193-221 | an account that raised is recorded with zero counts and success false; otherwise with its own counts |
| BemfaSync.Reports | services/bemfa_service.py:186-221 | one report per enabled key, in key order; a raising account does not stop the later ones |
| BemfaSync.TotalChanged | services/bemfa_service.py:225-227 | the totals show a change exactly when some account does |
| BemfaSync.SumAccounts | services/bemfa_service.py:186-221 | the account loop produces the per-key reports and totals that are their sums |
| BemfaSync.SyncAll | app.py:1615-1706 | with neither an enabled key nor a legacy key nothing happens; the legacy key alone syncs one account named "默认账号"; enabled keys with no visible device do nothing; otherwise every enabled account is synced and summed, and the whole never raises |
| BemfaSync.RestartAfterSync | services/bemfa_service.py:225-227 | MQTT is restarted exactly when it runs, the sync did not raise and something was created, renamed or deleted; the legacy key restarts its single client and keys restart all clients |
| BemfaSync.NoVisibleAsymmetry | services/bemfa_service.py:142-184 | with no visible device the legacy key still syncs and would delete all its "vto" topics, while enabled keys skip the sync |
| Mqtt.Start | services/mqtt_service.py:41-75 | a running, connected client is left alone; otherwise a client is created and it runs exactly when it was running or the connect succeeds |
| Mqtt.Stop | services/mqtt_service.py:77-84 | a running client loses both flags; any other client is unchanged |
| Mqtt.DeviceTopics | services/mqtt_service.py:99-115 | the topics subscribed on connect are exactly the non-empty topics of visible devices |
| Mqtt.OnConnect | services/mqtt_service.py:86-97 | return code 0 marks the client connected and, with the app, subscribes every visible device topic; any other code changes nothing |
| Mqtt.OnDisconnect | services/mqtt_service.py:209-212 | only the connected flag is cleared |
| Mqtt.Subscribe | services/mqtt_service.py:214-219 | the topic is subscribed afterwards exactly when it already was or the client exists and is connected; no other topic or flag changes |
| Mqtt.Unsubscribe | services/mqtt_service.py:221-226 | the topic is gone afterwards exactly when the client exists and is connected; no other topic or flag changes |
| Mqtt.SubscribeIdempotent | services/mqtt_service.py:214-219 | subscribing twice is subscribing once |
| Mqtt.UnsubscribeUndoesSubscribe | services/mqtt_service.py:214-226 | on a connected client, unsubscribing undoes the subscription of a new topic |
| Mqtt.IsOpenCommand | services/mqtt_service.py:145-147 | a payload containing "打开" always asks to open; otherwise only a lower-cased "open" or "on" does, so an opening payload has at least two characters and, without "打开", exactly two or four |
| Mqtt.OpenCommandIgnoresCase | services/mqtt_service.py:145-147 | "open" and "on" are recognised in any letter case |
| Mqtt.OpenCommandExamples | services/mqtt_service.py:145-147 | "OPEN", "On" and "打开" open; "off" and "opened" do not |
| Mqtt.FindByTopic | services/mqtt_service.py:139-143 | the lookup finds nothing exactly when no device has the topic, and otherwise a device with it |
| Mqtt.UnlockText | services/mqtt_service.py:187-188 | the WeChat text is "设备 ", the device name, then " 开锁成功，当前状态：关闭", and the name reads back from between them |
| Mqtt.Pushes | services/mqtt_service.py:174-207 | exactly one push per enabled key, in key order, each with state "off" and the unlock text of the device |
| Mqtt.HandleDeviceMessage | services/mqtt_service.py:132-172 | an unknown topic does nothing; a known topic with a non-command does nothing; the door opens exactly when the topic is known, the payload is an open command and the door-open flow succeeds, and then every enabled key gets its push |
| Mqtt.StartClient | services/mqtt_service.py:270-288 | a connecting client replaces any client under its key; a failing one leaves the key absent; clients stay filed under their own ids |
| Mqtt.StopClient | services/mqtt_service.py:298-303 | the key is gone afterwards, and an absent key changes nothing |
| Mqtt.StopAll | services/mqtt_service.py:290-296 | the map is empty and the service not running |
| Mqtt.StartEach | services/mqtt_service.py:257-266 | each key ends up with a client exactly when its connect succeeds; clients of other keys are untouched and no other key appears |
| Mqtt.StartAll | services/mqtt_service.py:251-268 | nothing happens without the app or without an enabled key; otherwise the service runs and each enabled key has a client exactly when it connects |
| Mqtt.StartServiceAsWritten | services/mqtt_service.py:244-249 | with a client id only that client is started and the running flag is left as it was |
| Mqtt.StartServiceLeavesNotRunning | services/mqtt_service.py:244-249 | starting the legacy client on an idle manager leaves a running client in a manager marked as not running |
| Mqtt.StartService | services/mqtt_service.py:244-249 | with a client id that client is started and the service is marked running; without one, all enabled clients are started |
| Mqtt.StartServiceRuns | services/mqtt_service.py:244-249 | after starting a client that connects, the manager runs and holds that running client |
| Mqtt.Status | services/mqtt_service.py:310-319 | one entry per key with the client's flags and the number of its subscribed topics |
| Mqtt.ConnectedMatchesStatus | services/mqtt_service.py:305-319 | the manager is connected exactly when some status entry is connected; after stopping all it is neither connected nor has entries |
| Mqtt.FanSubscribe | services/mqtt_service.py:321-330 | an absent or empty topic changes nothing; otherwise every client that does not raise subscribes, and one client raising leaves the others unaffected |
| Mqtt.FanUnsubscribe | services/mqtt_service.py:332-341 | an absent or empty topic changes nothing; otherwise every client that does not raise unsubscribes |
| Mqtt.FanSubscribeReachesConnected | services/mqtt_service.py:321-330 | after a fan-out subscribe, every connected client that did not raise holds the topic |
| HomeKit.FormatPin | services/homekit_service.py:44-49 | formatting succeeds exactly for eight characters and gives "xxx-xx-xxx" with the digits in order |
| HomeKit.ParsePin | services/homekit_service.py:51-56 | an empty text gives nothing; otherwise the text with every dash removed |
| HomeKit.PinRoundTrip | services/homekit_service.py:44-56 | parsing undoes formatting for every eight-character PIN without a dash |
| HomeKit.PinParseRoundTrip | services/homekit_service.py:44-56 | formatting undoes parsing for every text in the "xxx-xx-xxx" shape |
| HomeKit.StableAidAsWritten | services/homekit_service.py:535-542 | the accessory id lies in 2..255 and is never 7 |
| HomeKit.StableAidCollision | services/homekit_service.py:535-542 | devices 5 and 6 both get accessory id 8 |
| HomeKit.StableAid | services/homekit_service.py:535-542 | the corrected accessory id lies in 2..255 and is never 7 |
| HomeKit.StableAidInjective | services/homekit_service.py:535-542 | two devices share a corrected accessory id exactly when their ids agree modulo 253 |
| HomeKit.MaskFirst | services/homekit_service.py:357-358 | the first byte has bit 0 cleared and bit 1 set, and its other bits kept |
| HomeKit.MacBytes | services/homekit_service.py:357-358 | six bytes: the first six of the digest, the first one masked |
| HomeKit.HexByte | services/homekit_service.py:360 | two upper-case hexadecimal digits |
| HomeKit.HexByteRoundTrip | services/homekit_service.py:360 | the two digits read back give the byte |
| HomeKit.MacText | services/homekit_service.py:360 | colon-separated upper-case hexadecimal pairs, three characters per byte less one |
| HomeKit.MacRoundTrip | services/homekit_service.py:360 | the text reads back as the bytes it was made from |
| HomeKit.StableBridgeMac | services/homekit_service.py:346-362 | the address has 17 characters, reads back as the masked first six digest bytes, and its first byte is locally administered and unicast |
| HomeKit.SaveMetadata | services/homekit_service.py:430-447 | the saved metadata holds all four keys: bridge name, port, PIN and address |
| HomeKit.CriticalConfigChanged | services/homekit_service.py:397-428 | a change is reported exactly when the metadata could not be read or differs from what saving the current name, port, PIN and address would write; a missing key counts as different |
| HomeKit.SaveThenCheck | services/homekit_service.py:397-447 | after saving, the test against the same values reports no change, and against others it reports one exactly when the name, port, PIN or address differs |
| HomeKit.ChangedOnlyByPairingFields | services/homekit_service.py:397-451 | against metadata it saved itself, the test reports a change exactly when the bridge name, port or PIN changed |
| HomeKit.ExecuteUnlock | services/homekit_service.py:139-171 | the unlock succeeds exactly when the device exists and the door-open flow with its credentials succeeds |
| HomeKit.SetLockState | services/homekit_service.py:89-137 | an exception secures both characteristics; without the app only the target changes; a non-zero value secures the current state; zero with a successful unlock unsecures both; zero with a failed unlock sets the target back to secured |
| HomeKit.UnsecuredOnlyAfterDoorOpened | services/homekit_service.py:99-137 | a secured lock shows unsecured after a write exactly when the write was 0 and the door actually opened |
| HomeKit.DistinctAids | services/homekit_service.py:535-542 | two devices get the same accessory id exactly when their ids agree modulo 254 or both leave 5 or 6 modulo 254 |
| HomeKit.InsertByDevice | services/homekit_service.py:508 | inserting into rows sorted by device id keeps them sorted and adds exactly that row |
| HomeKit.ByDevice | services/homekit_service.py:508 | the rows sorted by device id, a permutation of the table |
| HomeKit.ByDeviceEligible | services/homekit_service.py:508-512 | sorting keeps the set of eligible devices |
| HomeKit.FirstEligibleRow | services/homekit_service.py:508-512 | nothing exactly when no enabled row of an existing visible device has the id; otherwise such a row |
| HomeKit.AddDeviceAccessories | services/homekit_service.py:499-533 | a pass adds only eligible devices, each under its device id with the accessory id of its device, an id the bridge did not hold; the bridge keeps its ids and gains the added ones; the other accessories stay unchanged; when no eligible row clashes with the bridge or an earlier row, every eligible device is added |
| HomeKit.PassNames | services/homekit_service.py:508-521 | each added accessory carries the name of its device's first eligible row |
| HomeKit.PassAidsDistinct | services/homekit_service.py:514-533 | no two devices added by one pass share an accessory id |
| HomeKit.PassAidsExact | services/homekit_service.py:527 | every id the bridge gains belongs to a device the pass added |
| HomeKit.PassComplete | services/homekit_service.py:499-533 | when no eligible row clashes, the pass adds exactly the eligible devices |
| HomeKit.Start | services/homekit_service.py:190-275 | the service starts exactly when the app exists and an enabled configuration with an eight-character PIN is stored, and then runs a new bridge with that name, port and formatted PIN; it keeps the accessories already held and adds only eligible devices, all of them when the device-id-sorted rows do not clash |
| HomeKit.FreshStartInSync | services/homekit_service.py:190-275 | a start from nothing leaves every accessory under its device's id, no id twice, and every id held by the bridge |
| HomeKit.Stop | services/homekit_service.py:277-312 | stopping leaves no bridge, no accessories and a stopped service |
| HomeKit.Restart | services/homekit_service.py:314-318 | a successful restart holds only eligible devices, all of them when no rows clash, in step with the new bridge; a failed one leaves the service stopped |
| HomeKit.RestartDropsCollidingDevice | services/homekit_service.py:508-542 | with devices 5 and 6 both eligible, with device 6's row first in the table or second, a restart puts only device 5 on the bridge |
| HomeKit.CorrectedAidsNeverClash | services/homekit_service.py:535-542 | with the corrected accessory id, eligible rows of devices whose ids differ modulo 253 never clash on a new bridge |
| HomeKit.FirstEnabledRow | services/homekit_service.py:555 | the lookup finds nothing exactly when no enabled row has the device id |
| HomeKit.AddDeviceAccessory | services/homekit_service.py:544-590 | exactly one accessory is added, and only when the app exists, the row is enabled, the device exists and is visible, the service runs, the device has no accessory yet and the bridge does not hold its accessory id; it carries that id and the row's name, and the bridge then holds the id; otherwise nothing changes; the manager stays in step with its bridge |
| HomeKit.RemoveDeviceAccessory | services/homekit_service.py:592-604 | the device's accessory is gone and the others stay, the bridge keeps its ids, and the answer is true exactly when it was there |
| HomeKit.Status | services/homekit_service.py:606-613 | the device count is the number of accessories; name and port are reported exactly when a bridge exists |
| HomeKit.AddThenRemove | services/homekit_service.py:544-604 | a successful add counts one more device; removing it restores the accessories, but the bridge keeps its id, so adding the device again fails |
| DeviceRoutes.FormPosition | routes/device.py:210 | an empty position field is stored as none |
| DeviceRoutes.NextId | routes/device.py:236-237 | a new device's id exceeds every stored id |
| DeviceRoutes.AddDevice | routes/device.py:204-248 | an address already used is refused; otherwise the device is appended with a fresh id, the form's name, group, section, building and position (empty becomes none), the form's credentials or the defaults, hidden, with the topic of its address, and its topic is subscribed exactly when MQTT runs and the address is not empty; stored addresses stay unique |
| DeviceRoutes.EditActions | routes/device.py:281-285 | nothing while MQTT is stopped; the old topic is unsubscribed exactly when it was non-empty and differs from the new one, before the new non-empty topic is subscribed |
| DeviceRoutes.EditDevice | routes/device.py:259-305 | a missing device is reported; otherwise the record is replaced in place by the form's fields (position and credentials as when adding), keeps its id and visibility, gets a new topic only when the address changed, and the Bemfa sync runs exactly when the device is visible |
| DeviceRoutes.EditMovesSubscription | routes/device.py:281-285 | on a connected client the new topic ends up subscribed and a changed old topic unsubscribed |
| DeviceRoutes.SameIpKeepsTopic | routes/device.py:277-278 | with the address unchanged the topic is kept and nothing is unsubscribed |
| DeviceRoutes.WithoutId | routes/device.py:323 | the table without the device, nothing else removed |
| DeviceRoutes.DeleteDevice | routes/device.py:316-328 | a missing device is reported; otherwise it is removed and its topic is unsubscribed exactly when MQTT runs and the topic is non-empty |
| DeviceRoutes.AddThenDelete | routes/device.py:204-328 | deleting a freshly added device restores the table and undoes its subscription |
| DeviceRoutes.SetVisible | routes/device.py:145-153 | every device is kept apart from its flag, which is set exactly when its id was selected |
| DeviceRoutes.SetVisibleSelects | routes/device.py:145-153 | the visible ids afterwards are the selected ids that exist |
| DeviceRoutes.SetVisibleBySet | routes/device.py:145-153 | only the set of selected ids matters, and applying a selection twice changes nothing more |
| DeviceRoutes.VisibleRefresh | routes/device.py:159-181 | nothing is refreshed while MQTT is stopped; enabled keys restart all clients; otherwise the legacy key, when set, restarts its client |
| DeviceRoutes.UpdateVisibleDevices | routes/device.py:140-193 | the table gets the selection; with MQTT stopped the manager is unchanged; with enabled keys exactly the connecting enabled keys have clients afterwards; without one but with the legacy key only that key can have a client, it has one exactly when it connects, and the manager is left marked not running; with no key at all the manager is unchanged |
| DeviceRoutes.RestartHoldsEnabledClients | routes/device.py:162-170 | a stop-all followed by a start-all leaves exactly the enabled, connecting keys with clients |
| DeviceRoutes.InGroup | routes/device.py:113-123 | the devices of a group are exactly those with its section and building |
| DeviceRoutes.InGroupCount | routes/device.py:113-123 | a group holds every device of the table with its section and building as often as the table does |
| DeviceRoutes.GroupDevices | routes/device.py:113-123 | the grouping has exactly the sections and buildings of the devices, and each group lists its devices in query order |
| DeviceRoutes.GroupsPlaceEachOnce | routes/device.py:113-123 | every device appears in its own group as often as in the table, and in no other group |
| SettingsRoutes.SettingText | routes/settings.py:75-83 | the stored setting reads back as on exactly when MQTT was switched on |
| SettingsRoutes.SaveSettings | routes/settings.py:74-107 | the setting is stored first, so it reads back as on exactly when switched on, refusal included; switching on without a running service and without an enabled key is refused with the manager unchanged; switching off stops every client of a manager marked running and leaves the manager not running; switching on an already running manager changes nothing; switching on with the app and an enabled key leaves MQTT running |
| SettingsRoutes.ValidateKey | routes/settings.py:118-135 | a key is accepted exactly when the stripped name is non-empty, the stripped key has 32 characters and no other row holds it; an empty field and a wrong length are told apart |
| SettingsRoutes.NextKeyId | routes/settings.py:137-144 | a new key's id exceeds every stored id |
| SettingsRoutes.FindKey | routes/settings.py:204-206 | the lookup finds nothing exactly when no key has the id |
| SettingsRoutes.KeyEffectsOnClients | routes/settings.py:240-268 | applied to the manager, an enabled key's effects leave it holding a client for the key exactly when the connect succeeds, a disabled key's leave it without one, and every other key's client and the running flag are kept |
| SettingsRoutes.AddKey | routes/settings.py:118-191 | a refused key reports why; an accepted one is appended with the next id and the stripped fields, and it starts its client and a sync exactly when it is enabled and MQTT is on; keys stay unique |
| SettingsRoutes.EditEffects | routes/settings.py:232-269 | nothing while MQTT is off; otherwise a changed key stops the old client first, then the new key is started when enabled and stopped when not |
| SettingsRoutes.EditKey | routes/settings.py:202-282 | a missing row and a refused key are reported; otherwise the row is replaced in place with the stripped fields and the edit effects follow |
| SettingsRoutes.EditKeepsKeysUnique | routes/settings.py:221-223 | an edit keeps the keys unique because its own row is excluded from the duplicate check |
| SettingsRoutes.EditClients | routes/settings.py:232-269 | after an edit with MQTT on, a replaced key has no client and the new key has one exactly when it is enabled and connects |
| SettingsRoutes.ToggleKey | routes/settings.py:319-374 | a missing row is reported; otherwise exactly that row's flag flips and, with MQTT on, its client follows the new flag |
| SettingsRoutes.ToggleTwice | routes/settings.py:324 | toggling twice restores the table |
| SettingsRoutes.WithoutKey | routes/settings.py:393 | the table without the key, nothing else removed |
| SettingsRoutes.DeleteKey | routes/settings.py:385-417 | a missing row is reported; otherwise the row is removed, no sync runs, and its client is stopped exactly when the key was enabled and MQTT is on |
| SettingsRoutes.Parts | routes/settings.py:437-446 | one part per non-zero created, updated and deleted count; none exactly when nothing changed |
| SettingsRoutes.SyncMessageOf | routes/settings.py:426-467 | a change lists its non-zero counts; failures alone give the failure message; all-zero counts give the in-sync message; an exception or a falsy result ends in the error branch, carrying the text of the exception |
| SettingsRoutes.MessageText | routes/settings.py:437-467 | the four kinds of message are told apart by their openings; the change message lists the parts first; the error message reads back as the exception's text |
| SettingsRoutes.SyncRaisedOnlyOnError | routes/settings.py:426-467 | for the real sync, the error branch is reached exactly when the sync raised |
| HomeKitRoutes.ValidateConfig | routes/homekit.py:63-136 | a non-numeric port is reported first; a configuration is accepted exactly when the stripped PIN is eight digits and the port (51827 when absent) lies in 1024..65535, and then the PIN formats |
| HomeKitRoutes.ChooseAction | routes/homekit.py:104-125 | start exactly when enabled and stopped; stop exactly when disabled and running; restart exactly when enabled, running and enabled before; otherwise leave the service alone |
| HomeKitRoutes.ApplyAction | routes/homekit.py:104-125 | leaving changes nothing and stopping leaves an empty stopped manager |
| HomeKitRoutes.SaveConfig | routes/homekit.py:63-136 | an invalid form is refused with its reason; otherwise the validated configuration is stored and the chosen action applied |
| HomeKitRoutes.SavedServiceFollowsEnabled | routes/homekit.py:104-125 | with the app present, the service runs after a save exactly when the saved configuration is enabled |
| HomeKitRoutes.MaxAid | routes/homekit.py:169 | nothing when no row has an accessory id; otherwise the largest id stored |
| HomeKitRoutes.NextAid | routes/homekit.py:169-170 | the new accessory id exceeds every stored one, and it is at least 2 exactly when none is stored or some stored id is non-negative |
| HomeKitRoutes.NextRowId | routes/homekit.py:173-181 | a new row's id exceeds every stored one |
| HomeKitRoutes.AddHomeKitDevice | routes/homekit.py:147-202 | a missing number, a missing device and a device already added are refused in that order; otherwise one enabled row is appended with the next accessory id and the stripped name or the device name; a running service is asked to add the accessory at once, a stopped one is left alone |
| HomeKitRoutes.AddedVisibleDeviceGoesLive | routes/homekit.py:184-189 | adding a visible device while the service runs puts it on the bridge exactly when the bridge does not hold its accessory id yet, and then under that id and the new row's name |
| HomeKitRoutes.FindRow | routes/homekit.py:215 | the lookup finds nothing exactly when no row has the id |
| HomeKitRoutes.WithoutRow | routes/homekit.py:219 | the rows without that row, nothing else removed |
| HomeKitRoutes.RemoveHomeKitDevice | routes/homekit.py:213-235 | a missing row is reported; otherwise it is removed, and a running service drops the device's accessory |
| HomeKitRoutes.ToggleHomeKitDevice | routes/homekit.py:246-267 | a missing row is reported; otherwise exactly that row's flag flips |
| HomeKitRoutes.ToggleHomeKitTwice | routes/homekit.py:249 | toggling twice restores the rows |
| HomeKitRoutes.GeneratePin | routes/homekit.py:322 | a draw in 10000000..99999999 gives eight digits without a leading zero, a PIN that formats |
| HomeKitRoutes.GeneratePinInjective | routes/homekit.py:322 | different draws give different PINs |
| AuthRoutes.FindUser | routes/auth.py:32 | the lookup finds nothing exactly when no user has the id |
| AuthRoutes.FindByName | routes/auth.py:58 | the lookup finds nothing exactly when no user has the name |
| AuthRoutes.LoginRequired | routes/auth.py:23-43 | a request proceeds exactly when the session's user still exists, with the stored username; a stale session is cleared |
| AuthRoutes.StaleSessionStaysOut | routes/auth.py:27-37 | a session whose user is gone is cleared and stays out afterwards, whatever users exist later |
| AuthRoutes.Login | routes/auth.py:46-68 | with no user the login page sends to initialisation; a login succeeds exactly when the user exists and the password verifies, and the session then passes the guard |
| AuthRoutes.Initialize | routes/auth.py:71-119 | initialisation is refused once any user exists; it succeeds exactly when the stripped username has at least 3 and the stripped password at least 6 characters and the confirmation matches, creating one user |
| AuthRoutes.InitializeOnce | routes/auth.py:51-52 | after initialisation the login no longer sends to initialisation and a second initialisation is refused |
| AuthRoutes.ChangePassword | routes/auth.py:130-159 | the change succeeds exactly when the current password verifies, the new ones match and have at least 6 characters, and then only the user's hash changes |
| AuthRoutes.NextUserId | routes/auth.py:192-196 | a new user's id exceeds every stored one |
| AuthRoutes.AddUser | routes/auth.py:171-202 | a taken name is refused; a user is added exactly when the name is free and the password has at least 6 characters; names stay unique |
| AuthRoutes.EditUser | routes/auth.py:206-236 | a missing user is reported; the edit succeeds exactly when no other user holds the name and the password is empty or at least 6 characters, and the hash changes only for a non-empty password |
| AuthRoutes.EditKeepsNamesUnique | routes/auth.py:217-221 | an edit keeps usernames unique because its own row is excluded from the check |
| AuthRoutes.WithoutUser | routes/auth.py:257 | the users without that one, nothing else removed |
| AuthRoutes.DeleteUser | routes/auth.py:240-260 | deletion succeeds exactly when the user exists, is not the one logged in and is not the last |
| AuthRoutes.DeleteKeepsMe | routes/auth.py:247-254 | after a deletion the logged-in user still passes the guard and the table is not empty |
| AppInit.NewPresets | app.py:1571-1578 | exactly the presets whose address is not already stored, in preset order |
| AppInit.PresetPosition | app.py:1584 | an empty preset position is stored as none |
| AppInit.SeedAll | app.py:1575-1607 | the preset loop builds a device for each new preset, with names drawn against every name seen so far |
| AppInit.InitPresetDevices | app.py:1569-1612 | one device per new preset, in order, with the preset's fields, the topic of its address, group "<section>区", hidden and the default credentials; names are fresh, pairwise distinct and built from the base name; ids are increasing and above every stored id; nothing is added when no preset is new |
| AppInit.PresetsAllNewOnEmptyTable | app.py:1487-1567 | on an empty table every preset is added |
| AppInit.SecondSeedingAddsNothing | app.py:1571-1578 | seeding a second time adds nothing |
| AppInit.MigrateBemfaConfig | app.py:1882-1906 | the table changes exactly when it is empty and a non-empty legacy key exists, and then holds one enabled key under "默认账号" |
| AppInit.MigrateIdempotent | app.py:1882-1906 | migrating twice is migrating once |
| AppInit.MigrationKeepsSync | app.py:1615-1706 | with visible devices and an account that answers, the sync after migration equals the legacy-key sync before it |

## Left out

- Network transport: HTTP requests, paho-mqtt connects and loops, the Bemfa REST calls. Each answer is an input of the model.
- MD5 (RFC 1321) and its hex upper-casing, and werkzeug's password hashing: function parameters.
- Threads and timing: `delayed_mqtt_init`, the five-second auto-lock thread of the HomeKit lock, the sleeps of a HomeKit restart, the HomeKit driver thread. No reconnect, backoff or health check exists.
- The HAP-python driver, the pairing QR code, and the HomeKit state and metadata files: the metadata a save writes is modelled, the file I/O is not.
- `reset_homekit_service`, `get_bemfa_key_api`, and the HomeKit bridge's serial number: display and file clean-up only.
- routes/video.py (FFmpeg streaming) and test_mqtt_status.py (a diagnostic script).
- SQLAlchemy, Flask sessions, flashed texts, templates and redirects: each handler returns its decision. The sync summary message is the only flashed text modelled.
- The messages and exception handling of `start_client` beyond "a failing connect leaves no client", and the log lines everywhere.
- Timestamps: only that a row is written.
- The dictionary key order of the device grouping: the model states the contents of each group, not the order of the keys.
- HomeKit.ExecuteUnlock: does not check the device's visibility, because `_execute_unlock` does not either.
- HomeKitRoutes.ValidateConfig: accepts only ASCII digits, whereas Python's `str.isdigit` also accepts other Unicode digits.
- HomeKitRoutes.AddHomeKitDevice: a missing `device_id` makes `int(None)` raise `TypeError`, which the model reports like a non-numeric id.
- HomeKitRoutes.NextAid: the accessory id stored in the row is not the one the bridge uses, which is `HomeKit.StableAidAsWritten`; the model keeps both as the source does.
- HomeKit.AddDeviceAccessories: of HAP-python's refusals only the one of an accessory id the bridge already holds is modelled; a failing accessory constructor and the library's other checks are not.
- HomeKit.ByDevice: rows of one device keep their table order, whereas SQL leaves the order of such ties open; the add route never stores two rows of one device.
- SettingsRoutes.SyncMessageOf: the text of an exception is an input, because `str(e)` and the wording of an `UnboundLocalError` belong to the interpreter.
- BemfaSync.SyncSingle: the delete answers are a function of the topic because the source iterates a set in unspecified order.
- Dahua.ServiceLogout: assumes a `requests` version in which a JSON decode error is a request exception, so an undecodable body yields false.

## Findings

| source | as written | input that shows it | evidently intended | confidence | as-written member | corrected member |
|---|---|---|---|---|---|---|
| services/homekit_service.py:535-542 | the accessory id is `device_id % 254 + 2`, and a result of 7 is moved to 8 | devices 5 and 6 both get accessory id 8, so a restart with both enabled and visible puts only device 5 on the bridge: adding device 6 raises inside the one `try` around the loop | a distinct accessory id for each device, avoiding 7 | not executed | HomeKit.RestartDropsCollidingDevice | HomeKit.CorrectedAidsNeverClash |
| services/mqtt_service.py:244-249 | `start_mqtt_service(client_id=...)` starts that client but never sets `is_running` | the legacy key on an idle manager: the client runs but the manager reports not running, so device routes skip subscribing and turning MQTT off does not stop the client; the visible-devices refresh with only the legacy key leaves the service in that state (`DeviceRoutes.UpdateVisibleDevices`) | the manager is marked running once a client is started | not executed | Mqtt.StartServiceLeavesNotRunning | Mqtt.StartServiceRuns |

=== FILE: app_init.dfy ===
/** Start-up work in app.py: seeding the device table with the preset door
    stations, and moving the single legacy Bemfa key into the key table. */
module AppInit {
  import opened Common
  import opened DeviceModel
  import opened BemfaSync
  import DeviceRoutes

  // ---------------------------------------------------------------------
  // Preset devices

  /** One preset: address, section, building and position ("" for none). */
  datatype Preset = Preset(ip: string, section: string, building: string, position: string)

  /** `PRESET_DEVICES`. */
  const PresetDevices: seq<Preset> := [
    Preset("172.16.11.4", "01", "001", "1"),
    Preset("172.16.11.1", "01", "001", "1"),
    Preset("172.16.11.2", "01", "001", "2"),
    Preset("172.16.11.5", "01", "001", "2"),
    Preset("172.16.11.3", "01", "001", "3"),
    Preset("172.16.11.6", "01", "001", "3"),
    Preset("172.16.12.1", "01", "002", "1"),
    Preset("172.16.12.2", "01", "002", "2"),
    Preset("172.16.12.3", "01", "002", "3"),
    Preset("172.16.13.1", "01", "003", "1"),
    Preset("172.16.13.2", "01", "003", "2"),
    Preset("172.16.13.3", "01", "003", "3"),
    Preset("172.16.14.2", "01", "004", "1"),
    Preset("172.16.14.1", "01", "004", "1"),
    Preset("172.16.14.3", "01", "004", "2"),
    Preset("172.16.14.5", "01", "004", "2"),
    Preset("172.16.14.6", "01", "004", "3"),
    Preset("172.16.14.4", "01", "004", "3"),
    Preset("172.16.15.1", "01", "005", "1"),
    Preset("172.16.15.2", "01", "005", "2"),
    Preset("172.16.15.3", "01", "005", "3"),
    Preset("172.16.16.1", "01", "006", "1"),
    Preset("172.16.16.2", "01", "006", "2"),
    Preset("172.16.17.1", "01", "007", "1"),
    Preset("172.16.17.2", "01", "007", "2"),
    Preset("172.16.17.3", "01", "007", "3"),
    Preset("172.16.111.49", "01", "999", ""),
    Preset("172.16.18.2", "01", "999", "1"),
    Preset("172.16.18.5", "01", "999", "1"),
    Preset("172.16.18.11", "01", "999", "1"),
    Preset("172.16.18.8", "01", "999", "1"),
    Preset("172.16.18.7", "01", "999", "1"),
    Preset("172.16.18.9", "01", "999", "1"),
    Preset("172.16.18.10", "01", "999", "1"),
    Preset("172.16.18.6", "01", "999", "1"),
    Preset("172.16.18.4", "01", "999", "1"),
    Preset("172.16.18.1", "01", "999", "1"),
    Preset("172.16.18.3", "01", "999", "1"),
    Preset("172.16.106.8", "02", "001", "1"),
    Preset("172.16.106.7", "02", "001", "2"),
    Preset("172.16.106.6", "02", "001", "3"),
    Preset("172.16.107.137", "02", "002", "1"),
    Preset("172.16.107.136", "02", "002", "1"),
    Preset("172.16.107.138", "02", "002", "1"),
    Preset("172.16.107.135", "02", "002", "3"),
    Preset("172.16.108.60", "02", "003", "1"),
    Preset("172.16.108.58", "02", "003", "2"),
    Preset("172.16.108.57", "02", "003", "3"),
    Preset("172.16.108.153", "02", "004", "1"),
    Preset("172.16.108.152", "02", "004", "2"),
    Preset("172.16.108.151", "02", "004", "3"),
    Preset("172.16.107.240", "02", "005", "1"),
    Preset("172.16.107.239", "02", "005", "2"),
    Preset("172.16.107.238", "02", "005", "3"),
    Preset("172.16.101.8", "02", "999", "1"),
    Preset("172.16.101.9", "02", "999", "3"),
    Preset("172.16.104.236", "03", "001", "1"),
    Preset("172.16.104.235", "03", "001", "2"),
    Preset("172.16.104.233", "03", "001", "3"),
    Preset("172.16.104.234", "03", "001", "3"),
    Preset("172.16.101.12", "04", "001", "1"),
    Preset("172.16.101.11", "04", "001", "2"),
    Preset("172.16.101.10", "04", "001", "3"),
    Preset("172.16.102.131", "04", "002", "1"),
    Preset("172.16.102.129", "04", "002", "1"),
    Preset("172.16.102.130", "04", "002", "1"),
    Preset("172.16.102.209", "04", "003", "1"),
    Preset("172.16.102.210", "04", "003", "1"),
    Preset("172.16.102.207", "04", "003", "1"),
    Preset("172.16.102.208", "04", "003", "2"),
    Preset("172.16.102.205", "04", "003", "3"),
    Preset("172.16.104.120", "04", "004", "1"),
    Preset("172.16.104.115", "04", "004", "1"),
    Preset("172.16.104.119", "04", "004", "1"),
    Preset("172.16.104.117", "04", "004", "1"),
    Preset("172.16.104.118", "04", "004", "2"),
    Preset("172.16.104.116", "04", "004", "3"),
    Preset("172.16.101.7", "04", "999", "1"),
    Preset("172.16.101.6", "04", "999", "1")
  ]

  function Ips(devices: seq<Device>): set<string> {
    set d | d in devices :: d.ip
  }

  function Names(devices: seq<Device>): set<string> {
    set d | d in devices :: d.name
  }

  /** The presets whose address is not taken yet, in preset order. The
      taken addresses are read once, before the loop. */
  function NewPresets(presets: seq<Preset>, taken: set<string>): (r: seq<Preset>)
    ensures |r| <= |presets|
    ensures forall p :: p in r <==> p in presets && p.ip !in taken
  {
    if presets == [] then []
    else (if presets[0].ip in taken then [] else [presets[0]]) + NewPresets(presets[1..], taken)
  }

  lemma {:induction false} NewPresetsSnoc(presets: seq<Preset>, p: Preset, taken: set<string>)
    ensures NewPresets(presets + [p], taken) == NewPresets(presets, taken) + (if p.ip in taken then [] else [p])
  {
    if presets != [] {
      assert (presets + [p])[1..] == presets[1..] + [p];
      NewPresetsSnoc(presets[1..], p, taken);
    } else {
      assert presets + [p] == [p];
    }
  }

  /** The new presets of one more preset of the list. */
  lemma NewPresetsPrefix(presets: seq<Preset>, i: nat, taken: set<string>)
    requires i < |presets|
    ensures NewPresets(presets[..i + 1], taken) ==
            NewPresets(presets[..i], taken) + (if presets[i].ip in taken then [] else [presets[i]])
  {
    assert presets[..i + 1] == presets[..i] + [presets[i]];
    NewPresetsSnoc(presets[..i], presets[i], taken);
  }

  /** `position if position else None`. */
  function PresetPosition(position: string): (r: Option<string>)
    ensures r.None? <==> position == ""
  {
    if position == "" then None else Some(position)
  }

  /** The stored device made from a preset, apart from its id and name:
      topic from the address, group "<section>区", hidden, the default
      credentials. */
  predicate FromPreset(d: Device, p: Preset) {
    && d.ip == p.ip && d.section == p.section && d.building == p.building
    && d.position == PresetPosition(p.position)
    && d.groupName == p.section + "区"
    && d.mqttTopic == MqttTopic(p.ip)
    && !d.visible
    && d.username == DeviceRoutes.DefaultUsername && d.password == DeviceRoutes.DefaultPassword
  }

  /** The name is the base name of the device's fields, or that base name
      with a "-k" suffix. */
  predicate NamedFromBase(d: Device) {
    d.name == BaseName(d.section, d.building, d.position) ||
    StartsWith(d.name, BaseName(d.section, d.building, d.position) + "-")
  }

  /** `added` is the seeding of `targets` so far: each device made from its
      preset, numbered from `firstId`, named from its base name, with
      names outside `stored`, inside `names`, and pairwise distinct. */
  predicate Seeded(added: seq<Device>, targets: seq<Preset>, stored: set<string>, names: set<string>, firstId: int) {
    && |added| == |targets|
    && (forall j :: 0 <= j < |added| ==> FromPreset(added[j], targets[j]))
    && (forall j :: 0 <= j < |added| ==> added[j].id == firstId + j && NamedFromBase(added[j]))
    && (forall j :: 0 <= j < |added| ==> added[j].name in names && added[j].name !in stored)
    && (forall j, k :: 0 <= j < k < |added| ==> added[j].name != added[k].name)
  }

  lemma SeededStep(added: seq<Device>, targets: seq<Preset>, stored: set<string>, names: set<string>,
                   firstId: int, d: Device, p: Preset)
    requires Seeded(added, targets, stored, names, firstId)
    requires stored <= names && d.name !in names
    requires FromPreset(d, p) && d.id == firstId + |added| && NamedFromBase(d)
    ensures Seeded(added + [d], targets + [p], stored, names + {d.name}, firstId)
  {
    var a := added + [d];
    assert forall j :: 0 <= j < |added| ==> a[j] == added[j];
  }

  /** One new preset: named against every name so far, then appended. */
  method SeedOne(added: seq<Device>, targets: seq<Preset>, stored: set<string>, names: set<string>,
                 firstId: int, p: Preset)
    returns (added': seq<Device>, names': set<string>)
    requires Seeded(added, targets, stored, names, firstId) && stored <= names
    ensures Seeded(added', targets + [p], stored, names', firstId) && stored <= names'
  {
    var position := PresetPosition(p.position);
    var name := GenerateDeviceName(p.section, p.building, position, names);
    var d := Device(firstId + |added|, name, p.section + "区", p.section, p.building, position, p.ip,
                    DeviceRoutes.DefaultUsername, DeviceRoutes.DefaultPassword, MqttTopic(p.ip), false);
    NamedByCandidate(p.section, p.building, position, names, name);
    SeededStep(added, targets, stored, names, firstId, d, p);
    added' := added + [d];
    names' := names + {name};
  }

  /** The loop of `init_preset_devices` over the presets, with the stored
      addresses `taken` and names `stored`. */
  method SeedAll(presets: seq<Preset>, taken: set<string>, stored: set<string>, firstId: int)
    returns (added: seq<Device>, names: set<string>)
    ensures Seeded(added, NewPresets(presets, taken), stored, names, firstId)
  {
    names := stored;
    added := [];
    var targets: seq<Preset> := [];
    var i := 0;
    while i < |presets|
      invariant 0 <= i <= |presets|
      invariant targets == NewPresets(presets[..i], taken)
      invariant Seeded(added, targets, stored, names, firstId)
      invariant stored <= names
    {
      var p := presets[i];
      NewPresetsPrefix(presets, i, taken);
      if p.ip !in taken {
        added, names := SeedOne(added, targets, stored, names, firstId, p);
        targets := targets + [p];
      }
      i := i + 1;
    }
    assert presets[..i] == presets;
  }

  /** `init_preset_devices`: the devices added to the table. Presets whose
      address is already stored are skipped; each new one is named by
      `generate_device_name` against every name stored or given so far,
      so no two names clash. Nothing is added when no preset is new. */
  method InitPresetDevices(devices: seq<Device>, presets: seq<Preset>) returns (added: seq<Device>)
    ensures |added| == |NewPresets(presets, Ips(devices))|
    ensures forall i :: 0 <= i < |added| ==> FromPreset(added[i], NewPresets(presets, Ips(devices))[i])
    ensures forall i :: 0 <= i < |added| ==> added[i].ip !in Ips(devices)
    ensures forall i :: 0 <= i < |added| ==> added[i].name !in Names(devices) && NamedFromBase(added[i])
    ensures forall i, j :: 0 <= i < j < |added| ==> added[i].name != added[j].name
    ensures forall i, d :: 0 <= i < |added| && d in devices ==> d.id < added[i].id
    ensures forall i, j :: 0 <= i < j < |added| ==> added[i].id < added[j].id
  {
    var firstId := DeviceRoutes.NextId(devices);
    var names;
    added, names := SeedAll(presets, Ips(devices), Names(devices), firstId);
    SeededDevices(devices, presets, added, names, firstId);
  }

  /** What a finished seeding says about the devices added. */
  lemma SeededDevices(devices: seq<Device>, presets: seq<Preset>, added: seq<Device>, names: set<string>,
                      firstId: int)
    requires Seeded(added, NewPresets(presets, Ips(devices)), Names(devices), names, firstId)
    requires firstId == DeviceRoutes.NextId(devices)
    ensures |added| == |NewPresets(presets, Ips(devices))|
    ensures forall i :: 0 <= i < |added| ==> FromPreset(added[i], NewPresets(presets, Ips(devices))[i])
    ensures forall i :: 0 <= i < |added| ==> added[i].name !in Names(devices) && NamedFromBase(added[i])
    ensures forall i, j :: 0 <= i < j < |added| ==> added[i].name != added[j].name
    ensures forall i :: 0 <= i < |added| ==> added[i].ip !in Ips(devices)
    ensures forall i, d :: 0 <= i < |added| && d in devices ==> d.id < added[i].id
    ensures forall i, j :: 0 <= i < j < |added| ==> added[i].id < added[j].id
  {
    var targets := NewPresets(presets, Ips(devices));
    forall j | 0 <= j < |added|
      ensures added[j].ip !in Ips(devices)
    {
      assert targets[j] in targets;
    }
  }

  /** A generated name is the base name or the base name with a "-k" suffix. */
  lemma NamedByCandidate(section: string, building: string, position: Option<string>, existing: set<string>,
                         name: string)
    requires exists k: nat :: FirstFree(BaseName(section, building, position), existing, k) &&
                              name == Candidate(BaseName(section, building, position), k)
    ensures name == BaseName(section, building, position) ||
            StartsWith(name, BaseName(section, building, position) + "-")
  {
    var base := BaseName(section, building, position);
    var k: nat :| FirstFree(base, existing, k) && name == Candidate(base, k);
    if k != 0 {
      assert name == (base + "-") + NatToString(k);
    }
  }

  /** On an empty table every preset is added (the preset addresses are
      pairwise distinct, and none is taken). */
  lemma PresetsAllNewOnEmptyTable()
    ensures NewPresets(PresetDevices, Ips([])) == PresetDevices
  {
    NewPresetsNoneTaken(PresetDevices, Ips([]));
  }

  lemma {:induction false} NewPresetsNoneTaken(presets: seq<Preset>, taken: set<string>)
    requires forall p :: p in presets ==> p.ip !in taken
    ensures NewPresets(presets, taken) == presets
  {
    if presets != [] {
      NewPresetsNoneTaken(presets[1..], taken);
    }
  }

  /** Seeding twice adds nothing the second time. */
  lemma SecondSeedingAddsNothing(devices: seq<Device>, added: seq<Device>, presets: seq<Preset>)
    requires |added| == |NewPresets(presets, Ips(devices))|
    requires forall i :: 0 <= i < |added| ==> FromPreset(added[i], NewPresets(presets, Ips(devices))[i])
    ensures NewPresets(presets, Ips(devices + added)) == []
  {
    var newOnes := NewPresets(presets, Ips(devices));
    forall p | p in presets
      ensures p.ip in Ips(devices + added)
    {
      if p.ip !in Ips(devices) {
        assert p in newOnes;
        var i :| 0 <= i < |newOnes| && newOnes[i] == p;
        assert added[i] in devices + added;
      } else {
        var d :| d in devices && d.ip == p.ip;
        assert d in devices + added;
      }
    }
    NoneNew(presets, Ips(devices + added));
  }

  lemma {:induction false} NoneNew(presets: seq<Preset>, taken: set<string>)
    requires forall p :: p in presets ==> p.ip in taken
    ensures NewPresets(presets, taken) == []
  {
    if presets != [] {
      NoneNew(presets[1..], taken);
    }
  }

  // ---------------------------------------------------------------------
  // Migrating the legacy Bemfa key

  /** `migrate_bemfa_config`: while the key table is empty, a non-empty
      legacy `bemfa_private_key` becomes one enabled key under the default
      account name; otherwise nothing changes. */
  function MigrateBemfaConfig(keys: seq<BemfaKey>, legacyKey: Option<string>): (r: seq<BemfaKey>)
    ensures keys != [] ==> r == keys
    ensures |r| <= |keys| + 1
    ensures r != keys <==> keys == [] && legacyKey.Some? && legacyKey.value != ""
    ensures r != keys ==> r == [BemfaKey(1, DefaultAccountName, legacyKey.value, true)]
  {
    if keys != [] then keys
    else if legacyKey.Some? && legacyKey.value != "" then [BemfaKey(1, DefaultAccountName, legacyKey.value, true)]
    else keys
  }

  /** Migrating twice is migrating once. */
  lemma MigrateIdempotent(keys: seq<BemfaKey>, legacyKey: Option<string>)
    ensures MigrateBemfaConfig(MigrateBemfaConfig(keys, legacyKey), legacyKey) == MigrateBemfaConfig(keys, legacyKey)
  {
  }

  /** With visible devices and an account that answers without raising,
      the migrated key syncs exactly as the legacy fallback did. */
  lemma MigrationKeepsSync(legacy: string, devices: seq<Device>, env: string -> AccountEnv)
    requires legacy != ""
    requires VisibleDevices(devices) != []
    requires SyncSingle(VisibleDevices(devices), env(legacy)).Ok?
    ensures SyncAll(MigrateBemfaConfig([], Some(legacy)), Some(legacy), devices, env) ==
            SyncAll([], Some(legacy), devices, env)
  {
    var k := BemfaKey(1, DefaultAccountName, legacy, true);
    var visible := VisibleDevices(devices);
    var c := SyncSingle(visible, env(legacy)).value;
    assert EnabledKeys([k]) == [k];
    var reports := Reports([k], visible, env);
    assert reports == [AccountReport(DefaultAccountName, KeyHint(legacy), c, true)];
    assert reports[..0] == [];
    assert Total(reports) == Add(NoCounts, c) == c;
  }
}

=== FILE: bemfa.dfy ===
/** Reconciliation of the door stations with the topics of Bemfa cloud
    accounts (`BemfaSyncService` in services/bemfa_service.py; app.py holds
    an older copy without the MQTT restart).

    The HTTP calls of `BemfaService` are replaced by their answers: the topic
    list of an account, the code of each delete (a function of the topic,
    because the source deletes in set order), and the codes of the creates
    and renames in request order. A missing create or rename answer reads as
    -1, the code `BemfaService` returns when a request raises. */
module BemfaSync {
  import opened Common
  import opened DeviceModel

  const CodeOk: int := 0
  /** "Topic already exists": neither created nor failed. */
  const CodeExists: int := 40006
  /** What `BemfaService` reports when its request raised. */
  const CodeRaised: int := -1
  /** Name of the account row made up for the legacy private key. */
  const DefaultAccountName: string := "默认账号"

  /** One entry of the topic list; `topic` is `None` when the key is missing
      and `name` is "" when it is missing. */
  datatype RemoteTopic = RemoteTopic(topic: Option<string>, name: string)

  /** The answer of `get_all_topics`; a missing `data` is the empty list. */
  datatype TopicList = TopicList(code: int, data: seq<RemoteTopic>)

  /** Everything one account answers during a sync. */
  datatype AccountEnv = AccountEnv(list: TopicList, deleteCode: string -> int,
                                   createCodes: seq<int>, updateCodes: seq<int>)

  /** Why a sync raised: a listed topic without its `topic` key. */
  datatype SyncError = MissingTopicKey

  /** `Device.query.filter_by(visible=True).all()`, in query order. */
  function VisibleDevices(devices: seq<Device>): (r: seq<Device>)
    ensures |r| <= |devices|
    ensures forall d :: d in r <==> d in devices && d.visible
  {
    if devices == [] then []
    else (if devices[0].visible then [devices[0]] else []) + VisibleDevices(devices[1..])
  }

  /** `if topic:` — the device has a non-empty topic. */
  predicate HasTopic(d: Device) {
    d.mqttTopic.Some? && d.mqttTopic.value != ""
  }

  /** Every listed entry carries its `topic` key. */
  predicate Listed(data: seq<RemoteTopic>) {
    forall i :: 0 <= i < |data| ==> data[i].topic.Some?
  }

  /** `topic_names`: each listed topic with the name of its last entry. */
  function Names(data: seq<RemoteTopic>): (m: map<string, string>)
    requires Listed(data)
    ensures forall i :: 0 <= i < |data| ==> data[i].topic.value in m
    ensures forall t :: t in m ==> exists i :: 0 <= i < |data| && data[i].topic == Some(t)
    ensures data != [] ==> m[data[|data| - 1].topic.value] == data[|data| - 1].name
  {
    if data == [] then map[]
    else
      var last := data[|data| - 1];
      Names(data[..|data| - 1])[last.topic.value := last.name]
  }

  /** The known remote topics with their names: nothing unless the list
      answered code 0, and the `KeyError` of an entry without `topic`. */
  function Remote(list: TopicList): (r: Result<map<string, string>, SyncError>)
    ensures list.code != CodeOk ==> r == Ok(map[])
    ensures list.code == CodeOk ==> (r.Ok? <==> Listed(list.data))
    ensures r.Ok? ==> forall t :: t in r.value ==> exists i :: 0 <= i < |list.data| && list.data[i].topic == Some(t)
  {
    if list.code != CodeOk then Ok(map[])
    else if Listed(list.data) then Ok(Names(list.data))
    else Err(MissingTopicKey)
  }

  /** `current_device_topics`: the non-empty topics of the visible devices. */
  function Desired(visible: seq<Device>): (s: set<string>)
    ensures forall i :: 0 <= i < |visible| && HasTopic(visible[i]) ==> visible[i].mqttTopic.value in s
    ensures forall t :: t in s ==> exists i :: 0 <= i < |visible| && HasTopic(visible[i]) && visible[i].mqttTopic.value == t
  {
    set i | 0 <= i < |visible| && HasTopic(visible[i]) :: visible[i].mqttTopic.value
  }

  /** `topics_to_delete`: the known topics that start with "vto" and belong
      to no visible device. Other topics are never touched. */
  function ToDelete(existing: set<string>, desired: set<string>): (s: set<string>)
    ensures s <= existing
    ensures forall t :: t in s <==> t in existing && StartsWith(t, TopicPrefix) && t !in desired
  {
    set t | t in existing && StartsWith(t, TopicPrefix) && t !in desired
  }

  /** A topic with the device name it should carry. */
  datatype Entry = Entry(topic: string, name: string)

  /** `topics_to_create`: the visible devices, in order, whose topic is not
      known remotely. Two devices with one topic give two entries. */
  function CreatePlan(visible: seq<Device>, existing: set<string>): (p: seq<Entry>)
    ensures |p| <= |visible|
    ensures forall e :: e in p ==> e.topic !in existing && e.topic != ""
    ensures forall d :: d in visible && HasTopic(d) && d.mqttTopic.value !in existing ==>
              Entry(d.mqttTopic.value, d.name) in p
    ensures forall i :: 0 <= i < |p| ==> exists d :: d in visible && HasTopic(d) && p[i] == Entry(d.mqttTopic.value, d.name)
  {
    if visible == [] then []
    else
      var d := visible[0];
      (if HasTopic(d) && d.mqttTopic.value !in existing then [Entry(d.mqttTopic.value, d.name)] else [])
      + CreatePlan(visible[1..], existing)
  }

  /** `topics_to_update`: the visible devices, in order, whose topic is
      known remotely under another name. */
  function UpdatePlan(visible: seq<Device>, names: map<string, string>): (p: seq<Entry>)
    ensures |p| <= |visible|
    ensures forall e :: e in p ==> e.topic in names && names[e.topic] != e.name && e.topic != ""
    ensures forall d :: (d in visible && HasTopic(d) && d.mqttTopic.value in names &&
                         names[d.mqttTopic.value] != d.name) ==> Entry(d.mqttTopic.value, d.name) in p
    ensures forall i :: 0 <= i < |p| ==> exists d :: d in visible && HasTopic(d) && p[i] == Entry(d.mqttTopic.value, d.name)
  {
    if visible == [] then []
    else
      var d := visible[0];
      (if HasTopic(d) && d.mqttTopic.value in names && names[d.mqttTopic.value] != d.name
       then [Entry(d.mqttTopic.value, d.name)] else [])
      + UpdatePlan(visible[1..], names)
  }

  /** No topic is both created and renamed. */
  lemma PlansDisjoint(visible: seq<Device>, names: map<string, string>, e: Entry, f: Entry)
    requires e in CreatePlan(visible, names.Keys)
    requires f in UpdatePlan(visible, names)
    ensures e.topic != f.topic
  {
  }

  /** The answer to the i-th request of a batch; a missing one reads as the
      code of a raised request. */
  function CodeAt(codes: seq<int>, i: nat): int {
    if i < |codes| then codes[i] else CodeRaised
  }

  /** How many of the first n answers carry `code`. */
  function CountCode(codes: seq<int>, n: nat, code: int): (c: nat)
    ensures c <= n
  {
    if n == 0 then 0 else CountCode(codes, n - 1, code) + (if CodeAt(codes, n - 1) == code then 1 else 0)
  }

  /** How many of the first n answers are neither success nor "exists". */
  function CountFailed(codes: seq<int>, n: nat): (c: nat)
    ensures c <= n
  {
    if n == 0 then 0
    else CountFailed(codes, n - 1) +
         (if CodeAt(codes, n - 1) != CodeOk && CodeAt(codes, n - 1) != CodeExists then 1 else 0)
  }

  /** Every create answer is counted exactly once: as created, as already
      existing, or as failed. */
  lemma {:induction false} CreateTally(codes: seq<int>, n: nat)
    ensures CountCode(codes, n, CodeOk) + CountCode(codes, n, CodeExists) + CountFailed(codes, n) == n
  {
    if n > 0 {
      CreateTally(codes, n - 1);
    }
  }

  /** The four counters of a sync. */
  datatype Counts = Counts(created: nat, updated: nat, deleted: nat, failed: nat)

  const NoCounts: Counts := Counts(0, 0, 0, 0)

  /** Some topic was created, renamed or deleted. */
  predicate Changed(c: Counts) {
    c.created > 0 || c.updated > 0 || c.deleted > 0
  }

  /** `deleted_count`: the deletes answered with code 0. */
  function DeletedCount(deletes: set<string>, deleteCode: string -> int): (n: nat)
    ensures n <= |deletes|
    ensures n == |deletes| <==> forall t :: t in deletes ==> deleteCode(t) == CodeOk
  {
    var ok := set t | t in deletes && deleteCode(t) == CodeOk;
    assert deletes == ok + (deletes - ok);
    assert |deletes| == |ok| + |deletes - ok|;
    assert |ok| == |deletes| ==> deletes - ok == {};
    |ok|
  }

  /** The delete set of an account given the visible devices. */
  function DeleteSet(visible: seq<Device>, names: map<string, string>): set<string> {
    ToDelete(names.Keys, Desired(visible))
  }

  /** `sync_single_bemfa_account`: delete the stale "vto" topics, create the
      missing ones, rename the misnamed ones, and count the answers. */
  function SyncSingle(visible: seq<Device>, env: AccountEnv): (r: Result<Counts, SyncError>)
    ensures r.Err? <==> Remote(env.list).Err?
    ensures r.Ok? ==>
              r.value.deleted == DeletedCount(DeleteSet(visible, Remote(env.list).value), env.deleteCode)
    ensures r.Ok? ==>
              r.value.created + r.value.failed <= |CreatePlan(visible, Remote(env.list).value.Keys)|
    ensures r.Ok? ==> r.value.updated <= |UpdatePlan(visible, Remote(env.list).value)|
    ensures r.Ok? ==>
              r.value.created == CountCode(env.createCodes, |CreatePlan(visible, Remote(env.list).value.Keys)|, CodeOk) &&
              r.value.failed == CountFailed(env.createCodes, |CreatePlan(visible, Remote(env.list).value.Keys)|) &&
              r.value.updated == CountCode(env.updateCodes, |UpdatePlan(visible, Remote(env.list).value)|, CodeOk)
  {
    match Remote(env.list)
    case Err(e) => Err(e)
    case Ok(names) =>
      var creates := CreatePlan(visible, names.Keys);
      var updates := UpdatePlan(visible, names);
      CreateTally(env.createCodes, |creates|);
      Ok(Counts(CountCode(env.createCodes, |creates|, CodeOk),
                CountCode(env.updateCodes, |updates|, CodeOk),
                DeletedCount(DeleteSet(visible, names), env.deleteCode),
                CountFailed(env.createCodes, |creates|)))
  }

  // ---------------------------------------------------------------------
  // What the account holds afterwards

  /** The account's topics after the deletes that answered code 0. */
  function AfterDeletes(names: map<string, string>, deletes: set<string>, deleteCode: string -> int)
    : (m: map<string, string>)
    ensures m.Keys <= names.Keys
    ensures forall t :: t in m <==> t in names && !(t in deletes && deleteCode(t) == CodeOk)
    ensures forall t :: t in m ==> m[t] == names[t]
  {
    map t | t in names && !(t in deletes && deleteCode(t) == CodeOk) :: names[t]
  }

  /** The account's topics after the first n entries of a batch, where an
      entry answered with code 0 sets the topic's name. */
  function Apply(m: map<string, string>, plan: seq<Entry>, codes: seq<int>, n: nat): map<string, string>
    requires n <= |plan|
  {
    if n == 0 then m
    else
      var prev := Apply(m, plan, codes, n - 1);
      if CodeAt(codes, n - 1) == CodeOk then prev[plan[n - 1].topic := plan[n - 1].name] else prev
  }

  /** After a batch whose answers were all code 0, a topic of the batch
      carries the name of one of its entries, and every other topic is left
      as it was. */
  lemma {:induction false} ApplyLookup(m: map<string, string>, plan: seq<Entry>, codes: seq<int>, n: nat, t: string)
    requires n <= |plan|
    requires forall i :: 0 <= i < n ==> CodeAt(codes, i) == CodeOk
    ensures (exists i :: 0 <= i < n && plan[i].topic == t) ==>
              t in Apply(m, plan, codes, n) &&
              exists i :: 0 <= i < n && plan[i] == Entry(t, Apply(m, plan, codes, n)[t])
    ensures (forall i :: 0 <= i < n ==> plan[i].topic != t) ==>
              (t in Apply(m, plan, codes, n) <==> t in m) &&
              (t in m ==> Apply(m, plan, codes, n)[t] == m[t])
  {
    if n > 0 {
      ApplyLookup(m, plan, codes, n - 1, t);
      if plan[n - 1].topic != t && exists i :: 0 <= i < n && plan[i].topic == t {
        var i :| 0 <= i < n && plan[i].topic == t;
        assert i < n - 1;
      }
    }
  }

  /** Every key the batch leaves behind was already there or is a topic of
      the batch. */
  lemma {:induction false} ApplyKeys(m: map<string, string>, plan: seq<Entry>, codes: seq<int>, n: nat, t: string)
    requires n <= |plan|
    requires t in Apply(m, plan, codes, n)
    ensures t in m || exists i :: 0 <= i < n && plan[i].topic == t
  {
    if n > 0 && t in Apply(m, plan, codes, n - 1) {
      ApplyKeys(m, plan, codes, n - 1, t);
    }
  }

  /** The account after a sync: deletes, then creates, then renames. */
  function AfterSync(names: map<string, string>, visible: seq<Device>, env: AccountEnv): map<string, string> {
    var creates := CreatePlan(visible, names.Keys);
    var updates := UpdatePlan(visible, names);
    var m1 := AfterDeletes(names, DeleteSet(visible, names), env.deleteCode);
    var m2 := Apply(m1, creates, env.createCodes, |creates|);
    Apply(m2, updates, env.updateCodes, |updates|)
  }

  /** Visible devices that share a topic share a name. */
  predicate ConsistentNames(visible: seq<Device>) {
    forall i, j ::
      (0 <= i < |visible| && 0 <= j < |visible| && HasTopic(visible[i]) && HasTopic(visible[j]) &&
       visible[i].mqttTopic == visible[j].mqttTopic) ==> visible[i].name == visible[j].name
  }

  /** Every request of the sync answered code 0. */
  predicate AllAccepted(visible: seq<Device>, names: map<string, string>, env: AccountEnv) {
    (forall t :: t in DeleteSet(visible, names) ==> env.deleteCode(t) == CodeOk) &&
    (forall i :: 0 <= i < |CreatePlan(visible, names.Keys)| ==> CodeAt(env.createCodes, i) == CodeOk) &&
    (forall i :: 0 <= i < |UpdatePlan(visible, names)| ==> CodeAt(env.updateCodes, i) == CodeOk)
  }

  /** Entries of either plan that carry a device's topic carry its name. */
  lemma PlanNames(names: map<string, string>, visible: seq<Device>, d: Device)
    requires ConsistentNames(visible)
    requires d in visible && HasTopic(d)
    ensures forall i :: (0 <= i < |CreatePlan(visible, names.Keys)| &&
                         CreatePlan(visible, names.Keys)[i].topic == d.mqttTopic.value) ==>
              CreatePlan(visible, names.Keys)[i].name == d.name
    ensures forall i :: (0 <= i < |UpdatePlan(visible, names)| &&
                         UpdatePlan(visible, names)[i].topic == d.mqttTopic.value) ==>
              UpdatePlan(visible, names)[i].name == d.name
  {
    var k :| 0 <= k < |visible| && visible[k] == d;
    forall i | 0 <= i < |CreatePlan(visible, names.Keys)| && CreatePlan(visible, names.Keys)[i].topic == d.mqttTopic.value
      ensures CreatePlan(visible, names.Keys)[i].name == d.name
    {
      var e :| e in visible && HasTopic(e) && CreatePlan(visible, names.Keys)[i] == Entry(e.mqttTopic.value, e.name);
      var j :| 0 <= j < |visible| && visible[j] == e;
    }
    forall i | 0 <= i < |UpdatePlan(visible, names)| && UpdatePlan(visible, names)[i].topic == d.mqttTopic.value
      ensures UpdatePlan(visible, names)[i].name == d.name
    {
      var e :| e in visible && HasTopic(e) && UpdatePlan(visible, names)[i] == Entry(e.mqttTopic.value, e.name);
      var j :| 0 <= j < |visible| && visible[j] == e;
    }
  }

  /** When every request succeeds, the account afterwards holds each
      visible device's topic under the device's name. */
  lemma SyncMirrors(names: map<string, string>, visible: seq<Device>, env: AccountEnv, d: Device)
    requires ConsistentNames(visible)
    requires AllAccepted(visible, names, env)
    requires d in visible && HasTopic(d)
    ensures d.mqttTopic.value in AfterSync(names, visible, env)
    ensures AfterSync(names, visible, env)[d.mqttTopic.value] == d.name
  {
    var creates := CreatePlan(visible, names.Keys);
    var updates := UpdatePlan(visible, names);
    var m1 := AfterDeletes(names, DeleteSet(visible, names), env.deleteCode);
    var m2 := Apply(m1, creates, env.createCodes, |creates|);
    var u := d.mqttTopic.value;
    PlanNames(names, visible, d);
    ApplyLookup(m1, creates, env.createCodes, |creates|, u);
    ApplyLookup(m2, updates, env.updateCodes, |updates|, u);
    if u !in names {
      assert Entry(u, d.name) in creates;
    } else if names[u] == d.name {
      assert u in m1;
    } else {
      assert Entry(u, d.name) in updates;
    }
  }

  /** When every delete succeeds, no "vto" topic outside the visible
      devices' topics is left behind. */
  lemma SyncLeavesNoStale(names: map<string, string>, visible: seq<Device>, env: AccountEnv, t: string)
    requires AllAccepted(visible, names, env)
    requires t in AfterSync(names, visible, env) && StartsWith(t, TopicPrefix)
    ensures t in Desired(visible)
  {
    var creates := CreatePlan(visible, names.Keys);
    var updates := UpdatePlan(visible, names);
    var m1 := AfterDeletes(names, DeleteSet(visible, names), env.deleteCode);
    var m2 := Apply(m1, creates, env.createCodes, |creates|);
    ApplyKeys(m2, updates, env.updateCodes, |updates|, t);
    if t in m2 {
      ApplyKeys(m1, creates, env.createCodes, |creates|, t);
    }
    if t !in m2 {
      var i :| 0 <= i < |updates| && updates[i].topic == t;
      assert t in names;
    }
  }

  // ---------------------------------------------------------------------
  // All accounts

  /** A row of the `BemfaKey` table. */
  datatype BemfaKey = BemfaKey(id: int, name: string, key: string, enabled: bool)

  /** `BemfaKey.query.filter_by(enabled=True).all()`, in table order. */
  function EnabledKeys(keys: seq<BemfaKey>): (r: seq<BemfaKey>)
    ensures |r| <= |keys|
    ensures forall k :: k in r <==> k in keys && k.enabled
  {
    if keys == [] then []
    else (if keys[0].enabled then [keys[0]] else []) + EnabledKeys(keys[1..])
  }

  /** `key[:8] + '...'`: at most the first eight characters, then "...". */
  function KeyHint(key: string): (h: string)
    ensures |key| <= 8 ==> h == key + "..."
    ensures |key| > 8 ==> |h| == 11 && h[..8] == key[..8]
    ensures |h| >= 3 && h[|h| - 3..] == "..."
  {
    (if |key| <= 8 then key else key[..8]) + "..."
  }

  /** One entry of `accounts`. */
  datatype AccountReport = AccountReport(name: string, keyHint: string, counts: Counts, success: bool)

  /** The dictionary `sync_visible_devices_to_bemfa` returns. */
  datatype Summary = Summary(counts: Counts, totalDevices: nat, accounts: seq<AccountReport>)

  /** The sync of one account inside the `try` of the account loop: an
      account that raises is reported with zero counts and `success` false. */
  function Report(k: BemfaKey, visible: seq<Device>, env: string -> AccountEnv): (r: AccountReport)
    ensures r.name == k.name && r.keyHint == KeyHint(k.key)
    ensures r.success <==> SyncSingle(visible, env(k.key)).Ok?
    ensures r.success ==> r.counts == SyncSingle(visible, env(k.key)).value
    ensures !r.success ==> r.counts == NoCounts
  {
    match SyncSingle(visible, env(k.key))
    case Ok(c) => AccountReport(k.name, KeyHint(k.key), c, true)
    case Err(_) => AccountReport(k.name, KeyHint(k.key), NoCounts, false)
  }

  /** The account reports, one per key in key order; a raising account does
      not stop the ones after it. */
  function Reports(keys: seq<BemfaKey>, visible: seq<Device>, env: string -> AccountEnv): (r: seq<AccountReport>)
    ensures |r| == |keys|
    ensures forall i :: 0 <= i < |keys| ==> r[i] == Report(keys[i], visible, env)
  {
    if keys == [] then [] else [Report(keys[0], visible, env)] + Reports(keys[1..], visible, env)
  }

  function Add(a: Counts, b: Counts): Counts {
    Counts(a.created + b.created, a.updated + b.updated, a.deleted + b.deleted, a.failed + b.failed)
  }

  /** The counters of all reports added up. */
  function Total(reports: seq<AccountReport>): Counts {
    if reports == [] then NoCounts else Add(Total(reports[..|reports| - 1]), reports[|reports| - 1].counts)
  }

  /** A total counts a change exactly when some account does. */
  lemma {:induction false} TotalChanged(reports: seq<AccountReport>)
    ensures Changed(Total(reports)) <==> exists i :: 0 <= i < |reports| && Changed(reports[i].counts)
  {
    if reports != [] {
      var init := reports[..|reports| - 1];
      TotalChanged(init);
      if exists i :: 0 <= i < |init| && Changed(init[i].counts) {
        var i :| 0 <= i < |init| && Changed(init[i].counts);
        assert reports[i] == init[i];
      }
      if exists i :: 0 <= i < |reports| && Changed(reports[i].counts) {
        var i :| 0 <= i < |reports| && Changed(reports[i].counts);
        if i < |init| {
          assert init[i] == reports[i];
        }
      }
    }
  }

  /** The account loop of `sync_visible_devices_to_bemfa`, accumulating the
      totals as it goes. */
  method SumAccounts(keys: seq<BemfaKey>, visible: seq<Device>, env: string -> AccountEnv)
    returns (totals: Counts, reports: seq<AccountReport>)
    ensures reports == Reports(keys, visible, env)
    ensures totals == Total(reports)
  {
    totals := NoCounts;
    reports := [];
    var i := 0;
    while i < |keys|
      invariant 0 <= i <= |keys|
      invariant reports == Reports(keys[..i], visible, env)
      invariant totals == Total(reports)
    {
      var r := Report(keys[i], visible, env);
      SumStep(keys, i, visible, env);
      TotalSnoc(reports, r);
      reports := reports + [r];
      totals := Add(totals, r.counts);
      i := i + 1;
    }
    assert keys[..i] == keys;
  }

  lemma SumStep(keys: seq<BemfaKey>, i: nat, visible: seq<Device>, env: string -> AccountEnv)
    requires i < |keys|
    ensures Reports(keys[..i + 1], visible, env) == Reports(keys[..i], visible, env) + [Report(keys[i], visible, env)]
  {
    assert keys[..i + 1] == keys[..i] + [keys[i]];
    ReportsSnoc(keys[..i], keys[i], visible, env);
  }

  lemma TotalSnoc(reports: seq<AccountReport>, r: AccountReport)
    ensures Total(reports + [r]) == Add(Total(reports), r.counts)
  {
    assert (reports + [r])[..|reports|] == reports;
  }

  lemma ReportsSnoc(keys: seq<BemfaKey>, k: BemfaKey, visible: seq<Device>, env: string -> AccountEnv)
    ensures Reports(keys + [k], visible, env) == Reports(keys, visible, env) + [Report(k, visible, env)]
  {
    assert |Reports(keys + [k], visible, env)| == |keys| + 1;
    forall i | 0 <= i < |keys| + 1
      ensures Reports(keys + [k], visible, env)[i] == (Reports(keys, visible, env) + [Report(k, visible, env)])[i]
    {
    }
  }

  /** `sync_visible_devices_to_bemfa` (both copies compute the same result).
      `legacyKey` is the value of the old `bemfa_private_key` setting; `Err`
      is an exception of the legacy single-account sync, which nothing
      catches. */
  function SyncAll(keys: seq<BemfaKey>, legacyKey: Option<string>, devices: seq<Device>, env: string -> AccountEnv)
    : (r: Result<Summary, SyncError>)
    // no enabled key and no legacy key: nothing happens
    ensures EnabledKeys(keys) == [] && (legacyKey.None? || legacyKey.value == "") ==>
              r == Ok(Summary(NoCounts, 0, []))
    // the legacy key alone: a single account named by default
    ensures EnabledKeys(keys) == [] && legacyKey.Some? && legacyKey.value != "" ==>
              var one := SyncSingle(VisibleDevices(devices), env(legacyKey.value));
              (r.Err? <==> one.Err?) &&
              (r.Ok? ==> r.value == Summary(one.value, |VisibleDevices(devices)|,
                                            [AccountReport(DefaultAccountName, KeyHint(legacyKey.value), one.value, true)]))
    // enabled keys but no visible device: nothing happens
    ensures EnabledKeys(keys) != [] && VisibleDevices(devices) == [] ==> r == Ok(Summary(NoCounts, 0, []))
    // enabled keys and visible devices: every account, summed, never raising
    ensures EnabledKeys(keys) != [] && VisibleDevices(devices) != [] ==>
              r.Ok? && r.value.accounts == Reports(EnabledKeys(keys), VisibleDevices(devices), env) &&
              r.value.counts == Total(r.value.accounts) &&
              r.value.totalDevices == |VisibleDevices(devices)|
  {
    var enabled := EnabledKeys(keys);
    var visible := VisibleDevices(devices);
    if enabled == [] then
      if legacyKey.Some? && legacyKey.value != "" then
        match SyncSingle(visible, env(legacyKey.value))
        case Err(e) => Err(e)
        case Ok(c) => Ok(Summary(c, |visible|, [AccountReport(DefaultAccountName, KeyHint(legacyKey.value), c, true)]))
      else Ok(Summary(NoCounts, 0, []))
    else if visible == [] then Ok(Summary(NoCounts, 0, []))
    else
      var reports := Reports(enabled, visible, env);
      Ok(Summary(Total(reports), |visible|, reports))
  }

  /** What the service does with the MQTT connections after a sync. */
  datatype Restart = NoRestart | RestartWithKey(key: string) | RestartAllClients

  /** `_restart_mqtt_if_needed` / `_restart_mqtt_multi_account` as
      services/bemfa_service.py calls them: only after a change, and only
      while the manager runs. The copy in app.py never restarts. */
  function RestartAfterSync(keys: seq<BemfaKey>, legacyKey: Option<string>, devices: seq<Device>,
                            env: string -> AccountEnv, mqttRunning: bool): (r: Restart)
    ensures r != NoRestart <==>
              mqttRunning && SyncAll(keys, legacyKey, devices, env).Ok? &&
              Changed(SyncAll(keys, legacyKey, devices, env).value.counts)
    ensures r.RestartWithKey? ==> EnabledKeys(keys) == [] && legacyKey == Some(r.key)
    ensures r.RestartAllClients? ==>
              EnabledKeys(keys) != [] &&
              exists i :: 0 <= i < |SyncAll(keys, legacyKey, devices, env).value.accounts| &&
                SyncAll(keys, legacyKey, devices, env).value.accounts[i].success
  {
    var s := SyncAll(keys, legacyKey, devices, env);
    if s.Err? || !Changed(s.value.counts) || !mqttRunning then NoRestart
    else if EnabledKeys(keys) == [] then RestartWithKey(legacyKey.value)
    else
      TotalChanged(s.value.accounts);
      RestartAllClients
  }

  /** With no visible device, the legacy single account still syncs and
      deletes every "vto" topic it answers with, while the multi-account
      path does nothing at all. */
  lemma NoVisibleAsymmetry(keys: seq<BemfaKey>, legacy: string, devices: seq<Device>, env: string -> AccountEnv)
    requires VisibleDevices(devices) == []
    requires legacy != ""
    requires Remote(env(legacy).list).Ok?
    ensures EnabledKeys(keys) == [] ==>
              DeleteSet([], Remote(env(legacy).list).value) ==
                set t | t in Remote(env(legacy).list).value && StartsWith(t, TopicPrefix)
    ensures EnabledKeys(keys) != [] ==> SyncAll(keys, Some(legacy), devices, env) == Ok(Summary(NoCounts, 0, []))
  {
    assert Desired([]) == {};
  }
}

=== FILE: common.dfy ===
/** Small string and number helpers shared by every part of the model:
    optional values, character removal (Python's `str.replace(c, "")`),
    prefix and substring tests, decimal rendering of naturals, whitespace
    stripping as Python's `str.strip()` does it, and ASCII lower-casing. */
module Common {

  datatype Option<T> = None | Some(value: T)

  /** The outcome of a step that may raise: a value, or the reason it raised. */
  datatype Result<T, E> = Ok(value: T) | Err(error: E)

  /** `s` with every occurrence of `c` deleted. */
  function RemoveChar(s: string, c: char): (r: string)
    ensures c !in r
    ensures |r| <= |s|
    ensures c !in s ==> r == s
  {
    if s == [] then []
    else (if s[0] == c then [] else [s[0]]) + RemoveChar(s[1..], c)
  }

  /** Removing a character distributes over concatenation. */
  lemma {:induction false} RemoveCharConcat(a: string, b: string, c: char)
    ensures RemoveChar(a + b, c) == RemoveChar(a, c) + RemoveChar(b, c)
  {
    if a == [] {
      assert a + b == b;
    } else {
      assert (a + b)[0] == a[0];
      assert (a + b)[1..] == a[1..] + b;
      RemoveCharConcat(a[1..], b, c);
    }
  }

  /** Removing `c` across one separating `c` glues the two sides. */
  lemma RemoveCharAcross(x: string, y: string, c: char)
    ensures RemoveChar(x + [c] + y, c) == RemoveChar(x, c) + RemoveChar(y, c)
  {
    assert RemoveChar([c], c) == [];
    RemoveCharConcat(x + [c], y, c);
    RemoveCharConcat(x, [c], c);
  }

  /** The characters that survive are exactly the ones different from `c`,
      so the removal forgets nothing but `c`. */
  lemma {:induction false} RemoveCharKeeps(s: string, c: char, x: char)
    requires x != c
    ensures x in RemoveChar(s, c) <==> x in s
  {
    if s != [] {
      RemoveCharKeeps(s[1..], c, x);
      assert s == [s[0]] + s[1..];
    }
  }

  predicate StartsWith(s: string, prefix: string) {
    |prefix| <= |s| && s[..|prefix|] == prefix
  }

  /** An ORM `UPDATE ... WHERE id = ?` on a table held as a sequence: every
      row with the id becomes `x`, the others stay where they are. */
  function ReplaceById<T>(rows: seq<T>, idOf: T -> int, id: int, x: T): (r: seq<T>)
    ensures |r| == |rows|
    ensures forall i :: 0 <= i < |r| ==> r[i] == if idOf(rows[i]) == id then x else rows[i]
  {
    seq(|rows|, i requires 0 <= i < |rows| => if idOf(rows[i]) == id then x else rows[i])
  }

  /** `sub` occurs somewhere in `s` (Python's `sub in s`). */
  predicate Contains(s: string, sub: string)
    decreases |s|
  {
    StartsWith(s, sub) || (s != [] && Contains(s[1..], sub))
  }

  /** Whatever contains `sub` is at least as long. */
  lemma {:induction false} ContainsLength(s: string, sub: string)
    ensures Contains(s, sub) ==> |s| >= |sub|
    decreases |s|
  {
    if s != [] && !StartsWith(s, sub) {
      ContainsLength(s[1..], sub);
    }
  }

  /** The decimal digit character for `d`. */
  function DigitChar(d: nat): (c: char)
    requires d < 10
    ensures '0' <= c <= '9'
  {
    (48 + d) as char
  }

  predicate IsDigit(c: char) {
    '0' <= c <= '9'
  }

  predicate AllDigits(s: string) {
    forall i :: 0 <= i < |s| ==> IsDigit(s[i])
  }

  /** Decimal rendering of a natural number without leading zeros,
      as Python's `str(n)` / f-string interpolation produces it. */
  function NatToString(n: nat): (r: string)
    ensures |r| >= 1
    ensures AllDigits(r)
    decreases n
  {
    if n < 10 then [DigitChar(n)] else NatToString(n / 10) + [DigitChar(n % 10)]
  }

  /** Decimal rendering of any integer, with a minus sign when negative. */
  function IntToString(i: int): string {
    if i < 0 then "-" + NatToString(-i) else NatToString(i)
  }

  function Pow10(k: nat): (p: nat)
    ensures p >= 1
  {
    if k == 0 then 1 else 10 * Pow10(k - 1)
  }

  /** A number with k+1 digits renders to exactly k+1 characters. */
  lemma {:induction false} NatToStringLength(n: nat, k: nat)
    requires Pow10(k) <= n < Pow10(k + 1)
    ensures |NatToString(n)| == k + 1
  {
    if k == 0 {
      assert n < 10;
    } else {
      assert n >= 10;
      NatToStringLength(n / 10, k - 1);
    }
  }

  /** No leading zero for a positive number. */
  lemma {:induction false} NatToStringNoLeadingZero(n: nat)
    requires n >= 1
    ensures NatToString(n)[0] != '0'
  {
    if n >= 10 {
      NatToStringNoLeadingZero(n / 10);
      assert NatToString(n)[0] == NatToString(n / 10)[0];
    }
  }

  /** Distinct numbers render differently. */
  lemma {:induction false} NatToStringInjective(a: nat, b: nat)
    requires NatToString(a) == NatToString(b)
    ensures a == b
    decreases a
  {
    var s := NatToString(a);
    if a < 10 && b < 10 {
    } else if a < 10 || b < 10 {
      assert false;
    } else {
      var sa := NatToString(a / 10);
      var sb := NatToString(b / 10);
      assert s == sa + [DigitChar(a % 10)];
      assert s == sb + [DigitChar(b % 10)];
      assert |sa| == |sb|;
      assert sa == s[..|s| - 1] == sb;
      assert DigitChar(a % 10) == s[|s| - 1] == DigitChar(b % 10);
      NatToStringInjective(a / 10, b / 10);
    }
  }

  /** The characters Python's `str.isspace()` accepts (Unicode White_Space
      plus the ASCII separators U+001C..U+001F). */
  predicate IsSpace(c: char) {
    || c == ' '
    || ('\t' <= c <= '\r')
    || ('\U{1C}' <= c <= '\U{1F}')
    || c == '\U{85}' || c == '\U{A0}' || c == '\U{1680}'
    || ('\U{2000}' <= c <= '\U{200A}')
    || c == '\U{2028}' || c == '\U{2029}' || c == '\U{202F}' || c == '\U{205F}'
    || c == '\U{3000}'
  }

  function TrimLeft(s: string): (r: string)
    ensures |r| <= |s| && r == s[|s| - |r|..]
    ensures r == [] || !IsSpace(r[0])
    ensures forall i :: 0 <= i < |s| - |r| ==> IsSpace(s[i])
  {
    if s != [] && IsSpace(s[0]) then TrimLeft(s[1..]) else s
  }

  function TrimRight(s: string): (r: string)
    ensures |r| <= |s| && r == s[..|r|]
    ensures r == [] || !IsSpace(r[|r| - 1])
    ensures forall i :: |r| <= i < |s| ==> IsSpace(s[i])
  {
    if s != [] && IsSpace(s[|s| - 1]) then TrimRight(s[..|s| - 1]) else s
  }

  /** Number of whitespace characters in front of the first other one. */
  function LeadingSpaces(s: string): (n: nat)
    ensures n <= |s|
  {
    |s| - |TrimLeft(s)|
  }

  /** Python's `str.strip()`: drop leading and trailing whitespace. The
      result is the slice of `s` that starts at its first non-space
      character, everything cut off on either side is whitespace, and the
      result neither starts nor ends with whitespace. */
  function Strip(s: string): (r: string)
    ensures LeadingSpaces(s) + |r| <= |s|
    ensures r == s[LeadingSpaces(s)..LeadingSpaces(s) + |r|]
    ensures forall i :: 0 <= i < LeadingSpaces(s) ==> IsSpace(s[i])
    ensures forall i :: LeadingSpaces(s) + |r| <= i < |s| ==> IsSpace(s[i])
    ensures r == [] || (!IsSpace(r[0]) && !IsSpace(r[|r| - 1]))
  {
    TrimRight(TrimLeft(s))
  }

  /** Stripping twice changes nothing more. */
  lemma StripIdempotent(s: string)
    ensures Strip(Strip(s)) == Strip(s)
  {
  }

  function AsciiLowerChar(c: char): (d: char)
    ensures !('A' <= d <= 'Z')
  {
    if 'A' <= c <= 'Z' then (c as int + 32) as char else c
  }

  /** Lower-cases the ASCII letters and leaves every other character alone. */
  function AsciiLower(s: string): (r: string)
    ensures |r| == |s|
    ensures forall i :: 0 <= i < |s| ==> r[i] == AsciiLowerChar(s[i])
  {
    if s == [] then [] else [AsciiLowerChar(s[0])] + AsciiLower(s[1..])
  }
}

=== FILE: dahua.dfy ===
/** The Dahua VTO door-open conversation (services/dahua_service.py, and the
    older copy `DahuaLogin` in app.py).

    Every HTTP POST is answered from a script of replies: the k-th request a
    connection sends gets the k-th reply of the script, and a request past
    the end of the script meets a network error. A connection records every
    request it sent, so the contracts can speak about the order of the calls
    and the request ids. MD5 followed by upper-case hex rendering is a
    parameter of the configuration. */
module Dahua {
  import opened Common

  /** `request_id` before the first `_get_next_id`. */
  const InitialRequestId: int := 1000
  /** Default `short_number` of `DahuaService.execute_door_open_flow`. */
  const ServiceShortNumber: string := "04001010001"
  /** Default `short_number` of the older `DahuaLogin.execute_door_open_flow`. */
  const LegacyShortNumber: string := "04001013502"
  const OpenType: string := "Remote"
  const DoorChannel: int := 0

  /** A JSON value, as far as the flow looks at it. */
  datatype Value = Null | Bool(b: bool) | Num(n: int) | Text(s: string)

  /** Python truthiness of a decoded JSON value. */
  predicate Truthy(v: Value) {
    match v
    case Null => false
    case Bool(b) => b
    case Num(n) => n != 0
    case Text(s) => s != ""
  }

  /** `d.get(key, default)` for a key whose presence is `o`. */
  function GetOr(o: Option<Value>, default: Value): (v: Value)
    ensures o.Some? ==> v == o.value
    ensures o.None? ==> v == default
  {
    if o.Some? then o.value else default
  }

  /** The `params` object of a challenge reply; an absent key is `None`. */
  datatype Params = Params(realm: Option<string>, random: Option<string>, encryption: Option<string>)

  /** A decoded JSON reply object; an absent key is `None`. */
  datatype Body = Body(result: Option<Value>, session: Option<Value>, params: Option<Params>)

  /** What a POST gives back: a transport failure, or a status code with a
      body that is a JSON object (`Some`) or cannot be decoded (`None`). */
  datatype Reply = NetworkError | Http(status: int, body: Option<Body>)

  /** Why a step raised. */
  datatype Failure = Network | Status(code: int) | BadJson | MissingKey | NoResult

  /** The RPC calls of the conversation with their parameters. */
  datatype Call =
    | Challenge(userName: string)
    | DigestLogin(userName: string, passwordHash: string, realm: string, random: string,
                  authorityType: string)
    | Instance(channel: int)
    | Open(handle: Value, doorIndex: int, shortNumber: string, openType: string)
    | Destroy(handle: Value)
    | Logout

  datatype Request = Request(id: int, call: Call, session: Option<Value>)

  /** The kind of a call, for statements about the order of the calls. */
  datatype Step = ChallengeStep | LoginStep | InstanceStep | OpenStep | DestroyStep | LogoutStep

  function StepOf(c: Call): Step {
    match c
    case Challenge(_) => ChallengeStep
    case DigestLogin(_, _, _, _, _) => LoginStep
    case Instance(_) => InstanceStep
    case Open(_, _, _, _) => OpenStep
    case Destroy(_) => DestroyStep
    case Logout => LogoutStep
  }

  function Steps(rs: seq<Request>): (ks: seq<Step>)
    ensures |ks| == |rs|
  {
    if rs == [] then [] else [StepOf(rs[0].call)] + Steps(rs[1..])
  }

  /** The client object: its id counter, its session and the requests it
      has sent so far. */
  datatype Conn = Conn(requestId: int, session: Option<Value>, sent: seq<Request>)

  /** A newly constructed client. */
  function Fresh(): Conn {
    Conn(InitialRequestId, None, [])
  }

  datatype Config = Config(userName: string, password: string, md5: string -> string)

  /** The ids run 1001, 1002, ... in sending order and the counter holds
      the last id handed out. */
  predicate Numbered(c: Conn) {
    c.requestId == InitialRequestId + |c.sent| &&
    forall i :: 0 <= i < |c.sent| ==> c.sent[i].id == InitialRequestId + 1 + i
  }

  /** `if not self.session`: no session, or a falsy one. */
  predicate HasSession(s: Option<Value>) {
    s.Some? && Truthy(s.value)
  }

  /** The reply to the next request the connection sends. */
  function NextReply(c: Conn, script: seq<Reply>): Reply {
    ReplyAt(script, |c.sent|)
  }

  /** The reply to the k-th request (counting from 0). */
  function ReplyAt(script: seq<Reply>, k: nat): Reply {
    if k < |script| then script[k] else NetworkError
  }

  /** `_get_next_id` followed by the POST: the request carries the next id. */
  function Post(c: Conn, script: seq<Reply>, call: Call, session: Option<Value>): (r: (Conn, Reply))
    ensures r.0.requestId == c.requestId + 1
    ensures r.0.sent == c.sent + [Request(c.requestId + 1, call, session)]
    ensures r.0.session == c.session
    ensures r.1 == NextReply(c, script)
    ensures Numbered(c) ==> Numbered(r.0)
  {
    (Conn(c.requestId + 1, c.session, c.sent + [Request(c.requestId + 1, call, session)]),
     NextReply(c, script))
  }

  /** The status check and `response.json()` every step performs. */
  function Decode(rep: Reply): (r: Result<Body, Failure>)
    ensures r.Ok? <==> rep.Http? && rep.status == 200 && rep.body.Some?
    ensures r.Ok? ==> r.value == rep.body.value
    ensures rep.Http? && rep.status != 200 ==> r == Err(Status(rep.status))
  {
    match rep
    case NetworkError => Err(Network)
    case Http(status, body) =>
      if status != 200 then Err(Status(status))
      else if body.None? then Err(BadJson)
      else Ok(body.value)
  }

  /** `_calculate_password_hash`: two nested MD5 digests over colon-joined
      strings. */
  function PasswordHash(cfg: Config, realm: string, random: string): string {
    cfg.md5(cfg.userName + ":" + random + ":" + cfg.md5(cfg.userName + ":" + realm + ":" + cfg.password))
  }

  /** The password enters the hash only through the inner digest of user
      name, realm and password: two accounts of one user whose inner
      digests agree answer every challenge alike. */
  lemma PasswordHashThroughDigest(c1: Config, c2: Config, realm: string, random: string)
    requires c1.userName == c2.userName && c1.md5 == c2.md5
    requires c1.md5(c1.userName + ":" + realm + ":" + c1.password) ==
             c2.md5(c2.userName + ":" + realm + ":" + c2.password)
    ensures PasswordHash(c1, realm, random) == PasswordHash(c2, realm, random)
  {
  }

  /** The result dictionary of `login`: its `success` truthiness and its
      `session`. */
  datatype LoginResult = LoginResult(success: bool, session: Option<Value>)

  /** The decoded reply to the challenge a connection is about to send. */
  function ChallengeOf(c: Conn, script: seq<Reply>): Result<Body, Failure> {
    Decode(NextReply(c, script))
  }

  /** The challenge reply already carries a truthy `result`. */
  predicate Grants(b: Body) {
    b.result.Some? && Truthy(b.result.value)
  }

  /** The challenge reply has every key the digest login reads. */
  predicate HasDigestParams(b: Body) {
    b.params.Some? && b.params.value.realm.Some? && b.params.value.random.Some? &&
    b.params.value.encryption.Some?
  }

  /** The body of `login` without its `try`: the challenge request, and the
      digest login unless the challenge already grants access. `Err` is an
      exception leaving the body. */
  function LoginSteps(cfg: Config, c: Conn, script: seq<Reply>): (r: (Result<LoginResult, Failure>, Conn))
    ensures |r.1.sent| == |c.sent| + 1 || |r.1.sent| == |c.sent| + 2
    ensures r.1.sent[..|c.sent|] == c.sent
    ensures r.1.sent[|c.sent|] == Request(c.requestId + 1, Challenge(cfg.userName), Some(Num(0)))
    ensures Numbered(c) ==> Numbered(r.1)
    ensures r.1.requestId == c.requestId + |r.1.sent| - |c.sent|
    // a failed challenge is the only request and its failure escapes
    ensures ChallengeOf(c, script).Err? ==>
              r.0 == Err(ChallengeOf(c, script).error) && |r.1.sent| == |c.sent| + 1 &&
              r.1.session == c.session
    // otherwise the session is the one the challenge handed out
    ensures ChallengeOf(c, script).Ok? ==> r.1.session == ChallengeOf(c, script).value.session
    // a granting challenge logs in without a second request
    ensures ChallengeOf(c, script).Ok? && Grants(ChallengeOf(c, script).value) ==>
              r.0 == Ok(LoginResult(true, r.1.session)) && |r.1.sent| == |c.sent| + 1
    // a second request is sent exactly when the challenge neither fails,
    // nor grants, nor lacks a key; it carries the nested digest and passes
    // realm, random and encryption on unchanged
    ensures |r.1.sent| == |c.sent| + 2 <==>
              ChallengeOf(c, script).Ok? && !Grants(ChallengeOf(c, script).value) &&
              HasDigestParams(ChallengeOf(c, script).value)
    ensures |r.1.sent| == |c.sent| + 2 ==>
              var ch := ChallengeOf(c, script).value;
              var p := ch.params.value;
              var inner := cfg.md5(cfg.userName + ":" + p.realm.value + ":" + cfg.password);
              r.1.sent[|c.sent| + 1] ==
                Request(c.requestId + 2,
                        DigestLogin(cfg.userName, cfg.md5(cfg.userName + ":" + p.random.value + ":" + inner),
                                    p.realm.value, p.random.value, p.encryption.value),
                        ch.session)
    // success after the digest login is the truthiness of its `result`
    ensures |r.1.sent| == |c.sent| + 2 ==>
              var rep := Decode(NextReply(Conn(c.requestId + 1, r.1.session, r.1.sent[..|c.sent| + 1]), script));
              r.0 == (if rep.Ok? then Ok(LoginResult(Grants(rep.value), r.1.session)) else Err(rep.error))
    ensures r.0.Err? && r.0.error == MissingKey ==>
              ChallengeOf(c, script).Ok? && !HasDigestParams(ChallengeOf(c, script).value)
  {
    var (c1, rep) := Post(c, script, Challenge(cfg.userName), Some(Num(0)));
    match Decode(rep)
    case Err(e) => (Err(e), c1)
    case Ok(ch) =>
      var c2 := c1.(session := ch.session);
      if Grants(ch) then
        (Ok(LoginResult(true, c2.session)), c2)
      else if !HasDigestParams(ch) then
        (Err(MissingKey), c2)
      else
        var p := ch.params.value;
        var call := DigestLogin(cfg.userName, PasswordHash(cfg, p.realm.value, p.random.value),
                                p.realm.value, p.random.value, p.encryption.value);
        var (c3, rep2) := Post(c2, script, call, c2.session);
        match Decode(rep2)
        case Err(e) => (Err(e), c3)
        case Ok(b) => (Ok(LoginResult(Grants(b), c3.session)), c3)
  }

  /** `DahuaService.login`: the same steps inside a `try` that turns every
      exception into a failed result without a session. */
  function ServiceLogin(cfg: Config, c: Conn, script: seq<Reply>): (r: (LoginResult, Conn))
    ensures r.1 == LoginSteps(cfg, c, script).1
    ensures LoginSteps(cfg, c, script).0.Err? ==> r.0 == LoginResult(false, None)
    ensures LoginSteps(cfg, c, script).0.Ok? ==> r.0 == LoginSteps(cfg, c, script).0.value
  {
    var (res, c1) := LoginSteps(cfg, c, script);
    if res.Err? then (LoginResult(false, None), c1) else (res.value, c1)
  }

  /** `get_door_instance`: raises unless the reply is a JSON object with a
      `result` key, whose value is the door handle. */
  function GetInstance(c: Conn, script: seq<Reply>): (r: (Result<Value, Failure>, Conn))
    ensures r.1 == Post(c, script, Instance(DoorChannel), c.session).0
    ensures r.0.Ok? <==> Decode(NextReply(c, script)).Ok? && Decode(NextReply(c, script)).value.result.Some?
    ensures r.0.Ok? ==> r.0.value == Decode(NextReply(c, script)).value.result.value
  {
    var (c1, rep) := Post(c, script, Instance(DoorChannel), c.session);
    match Decode(rep)
    case Err(e) => (Err(e), c1)
    case Ok(b) => if b.result.None? then (Err(NoResult), c1) else (Ok(b.result.value), c1)
  }

  /** A call whose answer is `result.get("result", False)`: `open_door`,
      `destroy_door_instance`, and the older class's `logout`. */
  function Command(c: Conn, script: seq<Reply>, call: Call): (r: (Result<Value, Failure>, Conn))
    ensures r.1 == Post(c, script, call, c.session).0
    ensures r.0.Ok? <==> Decode(NextReply(c, script)).Ok?
    ensures r.0.Ok? ==> r.0.value == GetOr(Decode(NextReply(c, script)).value.result, Bool(false))
  {
    var (c1, rep) := Post(c, script, call, c.session);
    match Decode(rep)
    case Err(e) => (Err(e), c1)
    case Ok(b) => (Ok(GetOr(b.result, Bool(false))), c1)
  }

  /** `DahuaService.logout`: no request without a session; otherwise a
      non-200 status, a network error or an undecodable body gives `False`
      instead of an exception. */
  function ServiceLogout(c: Conn, script: seq<Reply>): (r: (Value, Conn))
    ensures !HasSession(c.session) ==> r == (Bool(true), c)
    ensures HasSession(c.session) ==> r.1 == Post(c, script, Logout, c.session).0
    ensures HasSession(c.session) && Decode(NextReply(c, script)).Err? ==> r.0 == Bool(false)
    ensures HasSession(c.session) && Decode(NextReply(c, script)).Ok? ==>
              r.0 == GetOr(Decode(NextReply(c, script)).value.result, Bool(false))
  {
    if !HasSession(c.session) then (Bool(true), c)
    else
      var (res, c1) := Command(c, script, Logout);
      if res.Err? then (Bool(false), c1) else (res.value, c1)
  }

  /** What `execute_door_open_flow` reports. */
  datatype FlowResult =
    | LoginFailed
      /** every step ran; `success` is the open result */
    | Finished(handle: Value, openResult: Value, destroyed: Value, loggedOut: Value)
      /** a step raised inside the `try`; the reply carries the error */
    | Aborted(error: Failure)
      /** an exception left `execute_door_open_flow` itself */
    | Escaped(error: Failure)

  /** The `success` field of the returned dictionary (absent for an
      exception that leaves the flow). */
  predicate Success(r: FlowResult) {
    r.Finished? && Truthy(r.openResult)
  }

  /** The step sequence `[challenge] + middle + tail`, or the same with the
      digest login after the challenge. */
  predicate Shape(ks: seq<Step>, middle: seq<Step>, tail: seq<Step>) {
    ks == [ChallengeStep] + middle + tail || ks == [ChallengeStep, LoginStep] + middle + tail
  }

  /** The logout request the service sends when it has a session. */
  function LogoutTail(c: Conn): seq<Step> {
    if HasSession(c.session) then [LogoutStep] else []
  }

  const DoorSteps: seq<Step> := [InstanceStep, OpenStep, DestroyStep]

  lemma {:induction false} StepsSnoc(rs: seq<Request>, q: Request)
    ensures Steps(rs + [q]) == Steps(rs) + [StepOf(q.call)]
  {
    if rs != [] {
      assert (rs + [q])[1..] == rs[1..] + [q];
      StepsSnoc(rs[1..], q);
    }
  }

  /** A POST adds its own step to the record. */
  lemma PostSteps(c: Conn, script: seq<Reply>, call: Call, session: Option<Value>)
    ensures Steps(Post(c, script, call, session).0.sent) == Steps(c.sent) + [StepOf(call)]
  {
    StepsSnoc(c.sent, Request(c.requestId + 1, call, session));
  }

  /** The replies the door steps get from the n-th request on: the first
      decodes and names a handle, the next two decode. */
  predicate DoorRepliesOk(script: seq<Reply>, n: nat) {
    Decode(ReplyAt(script, n)).Ok? && Decode(ReplyAt(script, n)).value.result.Some? &&
    Decode(ReplyAt(script, n + 1)).Ok? && Decode(ReplyAt(script, n + 2)).Ok?
  }

  /** The `result` of the k-th reply, `False` when it has none. */
  function ResultAt(script: seq<Reply>, k: nat): Value
    requires Decode(ReplyAt(script, k)).Ok?
  {
    GetOr(Decode(ReplyAt(script, k)).value.result, Bool(false))
  }

  /** The three door requests after `c`, all carrying its session: the
      instance, the open of the handle, and its destruction. */
  function DoorRequests(c: Conn, handle: Value, doorIndex: int, shortNumber: string): seq<Request> {
    [Request(c.requestId + 1, Instance(DoorChannel), c.session),
     Request(c.requestId + 2, Open(handle, doorIndex, shortNumber, OpenType), c.session),
     Request(c.requestId + 3, Destroy(handle), c.session)]
  }

  /** The three door steps inside the `try`, shared by both classes: the
      handle, the open result and the destroy result, or the first
      exception. Each step is sent only after the previous one returned. */
  function DoorSequence(c: Conn, script: seq<Reply>, doorIndex: int, shortNumber: string)
    : (r: (Result<(Value, Value, Value), Failure>, Conn))
    ensures r.1.session == c.session
    ensures Numbered(c) ==> Numbered(r.1)
    ensures r.0.Ok? ==> Steps(r.1.sent) == Steps(c.sent) + DoorSteps
    ensures r.0.Err? ==>
              Steps(r.1.sent) == Steps(c.sent) + DoorSteps[..1] ||
              Steps(r.1.sent) == Steps(c.sent) + DoorSteps[..2] ||
              Steps(r.1.sent) == Steps(c.sent) + DoorSteps
    // the steps all return exactly when their replies decode and the first
    // names a handle; the handle is then opened and destroyed, and the
    // open and destroy results are those of the second and third replies
    ensures r.0.Ok? <==> DoorRepliesOk(script, |c.sent|)
    ensures r.0.Ok? ==>
              r.0.value.0 == Decode(ReplyAt(script, |c.sent|)).value.result.value &&
              r.0.value.1 == ResultAt(script, |c.sent| + 1) &&
              r.0.value.2 == ResultAt(script, |c.sent| + 2) &&
              r.1.sent == c.sent + DoorRequests(c, r.0.value.0, doorIndex, shortNumber)
  {
    PostSteps(c, script, Instance(DoorChannel), c.session);
    var (h, c2) := GetInstance(c, script);
    if h.Err? then (Err(h.error), c2)
    else
      var openCall := Open(h.value, doorIndex, shortNumber, OpenType);
      PostSteps(c2, script, openCall, c2.session);
      var (o, c3) := Command(c2, script, openCall);
      if o.Err? then (Err(o.error), c3)
      else
        PostSteps(c3, script, Destroy(h.value), c3.session);
        var (d, c4) := Command(c3, script, Destroy(h.value));
        if d.Err? then (Err(d.error), c4)
        else
          assert c4.sent == c.sent + DoorRequests(c, h.value, doorIndex, shortNumber);
          (Ok((h.value, o.value, d.value)), c4)
  }

  /** The logout of the service, and the request it adds. */
  lemma ServiceLogoutSteps(c: Conn, script: seq<Reply>)
    ensures ServiceLogout(c, script).1.session == c.session
    ensures Steps(ServiceLogout(c, script).1.sent) == Steps(c.sent) + LogoutTail(c)
    ensures Numbered(c) ==> Numbered(ServiceLogout(c, script).1)
  {
    if HasSession(c.session) {
      PostSteps(c, script, Logout, c.session);
    }
  }

  /** The `try` block of the service flow and its `except` branch, which
      makes one logout attempt and ignores its outcome. */
  function ServiceDoorRun(c: Conn, script: seq<Reply>, doorIndex: int, shortNumber: string): (r: (FlowResult, Conn))
    ensures r.0.Finished? || r.0.Aborted?
    ensures r.1.session == c.session
    ensures Numbered(c) ==> Numbered(r.1)
    ensures r.0.Finished? ==> Steps(r.1.sent) == Steps(c.sent) + DoorSteps + LogoutTail(c)
    ensures r.0.Aborted? ==>
              Steps(r.1.sent) == Steps(c.sent) + DoorSteps[..1] + LogoutTail(c) ||
              Steps(r.1.sent) == Steps(c.sent) + DoorSteps[..2] + LogoutTail(c) ||
              Steps(r.1.sent) == Steps(c.sent) + DoorSteps + LogoutTail(c)
    ensures r.0.Finished? <==> DoorRepliesOk(script, |c.sent|)
    ensures r.0.Finished? ==>
              r.0.handle == Decode(ReplyAt(script, |c.sent|)).value.result.value &&
              r.0.openResult == ResultAt(script, |c.sent| + 1) &&
              r.0.destroyed == ResultAt(script, |c.sent| + 2) &&
              |r.1.sent| >= |c.sent| + 3 &&
              r.1.sent[..|c.sent| + 3] == c.sent + DoorRequests(c, r.0.handle, doorIndex, shortNumber)
  {
    var (res, c1) := DoorSequence(c, script, doorIndex, shortNumber);
    ServiceLogoutSteps(c1, script);
    var (l, c2) := ServiceLogout(c1, script);
    if res.Err? then (Aborted(res.error), c2)
    else (Finished(res.value.0, res.value.1, res.value.2, l), c2)
  }

  /** The requests of a login run on a new client: the challenge, maybe
      followed by the digest login. */
  lemma LoginStepsFresh(cfg: Config, script: seq<Reply>)
    ensures Shape(Steps(LoginSteps(cfg, Fresh(), script).1.sent), [], [])
    ensures Numbered(LoginSteps(cfg, Fresh(), script).1)
  {
    var sent := LoginSteps(cfg, Fresh(), script).1.sent;
    if |sent| == 1 {
      assert Steps(sent) == [ChallengeStep];
    } else {
      assert Steps(sent) == [ChallengeStep, LoginStep];
    }
  }

  lemma ShapeExtend(pre: seq<Step>, middle: seq<Step>, tail: seq<Step>)
    requires Shape(pre, [], [])
    ensures Shape(pre + middle + tail, middle, tail)
  {
    if pre == [ChallengeStep] {
      assert pre + middle + tail == [ChallengeStep] + middle + tail;
    } else {
      assert pre + middle + tail == [ChallengeStep, LoginStep] + middle + tail;
    }
  }

  /** `DahuaService.execute_door_open_flow` on a new client. */
  function ServiceFlow(cfg: Config, script: seq<Reply>, doorIndex: int, shortNumber: string): (r: (FlowResult, Conn))
    ensures Numbered(r.1)
    ensures !r.0.Escaped?
    ensures r.0 == LoginFailed <==> !ServiceLogin(cfg, Fresh(), script).0.success
    ensures r.0 == LoginFailed ==> Shape(Steps(r.1.sent), [], [])
    ensures r.0.Finished? ==> Shape(Steps(r.1.sent), DoorSteps, LogoutTail(r.1))
    ensures r.0.Aborted? ==>
              Shape(Steps(r.1.sent), DoorSteps[..1], LogoutTail(r.1)) ||
              Shape(Steps(r.1.sent), DoorSteps[..2], LogoutTail(r.1)) ||
              Shape(Steps(r.1.sent), DoorSteps, LogoutTail(r.1))
    // after a login the door steps finish exactly when their replies
    // decode; the flow then reports the handle it opened and destroyed,
    // and its success is the open result
    ensures var c1 := ServiceLogin(cfg, Fresh(), script).1;
            r.0.Finished? <==> ServiceLogin(cfg, Fresh(), script).0.success && DoorRepliesOk(script, |c1.sent|)
    ensures var c1 := ServiceLogin(cfg, Fresh(), script).1;
            r.0.Finished? ==>
              r.0.handle == Decode(ReplyAt(script, |c1.sent|)).value.result.value &&
              r.0.openResult == ResultAt(script, |c1.sent| + 1) &&
              |r.1.sent| >= |c1.sent| + 3 &&
              r.1.sent[..|c1.sent| + 3] == c1.sent + DoorRequests(c1, r.0.handle, doorIndex, shortNumber)
    ensures var c1 := ServiceLogin(cfg, Fresh(), script).1;
            Success(r.0) <==>
              ServiceLogin(cfg, Fresh(), script).0.success && DoorRepliesOk(script, |c1.sent|) &&
              Truthy(ResultAt(script, |c1.sent| + 1))
  {
    LoginStepsFresh(cfg, script);
    var (lr, c1) := ServiceLogin(cfg, Fresh(), script);
    if !lr.success then (LoginFailed, c1)
    else
      var pre := Steps(c1.sent);
      ShapeExtend(pre, DoorSteps[..1], LogoutTail(c1));
      ShapeExtend(pre, DoorSteps[..2], LogoutTail(c1));
      ShapeExtend(pre, DoorSteps, LogoutTail(c1));
      ServiceDoorRun(c1, script, doorIndex, shortNumber)
  }

  /** `DahuaLogin.logout` in app.py: no session check, and every failure
      raises. */
  function LegacyLogout(c: Conn, script: seq<Reply>): (r: (Result<Value, Failure>, Conn))
    ensures r == Command(c, script, Logout)
    ensures Steps(r.1.sent) == Steps(c.sent) + [LogoutStep]
    ensures r.1.session == c.session
    ensures Numbered(c) ==> Numbered(r.1)
  {
    PostSteps(c, script, Logout, c.session);
    Command(c, script, Logout)
  }

  /** The `try` block of the older flow, which holds the logout too, and its
      `except` branch: a second logout whose outcome, exception or not, is
      ignored. */
  function LegacyDoorRun(c: Conn, script: seq<Reply>, doorIndex: int, shortNumber: string): (r: (FlowResult, Conn))
    ensures r.0.Finished? || r.0.Aborted?
    ensures r.1.session == c.session
    ensures Numbered(c) ==> Numbered(r.1)
    ensures r.0.Finished? ==> Steps(r.1.sent) == Steps(c.sent) + DoorSteps + [LogoutStep]
    ensures r.0.Aborted? ==>
              Steps(r.1.sent) == Steps(c.sent) + DoorSteps[..1] + [LogoutStep] ||
              Steps(r.1.sent) == Steps(c.sent) + DoorSteps[..2] + [LogoutStep] ||
              Steps(r.1.sent) == Steps(c.sent) + DoorSteps + [LogoutStep] ||
              Steps(r.1.sent) == Steps(c.sent) + DoorSteps + [LogoutStep] + [LogoutStep]
  {
    var (res, c1) := DoorSequence(c, script, doorIndex, shortNumber);
    if res.Err? then (Aborted(res.error), LegacyLogout(c1, script).1)
    else
      var (l, c2) := LegacyLogout(c1, script);
      if l.Err? then (Aborted(l.error), LegacyLogout(c2, script).1)
      else (Finished(res.value.0, res.value.1, res.value.2, l.value), c2)
  }

  /** `DahuaLogin.execute_door_open_flow` in app.py on a new client:
      `login` runs before the `try`, so its exceptions leave the flow. */
  function LegacyFlow(cfg: Config, script: seq<Reply>, doorIndex: int, shortNumber: string): (r: (FlowResult, Conn))
    ensures Numbered(r.1)
    ensures r.0.Escaped? <==> LoginSteps(cfg, Fresh(), script).0.Err?
    ensures r.0.Escaped? ==> r.0.error == LoginSteps(cfg, Fresh(), script).0.error
    ensures r.0.Escaped? || r.0 == LoginFailed ==> Shape(Steps(r.1.sent), [], [])
    ensures r.0.Finished? ==> Shape(Steps(r.1.sent), DoorSteps, [LogoutStep])
    ensures r.0.Aborted? ==>
              Shape(Steps(r.1.sent), DoorSteps[..1], [LogoutStep]) ||
              Shape(Steps(r.1.sent), DoorSteps[..2], [LogoutStep]) ||
              Shape(Steps(r.1.sent), DoorSteps, [LogoutStep]) ||
              Shape(Steps(r.1.sent), DoorSteps + [LogoutStep], [LogoutStep])
  {
    LoginStepsFresh(cfg, script);
    var (lr, c1) := LoginSteps(cfg, Fresh(), script);
    if lr.Err? then (Escaped(lr.error), c1)
    else if !lr.value.success then (LoginFailed, c1)
    else
      var pre := Steps(c1.sent);
      ShapeExtend(pre, DoorSteps[..1], [LogoutStep]);
      ShapeExtend(pre, DoorSteps[..2], [LogoutStep]);
      ShapeExtend(pre, DoorSteps, [LogoutStep]);
      ShapeExtend(pre, DoorSteps + [LogoutStep], [LogoutStep]);
      assert pre + DoorSteps + [LogoutStep] + [LogoutStep] == pre + (DoorSteps + [LogoutStep]) + [LogoutStep];
      LegacyDoorRun(c1, script, doorIndex, shortNumber)
  }

  /** A failed challenge: the service reports a failed login, while the
      exception leaves the older flow. Both send the challenge only. */
  lemma ChallengeFailureContrast(cfg: Config, script: seq<Reply>, doorIndex: int, shortNumber: string)
    requires ChallengeOf(Fresh(), script).Err?
    ensures ServiceFlow(cfg, script, doorIndex, shortNumber).0 == LoginFailed
    ensures LegacyFlow(cfg, script, doorIndex, shortNumber).0 == Escaped(ChallengeOf(Fresh(), script).error)
    ensures |ServiceFlow(cfg, script, doorIndex, shortNumber).1.sent| == 1
    ensures |LegacyFlow(cfg, script, doorIndex, shortNumber).1.sent| == 1
  {
  }

  /** A failing logout after a successful open: the service still reports
      success, while the older flow reports failure and tries to log out a
      second time. */
  lemma LogoutFailureContrast(cfg: Config, script: seq<Reply>, doorIndex: int, shortNumber: string)
    requires Success(ServiceFlow(cfg, script, doorIndex, shortNumber).0)
    requires HasSession(ServiceFlow(cfg, script, doorIndex, shortNumber).1.session)
    requires Decode(ReplyAt(script, |ServiceFlow(cfg, script, doorIndex, shortNumber).1.sent| - 1)).Err?
    ensures ServiceFlow(cfg, script, doorIndex, shortNumber).0.loggedOut == Bool(false)
    ensures LegacyFlow(cfg, script, doorIndex, shortNumber).0 ==
              Aborted(Decode(ReplyAt(script, |ServiceFlow(cfg, script, doorIndex, shortNumber).1.sent| - 1)).error)
    ensures !Success(LegacyFlow(cfg, script, doorIndex, shortNumber).0)
    ensures Steps(LegacyFlow(cfg, script, doorIndex, shortNumber).1.sent) ==
              Steps(ServiceFlow(cfg, script, doorIndex, shortNumber).1.sent) + [LogoutStep]
  {
    var (lr, c1) := LoginSteps(cfg, Fresh(), script);
    var (res, c2) := DoorSequence(c1, script, doorIndex, shortNumber);
    assert ServiceLogin(cfg, Fresh(), script) == (lr.value, c1);
    assert res.Ok?;
    var (sl, c3) := ServiceLogout(c2, script);
    assert ServiceFlow(cfg, script, doorIndex, shortNumber) == (Finished(res.value.0, res.value.1, res.value.2, sl), c3);
    var (ll, c3') := LegacyLogout(c2, script);
    assert c3' == c3;
    assert |c3.sent| - 1 == |c2.sent|;
    assert ll.Err?;
    var c4 := LegacyLogout(c3, script).1;
    assert LegacyFlow(cfg, script, doorIndex, shortNumber) == (Aborted(ll.error), c4);
  }
}

=== FILE: device.dfy ===
/** The door-station record and the two names derived from it
    (models/device.py): the MQTT topic built from the IP address and the
    display name built from section, building and position. */
module DeviceModel {
  import opened Common

  /** One VTO door station. `position` is `None` for an empty form field;
      `mqttTopic` is `None` when no topic could be derived. */
  datatype Device = Device(
    id: int,
    name: string,
    groupName: string,
    section: string,
    building: string,
    position: Option<string>,
    ip: string,
    username: string,
    password: string,
    mqttTopic: Option<string>,
    visible: bool)

  const TopicPrefix: string := "vto"
  const TopicSuffix: string := "006"

  /** The topic a station listens on: "vto", the IP address with every dot
      removed, then "006"; no topic for an empty address. */
  function MqttTopic(ip: string): (r: Option<string>)
    ensures ip == "" <==> r == None
    ensures r.Some? ==> StartsWith(r.value, TopicPrefix) && '.' !in r.value
    ensures r.Some? ==> |r.value| == |RemoveChar(ip, '.')| + |TopicPrefix| + |TopicSuffix|
    ensures r.Some? ==> r.value == TopicPrefix + RemoveChar(ip, '.') + TopicSuffix
  {
    if ip == "" then None else Some(TopicPrefix + RemoveChar(ip, '.') + TopicSuffix)
  }

  /** The dot-free address a topic was built from: the topic without its
      fixed prefix and suffix. */
  function TopicAddress(topic: string): string
    requires |topic| >= |TopicPrefix| + |TopicSuffix|
  {
    topic[|TopicPrefix|..|topic| - |TopicSuffix|]
  }

  /** Stripping the prefix and suffix recovers the dot-free address. */
  lemma TopicAddressInverse(ip: string)
    requires ip != ""
    ensures TopicAddress(MqttTopic(ip).value) == RemoveChar(ip, '.')
  {
  }

  /** Two addresses share a topic exactly when they agree once their dots
      are removed. */
  lemma TopicCollision(a: string, b: string)
    requires a != "" && b != ""
    ensures MqttTopic(a) == MqttTopic(b) <==> RemoveChar(a, '.') == RemoveChar(b, '.')
  {
    if MqttTopic(a) == MqttTopic(b) {
      TopicAddressInverse(a);
      TopicAddressInverse(b);
    }
  }

  /** A dotted quad loses its three dots and keeps its four parts in order. */
  lemma DotsOfQuad(a: string, b: string, c: string, d: string)
    requires '.' !in a && '.' !in b && '.' !in c && '.' !in d
    ensures RemoveChar(a + "." + b + "." + c + "." + d, '.') == a + b + c + d
  {
    var ab := a + "." + b;
    var abc := ab + "." + c;
    RemoveCharAcross(a, b, '.');
    RemoveCharAcross(ab, c, '.');
    RemoveCharAcross(abc, d, '.');
  }

  /** The topic of a dotted quad is the prefix, the four parts run
      together, and the suffix. */
  lemma QuadTopic(a: string, b: string, c: string, d: string)
    requires '.' !in a && '.' !in b && '.' !in c && '.' !in d
    ensures MqttTopic(a + "." + b + "." + c + "." + d) == Some(TopicPrefix + (a + b + c + d) + TopicSuffix)
  {
    DotsOfQuad(a, b, c, d);
  }

  /** The derivation is not injective: two different addresses give the
      same topic. */
  lemma TopicNotInjective()
    ensures "172.16.11.1" != "172.161.1.1"
    ensures MqttTopic("172.16.11.1") == MqttTopic("172.161.1.1") == Some("vto17216111006")
  {
    ExamplesDiffer();
    FirstExampleTopic();
    SecondExampleTopic();
  }

  lemma ExamplesDiffer()
    ensures "172.16.11.1" != "172.161.1.1"
  {
    assert "172.16.11.1"[6] != "172.161.1.1"[6];
  }

  lemma FirstExampleTopic()
    ensures MqttTopic("172.16.11.1") == Some("vto17216111006")
  {
    QuadTopic("172", "16", "11", "1");
    assert "172" + "." + "16" + "." + "11" + "." + "1" == "172.16.11.1";
    assert TopicPrefix + ("172" + "16" + "11" + "1") + TopicSuffix == "vto17216111006";
  }

  lemma SecondExampleTopic()
    ensures MqttTopic("172.161.1.1") == Some("vto17216111006")
  {
    QuadTopic("172", "161", "1", "1");
    assert "172" + "." + "161" + "." + "1" + "." + "1" == "172.161.1.1";
    assert TopicPrefix + ("172" + "161" + "1" + "1") + TopicSuffix == "vto17216111006";
  }

  /** `Device.query.get(id)`: the device with that id, if any. */
  function FindById(devices: seq<Device>, id: int): (r: Option<Device>)
    ensures r.None? <==> forall d :: d in devices ==> d.id != id
    ensures r.Some? ==> r.value in devices && r.value.id == id
  {
    if devices == [] then None
    else if devices[0].id == id then Some(devices[0])
    else FindById(devices[1..], id)
  }

  /** "<position>号" for a non-empty position, nothing otherwise. */
  function PositionPart(position: Option<string>): (r: string)
    ensures r == "" <==> position.None? || position.value == ""
    ensures r != "" ==> r == position.value + "号"
  {
    if position.Some? && position.value != "" then position.value + "号" else ""
  }

  /** "<section>区<building>幢", followed by "<position>号" when a position is given. */
  function BaseName(section: string, building: string, position: Option<string>): (r: string)
    ensures StartsWith(r, section + "区" + building + "幢")
    ensures r == section + "区" + building + "幢" + PositionPart(position)
  {
    section + "区" + building + "幢" + PositionPart(position)
  }

  /** The k-th name tried: the base name itself, then "<base>-1", "<base>-2", ... */
  function Candidate(base: string, k: nat): string {
    if k == 0 then base else base + "-" + NatToString(k)
  }

  lemma CandidateInjective(base: string, j: nat, k: nat)
    requires Candidate(base, j) == Candidate(base, k)
    ensures j == k
  {
    if j != 0 && k != 0 {
      var sj := Candidate(base, j);
      assert sj[|base| + 1..] == NatToString(j);
      assert Candidate(base, k)[|base| + 1..] == NatToString(k);
      NatToStringInjective(j, k);
    }
  }

  /** The first n candidates are n distinct names. */
  lemma {:induction false} CandidatesCount(base: string, n: nat)
    ensures |set k | 0 <= k < n :: Candidate(base, k)| == n
  {
    if n > 0 {
      var prev := set k | 0 <= k < n - 1 :: Candidate(base, k);
      var all := set k | 0 <= k < n :: Candidate(base, k);
      CandidatesCount(base, n - 1);
      assert all == prev + {Candidate(base, n - 1)};
      if Candidate(base, n - 1) in prev {
        var k :| 0 <= k < n - 1 && Candidate(base, k) == Candidate(base, n - 1);
        CandidateInjective(base, k, n - 1);
        assert false;
      }
    }
  }

  /** If the first n candidates are all taken, there are at least n taken names. */
  lemma CandidatesBound(base: string, existing: set<string>, n: nat)
    requires forall j :: 0 <= j < n ==> Candidate(base, j) in existing
    ensures n <= |existing|
  {
    var tried := set k | 0 <= k < n :: Candidate(base, k);
    CandidatesCount(base, n);
    assert tried <= existing;
    assert existing == tried + (existing - tried);
    assert |existing| == |tried| + |existing - tried|;
  }

  /** `k` is the first candidate index whose name is still free. */
  ghost predicate FirstFree(base: string, existing: set<string>, k: nat) {
    Candidate(base, k) !in existing &&
    forall j :: 0 <= j < k ==> Candidate(base, j) in existing
  }

  /** Device.generate_device_name: the base name if it is free, otherwise
      "<base>-k" for the least k >= 1 that is free. The search ends because
      `existing` is finite. */
  method GenerateDeviceName(section: string, building: string, position: Option<string>,
                            existing: set<string>) returns (name: string)
    ensures name !in existing
    ensures BaseName(section, building, position) !in existing ==>
              name == BaseName(section, building, position)
    ensures exists k: nat :: FirstFree(BaseName(section, building, position), existing, k) &&
              name == Candidate(BaseName(section, building, position), k)
  {
    var base := BaseName(section, building, position);
    name := base;
    var k: nat := 0;
    while name in existing
      invariant name == Candidate(base, k)
      invariant forall j :: 0 <= j < k ==> Candidate(base, j) in existing
      decreases |existing| - k
    {
      CandidatesBound(base, existing, k + 1);
      k := k + 1;
      name := base + "-" + NatToString(k);
    }
    assert FirstFree(base, existing, k);
  }
}

=== FILE: homekit.dfy ===
/** The HomeKit bridge of services/homekit_service.py: the pairing PIN in its
    two spellings, the accessory id and MAC address derived for the bridge,
    the test that decides whether stored pairing state is still valid, the
    lock characteristics of one door accessory, and the manager's map from
    device id to accessory.

    HAP-python itself (driver, bridge object, sockets, QR codes) and the
    state and metadata files are not modelled; the MD5 digest is an input. */
module HomeKit {
  import opened Common
  import opened DeviceModel
  import opened Dahua

  // ---------------------------------------------------------------------
  // Pairing PIN

  datatype PinError = PinMustBeEightDigits

  /** `format_homekit_pincode`: "12345678" becomes "123-45-678"; anything
      that is not exactly eight characters long is refused. */
  function FormatPin(p: string): (r: Result<string, PinError>)
    ensures r.Ok? <==> |p| == 8
    ensures r.Ok? ==> |r.value| == 10 && r.value[3] == '-' && r.value[6] == '-'
    ensures r.Ok? ==> r.value[..3] == p[..3] && r.value[4..6] == p[3..5] && r.value[7..] == p[5..]
  {
    if p == "" || |p| != 8 then Err(PinMustBeEightDigits)
    else Ok(p[..3] + "-" + p[3..5] + "-" + p[5..])
  }

  /** `parse_homekit_pincode`: the dashes dropped; nothing for an empty
      argument. */
  function ParsePin(f: string): (r: Option<string>)
    ensures r.None? <==> f == ""
    ensures r.Some? ==> '-' !in r.value && |r.value| <= |f|
    ensures r.Some? ==> r.value == RemoveChar(f, '-')
  {
    if f == "" then None else Some(RemoveChar(f, '-'))
  }

  /** Three dash-free parts joined by two dashes lose exactly the dashes. */
  lemma DashesOfTriple(a: string, b: string, c: string)
    requires '-' !in a && '-' !in b && '-' !in c
    ensures RemoveChar(a + "-" + b + "-" + c, '-') == a + b + c
  {
    RemoveCharAcross(a, b, '-');
    RemoveCharAcross(a + "-" + b, c, '-');
  }

  /** Parsing undoes formatting for every eight-character PIN without a dash. */
  lemma PinRoundTrip(p: string)
    requires |p| == 8 && '-' !in p
    ensures FormatPin(p).Ok? && ParsePin(FormatPin(p).value) == Some(p)
  {
    assert p == p[..3] + p[3..5] + p[5..];
    DashesOfTriple(p[..3], p[3..5], p[5..]);
  }

  /** Formatting undoes parsing for every PIN in the "xxx-xx-xxx" shape. */
  lemma PinParseRoundTrip(f: string)
    requires |f| == 10 && f[3] == '-' && f[6] == '-'
    requires '-' !in f[..3] && '-' !in f[4..6] && '-' !in f[7..]
    ensures ParsePin(f).Some? && FormatPin(ParsePin(f).value) == Ok(f)
  {
    assert f == f[..3] + "-" + f[4..6] + "-" + f[7..];
    DashesOfTriple(f[..3], f[4..6], f[7..]);
    var p := f[..3] + f[4..6] + f[7..];
    assert p[..3] == f[..3] && p[3..5] == f[4..6] && p[5..] == f[7..];
  }

  // ---------------------------------------------------------------------
  // Accessory ids

  /** `_generate_stable_aid` as written: `(id % 254) + 2`, with 7 moved to 8.
      Python's `%` by a positive number never goes negative, like Dafny's. */
  function StableAidAsWritten(deviceId: int): (aid: int)
    ensures 2 <= aid <= 255 && aid != 7
  {
    var base := deviceId % 254 + 2;
    if base == 7 then 8 else base
  }

  /** Moving 7 onto 8 makes devices 5 and 6 share an accessory id, although
      an accessory id must name one accessory of the bridge. */
  lemma StableAidCollision()
    ensures StableAidAsWritten(5) == StableAidAsWritten(6) == 8
  {
  }

  /** The accessory id as evidently intended: the 253 allowed values 2..255
      without 7, reached in order, so that devices whose ids differ modulo
      253 never share one. */
  function StableAid(deviceId: int): (aid: int)
    ensures 2 <= aid <= 255 && aid != 7
  {
    var base := deviceId % 253 + 2;
    if base >= 7 then base + 1 else base
  }

  /** Two devices share an accessory id exactly when their ids agree
      modulo 253. */
  lemma StableAidInjective(a: int, b: int)
    ensures StableAid(a) == StableAid(b) <==> a % 253 == b % 253
  {
  }

  // ---------------------------------------------------------------------
  // Bridge MAC address

  /** The first address byte with the two low bits forced to "locally
      administered, unicast": `(b & 0xFC) | 0x02`. */
  function MaskFirst(b: bv8): (r: bv8)
    ensures r & 1 == 0 && r & 2 == 2
    ensures r & 0xFC == b & 0xFC
  {
    (b & 0xFC) | 0x02
  }

  /** The six address bytes: the first six digest bytes, the first masked. */
  function MacBytes(d: seq<bv8>): (r: seq<bv8>)
    requires |d| >= 6
    ensures |r| == 6 && r[1..] == d[1..6]
    ensures r[0] & 3 == 2 && r[0] & 0xFC == d[0] & 0xFC
  {
    [MaskFirst(d[0])] + d[1..6]
  }

  predicate IsUpperHex(c: char) {
    '0' <= c <= '9' || 'A' <= c <= 'F'
  }

  /** The upper-case hexadecimal digit for 0..15. */
  function HexDigit(n: int): (c: char)
    requires 0 <= n < 16
    ensures IsUpperHex(c)
  {
    if n < 10 then (48 + n) as char else (55 + n) as char
  }

  /** The value of an upper-case hexadecimal digit. */
  function HexValue(c: char): (r: Option<int>)
    ensures r.Some? <==> IsUpperHex(c)
    ensures r.Some? ==> 0 <= r.value < 16 && HexDigit(r.value) == c
  {
    if '0' <= c <= '9' then Some(c as int - 48)
    else if 'A' <= c <= 'F' then Some(c as int - 55)
    else None
  }

  /** `f'{b:02X}'`: two upper-case hexadecimal digits. */
  function HexByte(b: bv8): (r: string)
    ensures |r| == 2 && IsUpperHex(r[0]) && IsUpperHex(r[1])
  {
    [HexDigit(b as int / 16), HexDigit(b as int % 16)]
  }

  /** `':'.join(...)` over the bytes. */
  function MacText(bs: seq<bv8>): (r: string)
    requires |bs| >= 1
    ensures |r| == 3 * |bs| - 1
    ensures forall i :: 0 <= i < |r| ==> r[i] == ':' || IsUpperHex(r[i])
    decreases |bs|
  {
    if |bs| == 1 then HexByte(bs[0]) else HexByte(bs[0]) + ":" + MacText(bs[1..])
  }

  /** Reads "XX:XX:...:XX" back into bytes; nothing for any other text. */
  function ParseMac(s: string): Option<seq<bv8>>
    decreases |s|
  {
    if |s| < 2 || HexValue(s[0]).None? || HexValue(s[1]).None? then None
    else
      var b := (HexValue(s[0]).value * 16 + HexValue(s[1]).value) as bv8;
      if |s| == 2 then Some([b])
      else if s[2] != ':' then None
      else
        match ParseMac(s[3..])
        case Some(rest) => Some([b] + rest)
        case None => None
  }

  /** Reading a digit back gives its value. */
  lemma HexDigitRoundTrip(n: int)
    requires 0 <= n < 16
    ensures HexValue(HexDigit(n)) == Some(n)
  {
  }

  /** A byte survives the two hexadecimal digits. */
  lemma HexByteRoundTrip(b: bv8)
    ensures HexValue(HexByte(b)[0]) == Some(b as int / 16)
    ensures HexValue(HexByte(b)[1]) == Some(b as int % 16)
    ensures ((b as int / 16) * 16 + b as int % 16) as bv8 == b
  {
    var n := b as int;
    HexDigitRoundTrip(n / 16);
    HexDigitRoundTrip(n % 16);
    assert (n / 16) * 16 + n % 16 == n;
  }

  /** Reading one leading byte pair, alone or followed by a colon. */
  lemma ParseMacHead(b: bv8, tail: string)
    ensures ParseMac(HexByte(b)) == Some([b])
    ensures ParseMac(HexByte(b) + ":" + tail) ==
              if ParseMac(tail).Some? then Some([b] + ParseMac(tail).value) else None
  {
    HexByteRoundTrip(b);
    var s := HexByte(b) + ":" + tail;
    assert s[0] == HexByte(b)[0] && s[1] == HexByte(b)[1] && s[2] == ':';
    assert s[3..] == tail;
  }

  /** The text names the bytes it was made from. */
  lemma {:induction false} MacRoundTrip(bs: seq<bv8>)
    requires |bs| >= 1
    ensures ParseMac(MacText(bs)) == Some(bs)
    decreases |bs|
  {
    ParseMacHead(bs[0], if |bs| > 1 then MacText(bs[1..]) else "");
    if |bs| > 1 {
      MacRoundTrip(bs[1..]);
      assert bs == [bs[0]] + bs[1..];
    } else {
      assert bs == [bs[0]];
    }
  }

  /** The bridge configuration that pairing depends on. */
  datatype HkConfig = HkConfig(bridgeName: string, bridgePin: string, bridgePort: int, enabled: bool)

  /** The text hashed for the address: "<name>_<port>_<pin>". */
  function BridgeId(cfg: HkConfig): string {
    cfg.bridgeName + "_" + IntToString(cfg.bridgePort) + "_" + cfg.bridgePin
  }

  /** `_generate_stable_bridge_mac`, with MD5 as an input: a colon-separated
      address of six upper-case byte pairs whose first byte is a locally
      administered unicast byte. */
  function StableBridgeMac(cfg: HkConfig, md5: string -> seq<bv8>): (mac: string)
    requires |md5(BridgeId(cfg))| >= 6
    ensures |mac| == 17
    ensures ParseMac(mac) == Some(MacBytes(md5(BridgeId(cfg))))
    ensures ParseMac(mac).value[0] & 1 == 0 && ParseMac(mac).value[0] & 2 == 2
  {
    var bs := MacBytes(md5(BridgeId(cfg)));
    MacRoundTrip(bs);
    MacText(bs)
  }

  // ---------------------------------------------------------------------
  // Stored pairing metadata

  /** The keys read back from the metadata file; a key missing from the
      file reads as `None`. */
  datatype Metadata = Metadata(bridgeName: Option<string>, bridgePort: Option<int>,
                               bridgePin: Option<string>, bridgeMac: Option<string>)

  /** What `_save_simple_metadata` writes: all four keys present (the
      timestamp it also writes is never read back). */
  function SaveMetadata(cfg: HkConfig, mac: string): (r: Metadata)
    ensures r.bridgeName.Some? && r.bridgePort.Some? && r.bridgePin.Some? && r.bridgeMac.Some?
  {
    Metadata(Some(cfg.bridgeName), Some(cfg.bridgePort), Some(cfg.bridgePin), Some(mac))
  }

  /** `_critical_config_changed`; `stored` is `None` when the file could not
      be read or parsed, which counts as a change. The test reports a change
      exactly when the file does not hold what saving the current name,
      port, PIN and address would write. */
  predicate CriticalConfigChanged(stored: Option<Metadata>, cfg: HkConfig, mac: string): (r: bool)
    ensures r <==> stored != Some(SaveMetadata(cfg, mac))
  {
    stored.None? ||
    stored.value.bridgeName != Some(cfg.bridgeName) ||
    stored.value.bridgePort != Some(cfg.bridgePort) ||
    stored.value.bridgePin != Some(cfg.bridgePin) ||
    stored.value.bridgeMac != Some(mac)
  }

  /** Against metadata it saved itself, the test reports a change exactly
      when the name, port or PIN changed: the address adds nothing, since
      it is derived from those three. */
  lemma ChangedOnlyByPairingFields(saved: HkConfig, cfg: HkConfig, md5: string -> seq<bv8>)
    requires |md5(BridgeId(saved))| >= 6 && |md5(BridgeId(cfg))| >= 6
    ensures CriticalConfigChanged(Some(SaveMetadata(saved, StableBridgeMac(saved, md5))), cfg,
                                  StableBridgeMac(cfg, md5))
            <==> saved.bridgeName != cfg.bridgeName || saved.bridgePort != cfg.bridgePort ||
                 saved.bridgePin != cfg.bridgePin
  {
    if saved.bridgeName == cfg.bridgeName && saved.bridgePort == cfg.bridgePort && saved.bridgePin == cfg.bridgePin {
      assert BridgeId(saved) == BridgeId(cfg);
    }
  }

  /** Saving and then testing against another configuration and address
      reports a change exactly when one of the four saved values differs;
      against the same ones it reports none. */
  lemma SaveThenCheck(saved: HkConfig, savedMac: string, cfg: HkConfig, mac: string)
    ensures !CriticalConfigChanged(Some(SaveMetadata(saved, savedMac)), saved, savedMac)
    ensures CriticalConfigChanged(Some(SaveMetadata(saved, savedMac)), cfg, mac) <==>
              saved.bridgeName != cfg.bridgeName || saved.bridgePort != cfg.bridgePort ||
              saved.bridgePin != cfg.bridgePin || savedMac != mac
  {
  }

  // ---------------------------------------------------------------------
  // One door accessory

  /** The lock characteristics: 1 is secured, 0 unsecured. */
  datatype Lock = Lock(current: int, target: int)

  /** A new accessory starts secured in both characteristics. */
  const InitialLock: Lock := Lock(1, 1)

  /** `_execute_unlock`: the service door-open flow with the device's
      credentials, for an existing device (its visibility is not
      consulted); `script` stands for the replies of that device's VTO. */
  function ExecuteUnlock(devices: seq<Device>, deviceId: int, md5: string -> string,
                         script: seq<Reply>): (ok: bool)
    ensures ok <==>
              FindById(devices, deviceId).Some? &&
              Success(ServiceFlow(Config(FindById(devices, deviceId).value.username,
                                         FindById(devices, deviceId).value.password, md5),
                                  script, 0, ServiceShortNumber).0)
  {
    match FindById(devices, deviceId)
    case None => false
    case Some(d) => Success(ServiceFlow(Config(d.username, d.password, md5), script, 0, ServiceShortNumber).0)
  }

  /** `set_lock_state(value)`. HAP-python has already stored `value` as the
      target when it calls the setter. Without the app nothing more happens;
      0 runs the unlock and shows the lock unsecured on success or resets
      the target on failure; any other value secures it; an exception
      (`raises`) resets both characteristics to secured. The auto-lock five
      seconds later is not modelled. */
  function SetLockState(l: Lock, value: int, hasApp: bool, raises: bool,
                        devices: seq<Device>, deviceId: int, md5: string -> string,
                        script: seq<Reply>): (r: Lock)
    ensures raises ==> r == Lock(1, 1)
    ensures !raises && !hasApp ==> r == Lock(l.current, value)
    ensures !raises && hasApp && value != 0 ==> r == Lock(1, value)
    ensures !raises && hasApp && value == 0 ==>
              r == (if ExecuteUnlock(devices, deviceId, md5, script) then Lock(0, 0) else Lock(l.current, 1))
  {
    if raises then Lock(1, 1)
    else
      var written := l.(target := value);
      if !hasApp then written
      else if value == 0 then
        if ExecuteUnlock(devices, deviceId, md5, script) then written.(current := 0)
        else written.(target := 1)
      else written.(current := 1)
  }

  /** A secured lock shows unsecured after a write exactly when the write
      asked to unlock and the door-open flow of that device succeeded. */
  lemma UnsecuredOnlyAfterDoorOpened(l: Lock, value: int, hasApp: bool, raises: bool,
                                     devices: seq<Device>, deviceId: int, md5: string -> string,
                                     script: seq<Reply>)
    requires l.current == 1
    ensures SetLockState(l, value, hasApp, raises, devices, deviceId, md5, script).current == 0 <==>
              !raises && hasApp && value == 0 && ExecuteUnlock(devices, deviceId, md5, script)
  {
  }

  // ---------------------------------------------------------------------
  // The manager

  /** A `HomeKitDevice` row. */
  datatype HkDevice = HkDevice(rowId: int, deviceId: int, homekitAid: Option<int>, homekitName: string,
                               enabled: bool)

  /** An accessory on the bridge: its id and display name. */
  datatype Accessory = Accessory(aid: int, name: string)

  /** The bridge's display name, port, formatted pairing code and the
      accessory ids it holds. Its `add_accessory` refuses, with a
      `ValueError`, an id it already holds, and nothing takes an id off it
      again. */
  datatype Bridge = Bridge(name: string, port: int, pincode: string, aids: set<int>)

  /** `HomeKitManager`: the running flag, the bridge (`None` when there is
      no driver) and the accessories by device id. */
  datatype Manager = Manager(running: bool, bridge: Option<Bridge>, accessories: map<int, Accessory>)

  const NewManager: Manager := Manager(false, None, map[])

  /** Every accessory carries the id `_generate_stable_aid` gives its device. */
  predicate AidsStable(acc: map<int, Accessory>) {
    forall k :: k in acc ==> acc[k].aid == StableAidAsWritten(k)
  }

  /** No two accessories share an accessory id. */
  predicate AidsDistinct(acc: map<int, Accessory>) {
    forall j, k :: j in acc && k in acc && j != k ==> acc[j].aid != acc[k].aid
  }

  /** The accessories agree with the bridge: each under its device's id,
      no id twice, and every id held by the bridge. */
  predicate InSync(m: Manager) {
    AidsStable(m.accessories) && AidsDistinct(m.accessories) &&
    forall k :: k in m.accessories ==> m.bridge.Some? && m.accessories[k].aid in m.bridge.value.aids
  }

  /** Two devices get the same accessory id exactly when their ids agree
      modulo 254 or both leave 5 or 6 modulo 254. */
  lemma DistinctAids(j: int, k: int)
    ensures StableAidAsWritten(j) == StableAidAsWritten(k) <==>
            j % 254 == k % 254 || ((j % 254 == 5 || j % 254 == 6) && (k % 254 == 5 || k % 254 == 6))
  {
  }

  /** A row whose device gets an accessory: enabled, and its device exists
      and is visible. */
  predicate Eligible(row: HkDevice, devices: seq<Device>) {
    row.enabled && FindById(devices, row.deviceId).Some? && FindById(devices, row.deviceId).value.visible
  }

  function EligibleIds(rows: seq<HkDevice>, devices: seq<Device>): set<int> {
    set row | row in rows && Eligible(row, devices) :: row.deviceId
  }

  lemma EligibleIdsCons(rows: seq<HkDevice>, devices: seq<Device>)
    requires rows != []
    ensures EligibleIds(rows, devices) ==
            EligibleIds(rows[1..], devices) + (if Eligible(rows[0], devices) then {rows[0].deviceId} else {})
  {
    assert rows == [rows[0]] + rows[1..];
  }

  /** The rows are in ascending order of device id. */
  predicate SortedByDevice(rows: seq<HkDevice>) {
    forall i, j :: 0 <= i < j < |rows| ==> rows[i].deviceId <= rows[j].deviceId
  }

  /** One row put into a sorted sequence, ahead of the rows of the same
      device. */
  function InsertByDevice(row: HkDevice, sorted: seq<HkDevice>): (r: seq<HkDevice>)
    requires SortedByDevice(sorted)
    ensures SortedByDevice(r)
    ensures multiset(r) == multiset(sorted) + multiset{row}
    ensures forall x :: x in r ==> x == row || x in sorted
  {
    if sorted == [] then [row]
    else if row.deviceId <= sorted[0].deviceId then [row] + sorted
    else
      var rest := InsertByDevice(row, sorted[1..]);
      assert sorted == [sorted[0]] + sorted[1..];
      assert forall x :: x in rest ==> sorted[0].deviceId <= x.deviceId;
      [sorted[0]] + rest
  }

  /** `order_by(HomeKitDevice.device_id)`: the rows by device id, rows of
      one device in table order. */
  function ByDevice(rows: seq<HkDevice>): (r: seq<HkDevice>)
    ensures SortedByDevice(r)
    ensures multiset(r) == multiset(rows)
  {
    if rows == [] then []
    else
      assert rows == [rows[0]] + rows[1..];
      InsertByDevice(rows[0], ByDevice(rows[1..]))
  }

  /** Sorting keeps the eligible devices. */
  lemma ByDeviceEligible(rows: seq<HkDevice>, devices: seq<Device>)
    ensures EligibleIds(ByDevice(rows), devices) == EligibleIds(rows, devices)
  {
    var r := ByDevice(rows);
    assert forall x :: x in r <==> x in multiset(rows);
  }

  /** The first eligible row of a device. */
  function FirstEligibleRow(rows: seq<HkDevice>, devices: seq<Device>, deviceId: int): (r: Option<HkDevice>)
    ensures r.None? <==> deviceId !in EligibleIds(rows, devices)
    ensures r.Some? ==> r.value in rows && Eligible(r.value, devices) && r.value.deviceId == deviceId
  {
    if rows == [] then None
    else
      EligibleIdsCons(rows, devices);
      if Eligible(rows[0], devices) && rows[0].deviceId == deviceId then Some(rows[0])
      else
        var r := FirstEligibleRow(rows[1..], devices, deviceId);
        assert forall x :: x in rows[1..] ==> x in rows;
        r
  }

  /** No eligible row meets an id the bridge holds or the id of an earlier
      eligible row, when `aidOf` gives the accessory ids. */
  predicate NoClash(aidOf: int -> int, rows: seq<HkDevice>, devices: seq<Device>, aids: set<int>) {
    (forall i :: 0 <= i < |rows| && Eligible(rows[i], devices) ==> aidOf(rows[i].deviceId) !in aids) &&
    (forall i, j :: 0 <= i < j < |rows| && Eligible(rows[i], devices) && Eligible(rows[j], devices) ==>
                    aidOf(rows[i].deviceId) != aidOf(rows[j].deviceId))
  }

  lemma NoClashTail(aidOf: int -> int, rows: seq<HkDevice>, devices: seq<Device>, aids: set<int>)
    requires rows != []
    ensures NoClash(aidOf, rows, devices, aids) ==>
              NoClash(aidOf, rows[1..], devices,
                      if Eligible(rows[0], devices) then aids + {aidOf(rows[0].deviceId)} else aids)
  {
    if !NoClash(aidOf, rows, devices, aids) {
      return;
    }
    var tail := rows[1..];
    forall i | 0 <= i < |tail| && Eligible(tail[i], devices)
      ensures aidOf(tail[i].deviceId) !in (if Eligible(rows[0], devices) then aids + {aidOf(rows[0].deviceId)} else aids)
    {
      assert tail[i] == rows[i + 1];
    }
    forall i, j | 0 <= i < j < |tail| && Eligible(tail[i], devices) && Eligible(tail[j], devices)
      ensures aidOf(tail[i].deviceId) != aidOf(tail[j].deviceId)
    {
      assert tail[i] == rows[i + 1] && tail[j] == rows[j + 1];
    }
  }

  /** What one pass of adding leaves: the accessories, the ids the bridge
      holds, and the devices added by the pass. */
  datatype Pass = Pass(accessories: map<int, Accessory>, aids: set<int>, added: set<int>)

  /** `_add_device_accessories` with the accessory ids given by `aidOf`:
      the rows (the query's `device_id` order) are walked in order and
      each eligible one is put on the bridge and filed under its device
      id. The one `try` encloses the whole loop, so the first id the
      bridge refuses ends the pass; what was added before stays. */
  function AddDeviceAccessories(aidOf: int -> int, acc: map<int, Accessory>, aids: set<int>,
                                rows: seq<HkDevice>, devices: seq<Device>)
    : (r: Pass)
    ensures r.added <= EligibleIds(rows, devices)
    ensures r.accessories.Keys == acc.Keys + r.added
    ensures forall k :: k in r.accessories && k !in r.added ==> r.accessories[k] == acc[k]
    ensures forall k :: k in r.added ==>
              r.accessories[k].aid == aidOf(k) && aidOf(k) !in aids && aidOf(k) in r.aids
    ensures aids <= r.aids
    decreases |rows|
  {
    if rows == [] then Pass(acc, aids, {})
    else
      var row := rows[0];
      EligibleIdsCons(rows, devices);
      assert forall x :: x in rows[1..] ==> x in rows;
      if !Eligible(row, devices) then AddDeviceAccessories(aidOf, acc, aids, rows[1..], devices)
      else
        var aid := aidOf(row.deviceId);
        if aid in aids then Pass(acc, aids, {})
        else
          var p := AddDeviceAccessories(aidOf, acc[row.deviceId := Accessory(aid, row.homekitName)],
                                        aids + {aid}, rows[1..], devices);
          assert row.deviceId !in p.added;
          assert p.accessories[row.deviceId] == Accessory(aid, row.homekitName);
          Pass(p.accessories, p.aids, p.added + {row.deviceId})
  }

  /** Each device a pass adds is named after its first eligible row. */
  lemma {:induction false} PassNames(aidOf: int -> int, acc: map<int, Accessory>, aids: set<int>,
                                     rows: seq<HkDevice>, devices: seq<Device>)
    ensures var r := AddDeviceAccessories(aidOf, acc, aids, rows, devices);
            forall k :: k in r.added ==>
              FirstEligibleRow(rows, devices, k).Some? &&
              r.accessories[k].name == FirstEligibleRow(rows, devices, k).value.homekitName
    decreases |rows|
  {
    if rows != [] {
      var row := rows[0];
      if !Eligible(row, devices) {
        PassNames(aidOf, acc, aids, rows[1..], devices);
      } else {
        var aid := aidOf(row.deviceId);
        if aid !in aids {
          var acc1 := acc[row.deviceId := Accessory(aid, row.homekitName)];
          PassNames(aidOf, acc1, aids + {aid}, rows[1..], devices);
          var p := AddDeviceAccessories(aidOf, acc1, aids + {aid}, rows[1..], devices);
          assert row.deviceId !in p.added;
          assert AddDeviceAccessories(aidOf, acc, aids, rows, devices) ==
                 Pass(p.accessories, p.aids, p.added + {row.deviceId});
        }
      }
    }
  }

  /** A pass puts no accessory id on the bridge twice. */
  lemma {:induction false} PassAidsDistinct(aidOf: int -> int, acc: map<int, Accessory>, aids: set<int>,
                                            rows: seq<HkDevice>, devices: seq<Device>)
    ensures var r := AddDeviceAccessories(aidOf, acc, aids, rows, devices);
            forall j, k :: j in r.added && k in r.added && j != k ==> aidOf(j) != aidOf(k)
    decreases |rows|
  {
    if rows != [] {
      var row := rows[0];
      if !Eligible(row, devices) {
        PassAidsDistinct(aidOf, acc, aids, rows[1..], devices);
      } else {
        var aid := aidOf(row.deviceId);
        if aid !in aids {
          var acc1 := acc[row.deviceId := Accessory(aid, row.homekitName)];
          PassAidsDistinct(aidOf, acc1, aids + {aid}, rows[1..], devices);
          var p := AddDeviceAccessories(aidOf, acc1, aids + {aid}, rows[1..], devices);
          assert forall k :: k in p.added ==> aidOf(k) != aid;
          assert AddDeviceAccessories(aidOf, acc, aids, rows, devices).added == p.added + {row.deviceId};
        }
      }
    }
  }

  /** The bridge gains exactly the ids of the devices a pass added. */
  lemma {:induction false} PassAidsExact(aidOf: int -> int, acc: map<int, Accessory>, aids: set<int>,
                                         rows: seq<HkDevice>, devices: seq<Device>)
    ensures var r := AddDeviceAccessories(aidOf, acc, aids, rows, devices);
            forall a :: a in r.aids && a !in aids ==> exists k :: k in r.added && aidOf(k) == a
    decreases |rows|
  {
    if rows != [] {
      var row := rows[0];
      if !Eligible(row, devices) {
        PassAidsExact(aidOf, acc, aids, rows[1..], devices);
      } else {
        var aid := aidOf(row.deviceId);
        if aid !in aids {
          var acc1 := acc[row.deviceId := Accessory(aid, row.homekitName)];
          PassAidsExact(aidOf, acc1, aids + {aid}, rows[1..], devices);
          var p := AddDeviceAccessories(aidOf, acc1, aids + {aid}, rows[1..], devices);
          var r := AddDeviceAccessories(aidOf, acc, aids, rows, devices);
          assert r == Pass(p.accessories, p.aids, p.added + {row.deviceId});
          forall a | a in r.aids && a !in aids
            ensures exists k :: k in r.added && aidOf(k) == a
          {
            if a == aid {
              assert row.deviceId in r.added;
            } else {
              var k :| k in p.added && aidOf(k) == a;
              assert k in r.added;
            }
          }
        }
      }
    }
  }

  /** When no eligible row clashes, a pass adds every eligible device. */
  lemma {:induction false} PassComplete(aidOf: int -> int, acc: map<int, Accessory>, aids: set<int>,
                                        rows: seq<HkDevice>, devices: seq<Device>)
    ensures NoClash(aidOf, rows, devices, aids) ==>
              AddDeviceAccessories(aidOf, acc, aids, rows, devices).added == EligibleIds(rows, devices)
    decreases |rows|
  {
    if rows != [] && NoClash(aidOf, rows, devices, aids) {
      var row := rows[0];
      EligibleIdsCons(rows, devices);
      NoClashTail(aidOf, rows, devices, aids);
      if !Eligible(row, devices) {
        PassComplete(aidOf, acc, aids, rows[1..], devices);
      } else {
        var aid := aidOf(row.deviceId);
        assert rows[0] == row;
        PassComplete(aidOf, acc[row.deviceId := Accessory(aid, row.homekitName)], aids + {aid}, rows[1..], devices);
      }
    }
  }

  /** `start_homekit_service`: nothing without the app, without an enabled
      configuration or with a PIN that is not eight characters long;
      otherwise a new, empty bridge with the formatted PIN, one pass of
      adding on top of the accessories already held, and the service
      marked running. */
  function Start(m: Manager, cfg: Option<HkConfig>, hasApp: bool, rows: seq<HkDevice>, devices: seq<Device>)
    : (r: (Manager, bool))
    ensures r.1 <==> hasApp && cfg.Some? && cfg.value.enabled && |cfg.value.bridgePin| == 8
    ensures !r.1 ==> r.0 == m
    ensures r.1 ==> r.0.running && r.0.bridge.Some? &&
                    r.0.bridge.value.(aids := {}) ==
                      Bridge(cfg.value.bridgeName, cfg.value.bridgePort, FormatPin(cfg.value.bridgePin).value, {}) &&
                    m.accessories.Keys <= r.0.accessories.Keys <= m.accessories.Keys + EligibleIds(rows, devices)
    ensures r.1 && NoClash(StableAidAsWritten, ByDevice(rows), devices, {}) ==>
              r.0.accessories.Keys == m.accessories.Keys + EligibleIds(rows, devices)
    ensures AidsStable(m.accessories) ==> AidsStable(r.0.accessories)
  {
    if !hasApp then (m, false)
    else if cfg.None? || !cfg.value.enabled then (m, false)
    else if cfg.value.bridgePin == "" || |cfg.value.bridgePin| != 8 then (m, false)
    else
      var c := cfg.value;
      var sorted := ByDevice(rows);
      ByDeviceEligible(rows, devices);
      PassComplete(StableAidAsWritten, m.accessories, {}, sorted, devices);
      var p := AddDeviceAccessories(StableAidAsWritten, m.accessories, {}, sorted, devices);
      var bridge := Bridge(c.bridgeName, c.bridgePort, FormatPin(c.bridgePin).value, p.aids);
      (Manager(true, Some(bridge), p.accessories), true)
  }

  /** Starting from nothing, the accessories are in step with the new
      bridge, whatever the rows. */
  lemma FreshStartInSync(cfg: Option<HkConfig>, hasApp: bool, rows: seq<HkDevice>, devices: seq<Device>)
    ensures Start(NewManager, cfg, hasApp, rows, devices).1 ==> InSync(Start(NewManager, cfg, hasApp, rows, devices).0)
  {
    var p := AddDeviceAccessories(StableAidAsWritten, map[], {}, ByDevice(rows), devices);
    PassAidsDistinct(StableAidAsWritten, map[], {}, ByDevice(rows), devices);
    assert p.accessories.Keys == p.added;
  }

  /** `stop_homekit_service`: not running, no bridge, no accessories. */
  function Stop(m: Manager): (r: (Manager, bool))
    ensures r == (NewManager, true)
  {
    (Manager(false, None, map[]), true)
  }

  /** `restart_homekit_service`: stop, then start. A restart that succeeds
      holds only eligible devices, all of them when no two of their ids
      clash, in step with the new bridge; one that fails leaves the
      service stopped. */
  function Restart(m: Manager, cfg: Option<HkConfig>, hasApp: bool, rows: seq<HkDevice>, devices: seq<Device>)
    : (r: (Manager, bool))
    ensures r.1 ==> r.0.running && r.0.accessories.Keys <= EligibleIds(rows, devices) && InSync(r.0)
    ensures r.1 && NoClash(StableAidAsWritten, ByDevice(rows), devices, {}) ==>
              r.0.accessories.Keys == EligibleIds(rows, devices)
    ensures !r.1 ==> r.0 == NewManager
  {
    FreshStartInSync(cfg, hasApp, rows, devices);
    Start(Stop(m).0, cfg, hasApp, rows, devices)
  }

  /** The rows of devices 6 and 5 in table order, sorted by device id. */
  lemma SortSixFive(r6: HkDevice, r5: HkDevice)
    requires r6.deviceId == 6 && r5.deviceId == 5
    ensures ByDevice([r6, r5]) == [r5, r6]
  {
    assert [r6, r5][1..] == [r5];
    assert ByDevice([r5]) == InsertByDevice(r5, ByDevice([]));
    assert InsertByDevice(r6, [r5]) == [r5] + InsertByDevice(r6, []);
  }

  /** The rows of devices 5 and 6 in table order are already sorted by device id. */
  lemma SortFiveSix(r5: HkDevice, r6: HkDevice)
    requires r5.deviceId == 5 && r6.deviceId == 6
    ensures ByDevice([r5, r6]) == [r5, r6]
  {
    assert [r5, r6][1..] == [r6];
    assert ByDevice([r6]) == InsertByDevice(r6, ByDevice([]));
  }

  /** A pass over devices 5 and 6 adds device 5 and stops at device 6. */
  lemma PassStopsAtSix(r5: HkDevice, r6: HkDevice, devices: seq<Device>)
    requires r5.deviceId == 5 && r6.deviceId == 6 && Eligible(r5, devices) && Eligible(r6, devices)
    ensures AddDeviceAccessories(StableAidAsWritten, map[], {}, [r5, r6], devices).added == {5}
  {
    StableAidCollision();
    var acc1 := map[5 := Accessory(8, r5.homekitName)];
    assert [r5, r6][1..] == [r6];
    assert AddDeviceAccessories(StableAidAsWritten, acc1, {8}, [r6], devices) == Pass(acc1, {8}, {});
  }

  /** Devices 5 and 6 both get accessory id 8: after a restart with both
      enabled and visible, only device 5 is on the bridge, with device 6's
      row first in the table or second, because the rows are taken by device id and adding
      device 6 raises and ends the pass. */
  lemma RestartDropsCollidingDevice(cfg: HkConfig, d5: Device, d6: Device)
    requires cfg.enabled && |cfg.bridgePin| == 8
    requires d5.id == 5 && d6.id == 6 && d5.visible && d6.visible
    ensures var rows := [HkDevice(1, 6, Some(2), "B", true), HkDevice(2, 5, Some(3), "A", true)];
            var r := Restart(NewManager, Some(cfg), true, rows, [d5, d6]);
            r.1 && r.0.accessories.Keys == {5} && 6 in EligibleIds(rows, [d5, d6])
    ensures var rows := [HkDevice(1, 5, Some(3), "A", true), HkDevice(2, 6, Some(2), "B", true)];
            var r := Restart(NewManager, Some(cfg), true, rows, [d5, d6]);
            r.1 && r.0.accessories.Keys == {5} && 6 in EligibleIds(rows, [d5, d6])
  {
    var devices := [d5, d6];
    assert FindById(devices, 5) == Some(d5);
    assert FindById(devices, 6) == Some(d6);
    var r6 := HkDevice(1, 6, Some(2), "B", true);
    var r5 := HkDevice(2, 5, Some(3), "A", true);
    var rows := [r6, r5];
    assert Eligible(r6, devices) && r6 in rows;
    SortSixFive(r6, r5);
    PassStopsAtSix(r5, r6, devices);
    RestartAccessories(cfg, rows, devices);
    var s5 := HkDevice(1, 5, Some(3), "A", true);
    var s6 := HkDevice(2, 6, Some(2), "B", true);
    var rows' := [s5, s6];
    assert Eligible(s6, devices) && s6 in rows';
    SortFiveSix(s5, s6);
    PassStopsAtSix(s5, s6, devices);
    RestartAccessories(cfg, rows', devices);
  }

  /** A restart that starts holds what one pass over the sorted rows adds
      to nothing. */
  lemma RestartAccessories(cfg: HkConfig, rows: seq<HkDevice>, devices: seq<Device>)
    requires cfg.enabled && |cfg.bridgePin| == 8
    ensures Restart(NewManager, Some(cfg), true, rows, devices).1
    ensures Restart(NewManager, Some(cfg), true, rows, devices).0.accessories.Keys ==
            AddDeviceAccessories(StableAidAsWritten, map[], {}, ByDevice(rows), devices).added
  {
  }

  /** With the corrected accessory id, eligible rows of devices whose ids
      differ modulo 253 never clash on a fresh bridge. */
  lemma CorrectedAidsNeverClash(rows: seq<HkDevice>, devices: seq<Device>)
    requires forall i, j :: 0 <= i < j < |rows| && Eligible(rows[i], devices) && Eligible(rows[j], devices) ==>
                              rows[i].deviceId % 253 != rows[j].deviceId % 253
    ensures NoClash(StableAid, rows, devices, {})
  {
    forall i, j | 0 <= i < j < |rows| && Eligible(rows[i], devices) && Eligible(rows[j], devices)
      ensures StableAid(rows[i].deviceId) != StableAid(rows[j].deviceId)
    {
      StableAidInjective(rows[i].deviceId, rows[j].deviceId);
    }
  }

  /** `HomeKitDevice.query.filter_by(device_id=id, enabled=True).first()`. */
  function FirstEnabledRow(rows: seq<HkDevice>, deviceId: int): (r: Option<HkDevice>)
    ensures r.None? <==> forall row :: row in rows ==> !(row.deviceId == deviceId && row.enabled)
    ensures r.Some? ==> r.value in rows && r.value.deviceId == deviceId && r.value.enabled
  {
    if rows == [] then None
    else if rows[0].deviceId == deviceId && rows[0].enabled then Some(rows[0])
    else FirstEnabledRow(rows[1..], deviceId)
  }

  /** `add_device_accessory`: one new accessory, under the device id, only
      for an enabled row whose device exists and is visible, while the
      service runs, the device has none yet and the bridge does not hold
      its accessory id already (otherwise `add_accessory` raises and the
      answer is false). */
  function AddDeviceAccessory(m: Manager, hasApp: bool, rows: seq<HkDevice>, devices: seq<Device>, deviceId: int)
    : (r: (Manager, bool))
    ensures r.1 <==> hasApp && FirstEnabledRow(rows, deviceId).Some? &&
                     FindById(devices, deviceId).Some? && FindById(devices, deviceId).value.visible &&
                     m.running && deviceId !in m.accessories &&
                     m.bridge.Some? && StableAidAsWritten(deviceId) !in m.bridge.value.aids
    ensures !r.1 ==> r.0 == m
    ensures r.1 ==> r.0.running == m.running && r.0.bridge.Some? &&
                    r.0.bridge.value == m.bridge.value.(aids := m.bridge.value.aids + {StableAidAsWritten(deviceId)}) &&
                    r.0.accessories == m.accessories[deviceId :=
                      Accessory(StableAidAsWritten(deviceId), FirstEnabledRow(rows, deviceId).value.homekitName)]
    ensures InSync(m) ==> InSync(r.0)
  {
    if !hasApp then (m, false)
    else
      match FirstEnabledRow(rows, deviceId)
      case None => (m, false)
      case Some(row) =>
        var dev := FindById(devices, row.deviceId);
        if dev.None? || !dev.value.visible then (m, false)
        else if m.running && deviceId !in m.accessories then
          match m.bridge
          case None => (m, false)
          case Some(b) =>
            var aid := StableAidAsWritten(deviceId);
            if aid in b.aids then (m, false)
            else
              var m1 := Manager(m.running, Some(b.(aids := b.aids + {aid})),
                                m.accessories[deviceId := Accessory(aid, row.homekitName)]);
              assert InSync(m) ==> forall k :: k in m.accessories ==> m.accessories[k].aid != aid;
              (m1, true)
        else (m, false)
  }

  /** `remove_device_accessory`: succeeds exactly when the device had an
      accessory, which is then forgotten by the manager; the bridge keeps
      its accessory id. */
  function RemoveDeviceAccessory(m: Manager, deviceId: int): (r: (Manager, bool))
    ensures r.1 <==> deviceId in m.accessories
    ensures r.0.accessories.Keys == m.accessories.Keys - {deviceId}
    ensures forall k :: k in r.0.accessories ==> r.0.accessories[k] == m.accessories[k]
    ensures r.0.running == m.running && r.0.bridge == m.bridge
    ensures InSync(m) ==> InSync(r.0)
  {
    if deviceId in m.accessories then (m.(accessories := m.accessories - {deviceId}), true)
    else (m, false)
  }

  /** What `get_service_status` reports. */
  datatype ServiceStatus = ServiceStatus(running: bool, deviceCount: nat, bridgeName: Option<string>,
                                         port: Option<int>)

  function Status(m: Manager): (s: ServiceStatus)
    ensures s.deviceCount == |m.accessories| && s.running == m.running
    ensures s.bridgeName.Some? <==> m.bridge.Some?
    ensures s.port.Some? <==> m.bridge.Some?
  {
    match m.bridge
    case None => ServiceStatus(m.running, |m.accessories|, None, None)
    case Some(b) => ServiceStatus(m.running, |m.accessories|, Some(b.name), Some(b.port))
  }

  /** A successful add counts one more device; removing that device again
      restores the accessories, but the bridge still holds its id, so the
      same device cannot be added again until a restart. */
  lemma AddThenRemove(m: Manager, hasApp: bool, rows: seq<HkDevice>, devices: seq<Device>, deviceId: int)
    requires AddDeviceAccessory(m, hasApp, rows, devices, deviceId).1
    ensures var added := AddDeviceAccessory(m, hasApp, rows, devices, deviceId).0;
            var removed := RemoveDeviceAccessory(added, deviceId);
            Status(added).deviceCount == Status(m).deviceCount + 1 &&
            removed.1 && removed.0.accessories == m.accessories && removed.0.running == m.running &&
            !AddDeviceAccessory(removed.0, hasApp, rows, devices, deviceId).1
  {
    var added := AddDeviceAccessory(m, hasApp, rows, devices, deviceId).0;
    assert added.accessories - {deviceId} == m.accessories;
  }
}

=== FILE: mqtt.dfy ===
/** MQTT bookkeeping of services/mqtt_service.py: one `MQTTClient` per Bemfa
    key with its flags and its set of subscribed topics, the reaction to a
    device message, and the `MQTTManager` map from key to client.

    The broker is not modelled: whether a connect raises, the return code of
    the connect callback and whether a subscribe raises are inputs. */
module Mqtt {
  import opened Common
  import opened DeviceModel
  import opened Dahua
  import opened BemfaSync

  /** The state of one `MQTTClient`: whether a paho client object exists,
      the two flags, the subscribed topics, and whether the Flask app was
      handed over. */
  datatype MqttClient = MqttClient(clientId: string, hasClient: bool, connected: bool, running: bool,
                                   subscribed: set<string>, hasApp: bool)

  /** A newly constructed client. */
  function NewClient(id: string, hasApp: bool): MqttClient {
    MqttClient(id, false, false, false, {}, hasApp)
  }

  /** `MQTTClient.start`: nothing when already running and connected;
      otherwise a new paho client is made and connected, and `is_running`
      is set unless the connect raises (the exception goes on to the
      caller, reported as `ok == false`). */
  function Start(c: MqttClient, connectOk: bool): (r: (MqttClient, bool))
    ensures c.running && c.connected ==> r == (c, true)
    ensures !(c.running && c.connected) ==>
              r.0.hasClient && r.1 == connectOk && (r.0.running <==> c.running || connectOk)
    ensures r.0.connected == c.connected && r.0.subscribed == c.subscribed
  {
    if c.running && c.connected then (c, true)
    else
      var c1 := c.(hasClient := true);
      if connectOk then (c1.(running := true), true) else (c1, false)
  }

  /** `MQTTClient.stop`: both flags cleared, but only for a running client
      that has a paho client; the subscribed topics are kept. */
  function Stop(c: MqttClient): (r: MqttClient)
    ensures c.hasClient && c.running ==> !r.running && !r.connected
    ensures !(c.hasClient && c.running) ==> r == c
    ensures r.subscribed == c.subscribed && r.hasClient == c.hasClient
  {
    if c.hasClient && c.running then c.(running := false, connected := false) else c
  }

  /** The topics `_subscribe_device_topics` subscribes to: the non-empty
      topics of the visible devices. */
  function DeviceTopics(devices: seq<Device>): (s: set<string>)
    ensures forall d :: d in devices && d.visible && d.mqttTopic.Some? && d.mqttTopic.value != "" ==>
              d.mqttTopic.value in s
    ensures forall t :: t in s ==> exists d :: d in devices && d.visible && d.mqttTopic == Some(t) && t != ""
  {
    set d | d in devices && d.visible && d.mqttTopic.Some? && d.mqttTopic.value != "" :: d.mqttTopic.value
  }

  /** `on_connect`: return code 0 marks the client connected and, when the
      app is known, subscribes every visible device topic. Any other code
      changes nothing. */
  function OnConnect(c: MqttClient, rc: int, devices: seq<Device>): (r: MqttClient)
    ensures rc != 0 ==> r == c
    ensures rc == 0 ==> r.connected && r.running == c.running && r.hasClient == c.hasClient
    ensures rc == 0 && c.hasApp ==> r.subscribed == c.subscribed + DeviceTopics(devices)
    ensures rc == 0 && !c.hasApp ==> r.subscribed == c.subscribed
  {
    if rc != 0 then c
    else if c.hasApp then c.(connected := true, subscribed := c.subscribed + DeviceTopics(devices))
    else c.(connected := true)
  }

  /** `on_disconnect`. */
  function OnDisconnect(c: MqttClient): (r: MqttClient)
    ensures !r.connected
    ensures r.running == c.running && r.subscribed == c.subscribed && r.hasClient == c.hasClient
  {
    c.(connected := false)
  }

  /** `subscribe_device_topic`: a connected client adds the topic; any other
      client, and every other topic, is left alone. */
  function Subscribe(c: MqttClient, t: string): (r: MqttClient)
    ensures t in r.subscribed <==> t in c.subscribed || (c.hasClient && c.connected)
    ensures r.subscribed - {t} == c.subscribed - {t}
    ensures r.(subscribed := c.subscribed) == c
  {
    if c.hasClient && c.connected && t !in c.subscribed then c.(subscribed := c.subscribed + {t}) else c
  }

  /** `unsubscribe_device_topic`: a connected client drops the topic; any
      other client, and every other topic, is left alone. */
  function Unsubscribe(c: MqttClient, t: string): (r: MqttClient)
    ensures t in r.subscribed <==> t in c.subscribed && !(c.hasClient && c.connected)
    ensures r.subscribed - {t} == c.subscribed - {t}
    ensures r.(subscribed := c.subscribed) == c
  {
    if c.hasClient && c.connected && t in c.subscribed then c.(subscribed := c.subscribed - {t}) else c
  }

  /** Subscribing twice is subscribing once. */
  lemma SubscribeIdempotent(c: MqttClient, t: string)
    ensures Subscribe(Subscribe(c, t), t) == Subscribe(c, t)
  {
  }

  /** On a connected client, unsubscribing undoes a subscription of a new
      topic. */
  lemma UnsubscribeUndoesSubscribe(c: MqttClient, t: string)
    requires c.hasClient && c.connected && t !in c.subscribed
    ensures Unsubscribe(Subscribe(c, t), t) == c
  {
    assert (c.subscribed + {t}) - {t} == c.subscribed;
  }

  // ---------------------------------------------------------------------
  // Device messages

  const OpenWord: string := "打开"

  /** The payload asks to open: it contains "打开", or lower-cased it is
      "open" or "on". */
  predicate IsOpenCommand(payload: string): (r: bool)
    ensures Contains(payload, OpenWord) ==> r
    ensures r ==> |payload| >= 2
    ensures r && !Contains(payload, OpenWord) ==> |payload| == 2 || |payload| == 4
  {
    ContainsLength(payload, OpenWord);
    Contains(payload, OpenWord) || AsciiLower(payload) == "open" || AsciiLower(payload) == "on"
  }

  /** The English words are recognised in any letter case. */
  lemma OpenCommandIgnoresCase(p: string, q: string)
    requires AsciiLower(p) == AsciiLower(q)
    requires !Contains(p, OpenWord) && !Contains(q, OpenWord)
    ensures IsOpenCommand(p) <==> IsOpenCommand(q)
  {
  }

  lemma OpenCommandExamples()
    ensures IsOpenCommand("OPEN") && IsOpenCommand("On") && IsOpenCommand("打开")
    ensures !IsOpenCommand("off") && !IsOpenCommand("opened")
  {
    assert AsciiLower("OPEN") == "open";
    assert AsciiLower("On") == "on";
    assert StartsWith("打开", OpenWord);
    assert AsciiLower("off") == "off";
    assert AsciiLower("opened") == "opened";
    assert !Contains("", OpenWord);
    assert !Contains("f", OpenWord);
    assert !Contains("ff", OpenWord);
    assert !Contains("off", OpenWord);
    assert !Contains("d", OpenWord);
    assert !Contains("ed", OpenWord);
    assert !Contains("ned", OpenWord);
    assert !Contains("ened", OpenWord);
    assert !Contains("pened", OpenWord);
    assert !Contains("opened", OpenWord);
  }

  /** `Device.query.filter_by(mqtt_topic=topic).first()`: the first device
      with that topic, visible or not. */
  function FindByTopic(devices: seq<Device>, topic: string): (r: Option<Device>)
    ensures r.None? <==> forall d :: d in devices ==> d.mqttTopic != Some(topic)
    ensures r.Some? ==> r.value in devices && r.value.mqttTopic == Some(topic)
  {
    if devices == [] then None
    else if devices[0].mqttTopic == Some(topic) then Some(devices[0])
    else FindByTopic(devices[1..], topic)
  }

  /** One status push to a Bemfa account. */
  datatype Push = Push(uid: string, topic: Option<string>, msg: string, wemsg: string)

  const PushState: string := "off"

  /** The WeChat text of the push: "设备 <name> 开锁成功，当前状态：关闭". */
  const UnlockOpening: string := "设备 "
  const UnlockClosing: string := " 开锁成功，当前状态：关闭"

  /** The device name reads back from between the fixed opening and closing. */
  function UnlockText(name: string): (r: string)
    ensures |r| == |UnlockOpening| + |name| + |UnlockClosing|
    ensures StartsWith(r, UnlockOpening)
    ensures r[|UnlockOpening|..|r| - |UnlockClosing|] == name
    ensures r[|r| - |UnlockClosing|..] == UnlockClosing
  {
    UnlockOpening + name + UnlockClosing
  }

  /** `_send_status_pushback`: one push per enabled key, in key order, none
      without keys. The push answers are only logged. */
  function Pushes(d: Device, keys: seq<BemfaKey>): (r: seq<Push>)
    ensures |r| == |EnabledKeys(keys)|
    ensures forall i :: 0 <= i < |r| ==>
              r[i] == Push(EnabledKeys(keys)[i].key, d.mqttTopic, PushState, UnlockText(d.name))
  {
    var enabled := EnabledKeys(keys);
    seq(|enabled|, i requires 0 <= i < |enabled| => Push(enabled[i].key, d.mqttTopic, PushState, UnlockText(d.name)))
  }

  /** What `_handle_device_message` did. */
  datatype MessageOutcome =
    | UnknownTopic
    | NotACommand
    | UnlockFailed(result: FlowResult)
    | Unlocked(device: Device, pushes: seq<Push>)

  /** `_handle_device_message`: find the device, and on an open command run
      the service door flow with the device's credentials; the reply script
      of the device's VTO is an input. A successful unlock records the time
      and pushes the new state. */
  function HandleDeviceMessage(devices: seq<Device>, keys: seq<BemfaKey>, topic: string, payload: string,
                               md5: string -> string, script: seq<Reply>): (r: MessageOutcome)
    ensures r == UnknownTopic <==> FindByTopic(devices, topic).None?
    ensures r == NotACommand <==> FindByTopic(devices, topic).Some? && !IsOpenCommand(payload)
    ensures r.Unlocked? <==>
              FindByTopic(devices, topic).Some? && IsOpenCommand(payload) &&
              Success(ServiceFlow(Config(FindByTopic(devices, topic).value.username,
                                         FindByTopic(devices, topic).value.password, md5),
                                  script, 0, ServiceShortNumber).0)
    ensures r.Unlocked? ==> r.device.mqttTopic == Some(topic) && r.pushes == Pushes(r.device, keys)
  {
    match FindByTopic(devices, topic)
    case None => UnknownTopic
    case Some(d) =>
      if !IsOpenCommand(payload) then NotACommand
      else
        var flow := ServiceFlow(Config(d.username, d.password, md5), script, 0, ServiceShortNumber).0;
        if Success(flow) then Unlocked(d, Pushes(d, keys)) else UnlockFailed(flow)
  }

  // ---------------------------------------------------------------------
  // The manager

  /** `MQTTManager`: the clients by key, the service flag and whether the
      app was handed over. */
  datatype Manager = Manager(clients: map<string, MqttClient>, running: bool, hasApp: bool)

  /** Every client is filed under its own id. */
  predicate WellFiled(m: Manager) {
    forall id :: id in m.clients ==> m.clients[id].clientId == id
  }

  /** `start_client`: a fresh client replaces any client under the key (the
      old one is stopped); if its start raises, the key is dropped. */
  function StartClient(m: Manager, id: string, connectOk: bool): (r: Manager)
    ensures connectOk ==> r.clients == m.clients[id := MqttClient(id, true, false, true, {}, m.hasApp)]
    ensures !connectOk ==> r.clients == m.clients - {id}
    ensures r.running == m.running && r.hasApp == m.hasApp
    ensures WellFiled(m) ==> WellFiled(r)
  {
    var (c, ok) := Start(NewClient(id, m.hasApp), connectOk);
    if ok then m.(clients := m.clients[id := c]) else m.(clients := m.clients - {id})
  }

  /** `stop_client`: the key is gone afterwards; absent keys are ignored. */
  function StopClient(m: Manager, id: string): (r: Manager)
    ensures r.clients == m.clients - {id}
    ensures id !in m.clients ==> r == m
    ensures r.running == m.running
  {
    m.(clients := m.clients - {id})
  }

  /** `stop_mqtt_service`: every client stopped and forgotten. */
  function StopAll(m: Manager): (r: Manager)
    ensures r.clients == map[] && !r.running && r.hasApp == m.hasApp
  {
    m.(clients := map[], running := false)
  }

  /** Starts the clients of the keys in order. */
  function StartEach(m: Manager, keys: seq<BemfaKey>, connectOk: string -> bool): (r: Manager)
    ensures r.running == m.running && r.hasApp == m.hasApp
    ensures WellFiled(m) ==> WellFiled(r)
    ensures forall id :: id in m.clients && (forall k :: k in keys ==> k.key != id) ==>
              id in r.clients && r.clients[id] == m.clients[id]
    ensures forall k :: k in keys ==> (k.key in r.clients <==> connectOk(k.key))
    ensures r.clients.Keys <= m.clients.Keys + set k | k in keys :: k.key
    decreases |keys|
  {
    if keys == [] then m
    else
      var r := StartEach(StartClient(m, keys[0].key, connectOk(keys[0].key)), keys[1..], connectOk);
      assert forall k :: k in keys[1..] ==> k in keys;
      r
  }

  /** `start_all_clients`: nothing without the app or without an enabled
      key; otherwise every enabled key is started and the service is
      marked running, even if every start failed. */
  function StartAll(m: Manager, keys: seq<BemfaKey>, connectOk: string -> bool): (r: Manager)
    ensures !m.hasApp || EnabledKeys(keys) == [] ==> r == m
    ensures m.hasApp && EnabledKeys(keys) != [] ==>
              r.running && forall k :: k in keys && k.enabled ==> (k.key in r.clients <==> connectOk(k.key))
  {
    if !m.hasApp || EnabledKeys(keys) == [] then m
    else StartEach(m, EnabledKeys(keys), connectOk).(running := true)
  }

  /** `start_mqtt_service` as written: with a client id only that client is
      started, and `is_running` is left as it was. */
  function StartServiceAsWritten(m: Manager, clientId: Option<string>, keys: seq<BemfaKey>,
                                 connectOk: string -> bool): (r: Manager)
    ensures clientId.Some? && clientId.value != "" ==>
              r == StartClient(m, clientId.value, connectOk(clientId.value)) && r.running == m.running
    ensures !(clientId.Some? && clientId.value != "") ==> r == StartAll(m, keys, connectOk)
  {
    if clientId.Some? && clientId.value != "" then StartClient(m, clientId.value, connectOk(clientId.value))
    else StartAll(m, keys, connectOk)
  }

  /** Starting the legacy single client leaves an idle manager marked as not
      running although its client runs. */
  lemma StartServiceLeavesNotRunning(keys: seq<BemfaKey>, connectOk: string -> bool)
    requires connectOk("k")
    ensures var r := StartServiceAsWritten(Manager(map[], false, true), Some("k"), keys, connectOk);
            "k" in r.clients && r.clients["k"].running && !r.running
  {
  }

  /** `start_mqtt_service` as it is evidently meant: like `start_all_clients`,
      starting the service marks it running. */
  function StartService(m: Manager, clientId: Option<string>, keys: seq<BemfaKey>,
                        connectOk: string -> bool): (r: Manager)
    ensures clientId.Some? && clientId.value != "" ==>
              r.clients == StartClient(m, clientId.value, connectOk(clientId.value)).clients && r.running
    ensures !(clientId.Some? && clientId.value != "") ==> r == StartAll(m, keys, connectOk)
  {
    if clientId.Some? && clientId.value != "" then
      StartClient(m, clientId.value, connectOk(clientId.value)).(running := true)
    else StartAll(m, keys, connectOk)
  }

  /** After the corrected start of a client that connects, the manager
      reports itself running with that client running. */
  lemma StartServiceRuns(m: Manager, id: string, keys: seq<BemfaKey>, connectOk: string -> bool)
    requires id != "" && connectOk(id)
    ensures var r := StartService(m, Some(id), keys, connectOk);
            r.running && id in r.clients && r.clients[id].running
  {
  }

  /** `is_connected`: some client is connected. */
  predicate IsConnected(m: Manager) {
    exists id :: id in m.clients && m.clients[id].connected
  }

  /** One entry of `get_connection_status`. */
  datatype ClientStatus = ClientStatus(connected: bool, running: bool, subscribedTopics: nat)

  /** `get_connection_status`: an entry per key with the flags and the
      number of subscribed topics. */
  function Status(m: Manager): (r: map<string, ClientStatus>)
    ensures r.Keys == m.clients.Keys
    ensures forall id :: id in r ==>
              r[id] == ClientStatus(m.clients[id].connected, m.clients[id].running, |m.clients[id].subscribed|)
  {
    map id | id in m.clients :: ClientStatus(m.clients[id].connected, m.clients[id].running, |m.clients[id].subscribed|)
  }

  /** The manager is connected exactly when its status shows a connected
      entry; after `stop_mqtt_service` it is not. */
  lemma ConnectedMatchesStatus(m: Manager)
    ensures IsConnected(m) <==> exists id :: id in Status(m) && Status(m)[id].connected
    ensures !IsConnected(StopAll(m)) && Status(StopAll(m)) == map[]
  {
    if IsConnected(m) {
      var id :| id in m.clients && m.clients[id].connected;
      assert id in Status(m) && Status(m)[id].connected;
    }
  }

  /** Manager-wide `subscribe_device_topic`: nothing for a missing or empty
      topic; otherwise every client is asked, and a client whose subscribe
      raises keeps its state without stopping the others. */
  function FanSubscribe(m: Manager, topic: Option<string>, raises: string -> bool): (r: Manager)
    ensures r.clients.Keys == m.clients.Keys && r.running == m.running
    ensures topic.None? || topic.value == "" ==> r == m
    ensures topic.Some? && topic.value != "" ==>
              forall id :: id in m.clients ==>
                r.clients[id] == (if raises(id) then m.clients[id] else Subscribe(m.clients[id], topic.value))
  {
    if topic.None? || topic.value == "" then m
    else m.(clients := map id | id in m.clients ::
                         if raises(id) then m.clients[id] else Subscribe(m.clients[id], topic.value))
  }

  /** Manager-wide `unsubscribe_device_topic`, with the same shape. */
  function FanUnsubscribe(m: Manager, topic: Option<string>, raises: string -> bool): (r: Manager)
    ensures r.clients.Keys == m.clients.Keys && r.running == m.running
    ensures topic.None? || topic.value == "" ==> r == m
    ensures topic.Some? && topic.value != "" ==>
              forall id :: id in m.clients ==>
                r.clients[id] == (if raises(id) then m.clients[id] else Unsubscribe(m.clients[id], topic.value))
  {
    if topic.None? || topic.value == "" then m
    else m.(clients := map id | id in m.clients ::
                         if raises(id) then m.clients[id] else Unsubscribe(m.clients[id], topic.value))
  }

  /** After a fan-out subscribe nobody raised on, every connected client
      holds the topic. */
  lemma FanSubscribeReachesConnected(m: Manager, t: string, raises: string -> bool, id: string)
    requires t != "" && id in m.clients && !raises(id)
    requires m.clients[id].hasClient && m.clients[id].connected
    ensures t in FanSubscribe(m, Some(t), raises).clients[id].subscribed
  {
  }
}

=== FILE: routes_auth.dfy ===
/** The decisions of the account pages in routes/auth.py: the session
    guard in front of every protected page, login and first-time
    initialisation, changing one's password, and adding, editing and
    deleting users. Password hashing is an input: `hash` stands for
    `generate_password_hash` and `verify` for `check_password_hash`. */
module AuthRoutes {
  import opened Common

  datatype User = User(id: int, username: string, passwordHash: string)

  const MinUsernameLength: nat := 3
  const MinPasswordLength: nat := 6

  /** The row with the id. */
  function FindUser(users: seq<User>, id: int): (r: Option<User>)
    ensures r.None? <==> forall u :: u in users ==> u.id != id
    ensures r.Some? ==> r.value in users && r.value.id == id
  {
    if users == [] then None
    else if users[0].id == id then Some(users[0])
    else FindUser(users[1..], id)
  }

  /** The first row with the user name. */
  function FindByName(users: seq<User>, name: string): (r: Option<User>)
    ensures r.None? <==> forall u :: u in users ==> u.username != name
    ensures r.Some? ==> r.value in users && r.value.username == name
  {
    if users == [] then None
    else if users[0].username == name then Some(users[0])
    else FindByName(users[1..], name)
  }

  /** A user other than `self` already has the name. */
  predicate NameHeldByOther(users: seq<User>, name: string, self: int) {
    exists u :: u in users && u.username == name && u.id != self
  }

  // ---------------------------------------------------------------------
  // The session guard

  /** The session: the stored user id, if any, and the stored user name. */
  datatype Session = Session(userId: Option<int>, username: Option<string>)

  const EmptySession: Session := Session(None, None)

  datatype Guard = ToLogin(session: Session) | Proceed(session: Session)

  /** `login_required`: without a user id in the session, to the login
      page; with the id of a user that no longer exists, the session is
      cleared and to the login page; otherwise the stored name is
      refreshed from the user row and the page runs. */
  function LoginRequired(s: Session, users: seq<User>): (g: Guard)
    ensures g.Proceed? <==> s.userId.Some? && FindUser(users, s.userId.value).Some?
    ensures g.Proceed? ==> g.session == Session(s.userId, Some(FindUser(users, s.userId.value).value.username))
    ensures g.ToLogin? ==> g.session == (if s.userId.None? then s else EmptySession)
  {
    match s.userId
    case None => ToLogin(s)
    case Some(id) =>
      match FindUser(users, id)
      case None => ToLogin(EmptySession)
      case Some(u) => Proceed(s.(username := Some(u.username)))
  }

  /** A stale session is cleared, so the next request is sent to the login
      page without looking the user up again. */
  lemma StaleSessionStaysOut(s: Session, users: seq<User>, later: seq<User>)
    requires s.userId.Some? && FindUser(users, s.userId.value).None?
    ensures LoginRequired(s, users) == ToLogin(EmptySession)
    ensures LoginRequired(LoginRequired(s, users).session, later) == ToLogin(EmptySession)
  {
  }

  // ---------------------------------------------------------------------
  // Login and initialisation

  datatype LoginOutcome = ToInitialize | LoginFailed | LoggedIn(session: Session)

  /** `login` (POST): to the initialisation page while there is no user;
      otherwise the first user with the name whose hash verifies the
      password is logged in. */
  function Login(users: seq<User>, username: string, password: string, verify: (string, string) -> bool)
    : (r: LoginOutcome)
    ensures r == ToInitialize <==> users == []
    ensures r.LoggedIn? <==>
              users != [] && FindByName(users, username).Some? &&
              verify(FindByName(users, username).value.passwordHash, password)
    ensures r.LoggedIn? ==>
              var u := FindByName(users, username).value;
              r.session == Session(Some(u.id), Some(u.username)) && LoginRequired(r.session, users).Proceed?
  {
    if users == [] then ToInitialize
    else
      match FindByName(users, username)
      case None => LoginFailed
      case Some(u) =>
        if verify(u.passwordHash, password) then LoggedIn(Session(Some(u.id), Some(u.username)))
        else LoginFailed
  }

  datatype InitError =
    | AlreadyInitialized
    | FieldsEmpty
    | UsernameTooShort
    | PasswordTooShort
    | ConfirmMismatch

  /** `initialize` (POST): only while there is no user; on the stripped
      fields, in order: both filled in, a name of at least 3 and a
      password of at least 6 characters, and a matching confirmation.
      The first user is created. */
  function Initialize(users: seq<User>, username: string, password: string, confirm: string,
                      hash: string -> string)
    : (r: Result<seq<User>, InitError>)
    ensures r == Err(AlreadyInitialized) <==> users != []
    ensures r.Ok? <==>
              users == [] && |Strip(username)| >= MinUsernameLength && |Strip(password)| >= MinPasswordLength &&
              Strip(password) == Strip(confirm)
    ensures r.Ok? ==> r.value == [User(1, Strip(username), hash(Strip(password)))]
    ensures r == Err(FieldsEmpty) <==> users == [] && (Strip(username) == "" || Strip(password) == "")
  {
    if users != [] then Err(AlreadyInitialized)
    else
      var name := Strip(username);
      var pw := Strip(password);
      var conf := Strip(confirm);
      if name == "" || pw == "" then Err(FieldsEmpty)
      else if |name| < MinUsernameLength then Err(UsernameTooShort)
      else if |pw| < MinPasswordLength then Err(PasswordTooShort)
      else if pw != conf then Err(ConfirmMismatch)
      else Ok([User(1, name, hash(pw))])
  }

  /** Once initialised, the login page no longer redirects to
      initialisation, and initialisation is refused. */
  lemma InitializeOnce(username: string, password: string, confirm: string, hash: string -> string,
                       name2: string, pw2: string, verify: (string, string) -> bool)
    requires Initialize([], username, password, confirm, hash).Ok?
    ensures var users := Initialize([], username, password, confirm, hash).value;
            Login(users, name2, pw2, verify) != ToInitialize &&
            Initialize(users, name2, pw2, pw2, hash) == Err(AlreadyInitialized)
  {
  }

  // ---------------------------------------------------------------------
  // Changing one's password

  datatype PasswordError = CurrentPasswordWrong | NewPasswordsDiffer | NewPasswordTooShort

  /** The key `ReplaceById` matches users on. */
  function UserId(u: User): int { u.id }

  /** `change_password` for the logged-in user `me` (the guard has found
      the row): the current password must verify, the new one must match
      its confirmation and be at least 6 characters long; only the hash
      changes. */
  function ChangePassword(users: seq<User>, me: User, current: string, newPassword: string, confirm: string,
                          hash: string -> string, verify: (string, string) -> bool)
    : (r: Result<seq<User>, PasswordError>)
    ensures r.Ok? <==> verify(me.passwordHash, current) && newPassword == confirm &&
                       |newPassword| >= MinPasswordLength
    ensures r == Err(CurrentPasswordWrong) <==> !verify(me.passwordHash, current)
    ensures r.Ok? ==> r.value == ReplaceById(users, UserId, me.id, me.(passwordHash := hash(newPassword)))
  {
    if !verify(me.passwordHash, current) then Err(CurrentPasswordWrong)
    else if newPassword != confirm then Err(NewPasswordsDiffer)
    else if |newPassword| < MinPasswordLength then Err(NewPasswordTooShort)
    else Ok(ReplaceById(users, UserId, me.id, me.(passwordHash := hash(newPassword))))
  }

  // ---------------------------------------------------------------------
  // User management

  datatype UserError = UserNotFound | UsernameTaken | UserPasswordTooShort | CannotDeleteSelf | LastUser

  /** A user id not yet used. */
  function NextUserId(users: seq<User>): (id: int)
    ensures forall u :: u in users ==> u.id < id
  {
    if users == [] then 1
    else
      var rest := NextUserId(users[1..]);
      if users[0].id + 1 > rest then users[0].id + 1 else rest
  }

  /** No two users share a name. */
  predicate UniqueNames(users: seq<User>) {
    forall i, j :: 0 <= i < j < |users| ==> users[i].username != users[j].username
  }

  /** `add_user`: the fields as submitted (not stripped); a name already
      in use is refused first, then a password shorter than 6. */
  function AddUser(users: seq<User>, username: string, password: string, hash: string -> string)
    : (r: Result<seq<User>, UserError>)
    ensures r == Err(UsernameTaken) <==> FindByName(users, username).Some?
    ensures r.Ok? <==> FindByName(users, username).None? && |password| >= MinPasswordLength
    ensures r.Ok? ==> r.value == users + [User(NextUserId(users), username, hash(password))]
    ensures r.Ok? && UniqueNames(users) ==> UniqueNames(r.value)
  {
    if FindByName(users, username).Some? then Err(UsernameTaken)
    else if |password| < MinPasswordLength then Err(UserPasswordTooShort)
    else
      var r := users + [User(NextUserId(users), username, hash(password))];
      assert forall i :: 0 <= i < |users| ==> r[i] == users[i] && r[i] in users;
      Ok(r)
  }

  /** `edit_user`: a name held by another user is refused; an empty
      password keeps the hash, a short one is refused (and the renaming
      done before it is not committed), any other replaces the hash. */
  function EditUser(users: seq<User>, id: int, username: string, password: string, hash: string -> string)
    : (r: Result<seq<User>, UserError>)
    ensures r == Err(UserNotFound) <==> FindUser(users, id).None?
    ensures r.Ok? <==>
              FindUser(users, id).Some? && !NameHeldByOther(users, username, id) &&
              (password == "" || |password| >= MinPasswordLength)
    ensures r.Ok? ==>
              var u := FindUser(users, id).value;
              r.value == ReplaceById(users, UserId, id, u.(username := username,
                                                   passwordHash := if password == "" then u.passwordHash
                                                                   else hash(password)))
  {
    match FindUser(users, id)
    case None => Err(UserNotFound)
    case Some(u) =>
      if NameHeldByOther(users, username, id) then Err(UsernameTaken)
      else if password != "" && |password| < MinPasswordLength then Err(UserPasswordTooShort)
      else
        var hashed := if password == "" then u.passwordHash else hash(password);
        Ok(ReplaceById(users, UserId, id, u.(username := username, passwordHash := hashed)))
  }

  /** Editing keeps user names distinct when ids are distinct. */
  lemma EditKeepsNamesUnique(users: seq<User>, id: int, username: string, password: string, hash: string -> string)
    requires UniqueNames(users)
    requires forall i, j :: 0 <= i < j < |users| ==> users[i].id != users[j].id
    requires EditUser(users, id, username, password, hash).Ok?
    ensures UniqueNames(EditUser(users, id, username, password, hash).value)
  {
    var r := EditUser(users, id, username, password, hash).value;
    forall i, j | 0 <= i < j < |r|
      ensures r[i].username != r[j].username
    {
      if users[i].id == id {
        assert users[j] in users && users[j].id != id;
      } else if users[j].id == id {
        assert users[i] in users && users[i].id != id;
      }
    }
  }

  /** The users whose id differs. */
  function WithoutUser(users: seq<User>, id: int): (r: seq<User>)
    ensures forall u :: u in r <==> u in users && u.id != id
  {
    if users == [] then []
    else (if users[0].id == id then [] else [users[0]]) + WithoutUser(users[1..], id)
  }

  /** `delete_user` while `me` is logged in: an unknown id, oneself, and
      the last remaining user are refused. */
  function DeleteUser(users: seq<User>, id: int, me: int): (r: Result<seq<User>, UserError>)
    ensures r == Err(UserNotFound) <==> FindUser(users, id).None?
    ensures r.Ok? <==> FindUser(users, id).Some? && id != me && |users| > 1
    ensures r.Ok? ==> r.value == WithoutUser(users, id)
  {
    match FindUser(users, id)
    case None => Err(UserNotFound)
    case Some(u) =>
      if u.id == me then Err(CannotDeleteSelf)
      else if |users| <= 1 then Err(LastUser)
      else Ok(WithoutUser(users, id))
  }

  /** Deleting a user never locks out the one who deleted it: their row
      is kept, their session still passes the guard, and so some user
      always remains. */
  lemma DeleteKeepsMe(users: seq<User>, id: int, s: Session)
    requires LoginRequired(s, users).Proceed?
    requires DeleteUser(users, id, s.userId.value).Ok?
    ensures var after := DeleteUser(users, id, s.userId.value).value;
            LoginRequired(s, after).Proceed? && after != []
  {
    var after := DeleteUser(users, id, s.userId.value).value;
    var me := FindUser(users, s.userId.value).value;
    assert me in after;
  }
}

=== FILE: routes_device.dfy ===
/** The decisions of the device pages in routes/device.py: adding, editing
    and deleting a door station (with the MQTT subscriptions that follow),
    choosing the visible stations, and grouping stations by section and
    building. The database table is a sequence of devices; rendering,
    flashing and redirects are left out. */
module DeviceRoutes {
  import opened Common
  import opened DeviceModel
  import opened BemfaSync
  import Mqtt

  /** The submitted device form. A missing `username`/`password` field is
      `None` (the form then falls back to the defaults). */
  datatype DeviceForm = DeviceForm(name: string, groupName: string, section: string, building: string,
                                   position: Option<string>, ip: string,
                                   username: Option<string>, password: Option<string>)

  const DefaultUsername: string := "admin"
  const DefaultPassword: string := "admin123"

  /** `request.form.get(field, default)`. */
  function FieldOr(o: Option<string>, default: string): string {
    if o.Some? then o.value else default
  }

  /** `request.form.get('position', '') or None`: an empty position is none. */
  function FormPosition(p: Option<string>): (r: Option<string>)
    ensures r.Some? <==> p.Some? && p.value != ""
    ensures r.Some? ==> r == p
  {
    if p.Some? && p.value != "" then p else None
  }

  /** Some stored device already uses the address. */
  predicate IpTaken(devices: seq<Device>, ip: string) {
    exists d :: d in devices && d.ip == ip
  }

  /** No two stored devices share an address. */
  predicate UniqueIps(devices: seq<Device>) {
    forall i, j :: 0 <= i < j < |devices| ==> devices[i].ip != devices[j].ip
  }

  /** The id the table hands out next: one more than the largest id. */
  function NextId(devices: seq<Device>): (id: int)
    ensures forall d :: d in devices ==> d.id < id
  {
    if devices == [] then 1
    else
      var rest := NextId(devices[1..]);
      if devices[0].id + 1 > rest then devices[0].id + 1 else rest
  }

  /** A manager-wide subscription change. */
  datatype MqttAction = SubscribeTopic(topic: string) | UnsubscribeTopic(topic: string)

  /** Carries out the actions in order on every client; `raises` says which
      clients raise on the call. */
  function Apply(m: Mqtt.Manager, actions: seq<MqttAction>, raises: string -> bool): (r: Mqtt.Manager)
    ensures r.clients.Keys == m.clients.Keys && r.running == m.running
    decreases |actions|
  {
    if actions == [] then m
    else
      var m1 := match actions[0]
        case SubscribeTopic(t) => Mqtt.FanSubscribe(m, Some(t), raises)
        case UnsubscribeTopic(t) => Mqtt.FanUnsubscribe(m, Some(t), raises);
      Apply(m1, actions[1..], raises)
  }

  // ---------------------------------------------------------------------
  // Add

  datatype AddOutcome =
    | IpAlreadyUsed
    | Added(devices: seq<Device>, device: Device, actions: seq<MqttAction>)

  /** `add_device`: an address already in the table is refused; otherwise
      the new, invisible device gets the topic of its address and, while
      MQTT runs, that topic is subscribed. */
  function AddDevice(devices: seq<Device>, form: DeviceForm, mqttRunning: bool): (r: AddOutcome)
    ensures r.IpAlreadyUsed? <==> IpTaken(devices, form.ip)
    ensures r.Added? ==> r.devices == devices + [r.device]
    ensures r.Added? ==> r.device.ip == form.ip && r.device.mqttTopic == MqttTopic(form.ip) && !r.device.visible
    ensures r.Added? ==>
              r.device == Device(r.device.id, form.name, form.groupName, form.section, form.building,
                                 FormPosition(form.position), form.ip,
                                 FieldOr(form.username, DefaultUsername), FieldOr(form.password, DefaultPassword),
                                 MqttTopic(form.ip), false)
    ensures r.Added? ==> forall d :: d in devices ==> d.id != r.device.id
    ensures r.Added? ==> (r.actions != [] <==> mqttRunning && form.ip != "")
    ensures r.Added? && r.actions != [] ==> r.actions == [SubscribeTopic(MqttTopic(form.ip).value)]
    ensures r.Added? && UniqueIps(devices) ==> UniqueIps(r.devices)
  {
    if IpTaken(devices, form.ip) then IpAlreadyUsed
    else
      var d := Device(NextId(devices), form.name, form.groupName, form.section, form.building,
                      FormPosition(form.position), form.ip,
                      FieldOr(form.username, DefaultUsername), FieldOr(form.password, DefaultPassword),
                      MqttTopic(form.ip), false);
      var actions := if d.mqttTopic.Some? && d.mqttTopic.value != "" && mqttRunning
                     then [SubscribeTopic(d.mqttTopic.value)] else [];
      var r := devices + [d];
      assert forall i :: 0 <= i < |devices| ==> r[i] == devices[i];
      Added(r, d, actions)
  }

  // ---------------------------------------------------------------------
  // Edit

  /** The subscription changes of `edit_device` while MQTT runs: drop the
      old topic when it is set and differs from the new one, then
      subscribe the new topic when it is set. */
  function EditActions(mqttRunning: bool, oldTopic: Option<string>, newTopic: Option<string>)
    : (r: seq<MqttAction>)
    ensures !mqttRunning ==> r == []
    ensures forall t :: UnsubscribeTopic(t) in r <==>
              mqttRunning && oldTopic == Some(t) && t != "" && oldTopic != newTopic
    ensures forall t :: SubscribeTopic(t) in r <==> mqttRunning && newTopic == Some(t) && t != ""
    ensures |r| == 2 ==> r[0].UnsubscribeTopic? && r[1].SubscribeTopic?
    ensures |r| <= 2
  {
    if !mqttRunning then []
    else
      (if oldTopic.Some? && oldTopic.value != "" && oldTopic != newTopic then [UnsubscribeTopic(oldTopic.value)] else []) +
      (if newTopic.Some? && newTopic.value != "" then [SubscribeTopic(newTopic.value)] else [])
  }

  datatype EditOutcome =
    | DeviceNotFound
    | Edited(devices: seq<Device>, device: Device, actions: seq<MqttAction>, syncBemfa: bool)

  /** The key `ReplaceById` matches devices on. */
  function DeviceId(d: Device): int { d.id }

  /** `edit_device`: the fields come from the form, the topic is derived
      again only when the address changed, the subscriptions follow
      `EditActions`, and a visible device triggers a Bemfa sync. The new
      address is not checked against the other devices. */
  function EditDevice(devices: seq<Device>, id: int, form: DeviceForm, mqttRunning: bool): (r: EditOutcome)
    ensures r.DeviceNotFound? <==> FindById(devices, id).None?
    ensures r.Edited? ==>
              var prev := FindById(devices, id).value;
              && r.devices == ReplaceById(devices, DeviceId, id, r.device)
              && r.device.id == id && r.device.ip == form.ip && r.device.visible == prev.visible
              && (form.ip != prev.ip ==> r.device.mqttTopic == MqttTopic(form.ip))
              && (form.ip == prev.ip ==> r.device.mqttTopic == prev.mqttTopic)
              && r.actions == EditActions(mqttRunning, prev.mqttTopic, r.device.mqttTopic)
              && r.syncBemfa == prev.visible
    ensures r.Edited? ==>
              r.device == Device(id, form.name, form.groupName, form.section, form.building,
                                 FormPosition(form.position), form.ip,
                                 FieldOr(form.username, DefaultUsername), FieldOr(form.password, DefaultPassword),
                                 r.device.mqttTopic, FindById(devices, id).value.visible)
  {
    match FindById(devices, id)
    case None => DeviceNotFound
    case Some(prev) =>
      var topic := if form.ip != prev.ip then MqttTopic(form.ip) else prev.mqttTopic;
      var d := prev.(name := form.name, groupName := form.groupName, section := form.section,
                    building := form.building, position := FormPosition(form.position), ip := form.ip,
                    username := FieldOr(form.username, DefaultUsername),
                    password := FieldOr(form.password, DefaultPassword), mqttTopic := topic);
      Edited(ReplaceById(devices, DeviceId, id, d), d, EditActions(mqttRunning, prev.mqttTopic, topic), d.visible)
  }

  /** After an edit while MQTT runs, a connected client that did not raise
      listens on the new topic and no longer on a different old one. */
  lemma EditMovesSubscription(m: Mqtt.Manager, oldTopic: Option<string>, newTopic: Option<string>,
                              raises: string -> bool, id: string)
    requires id in m.clients && !raises(id)
    requires m.clients[id].hasClient && m.clients[id].connected
    ensures var c := Apply(m, EditActions(true, oldTopic, newTopic), raises).clients[id];
            && (newTopic.Some? && newTopic.value != "" ==> newTopic.value in c.subscribed)
            && (oldTopic.Some? && oldTopic.value != "" && oldTopic != newTopic ==> oldTopic.value !in c.subscribed)
            && c.connected && c.hasClient
  {
    var actions := EditActions(true, oldTopic, newTopic);
    if |actions| == 2 {
      var m1 := Mqtt.FanUnsubscribe(m, Some(actions[0].topic), raises);
      assert Apply(m, actions, raises) == Apply(m1, actions[1..], raises);
      assert actions[1..][1..] == [];
    } else if |actions| == 1 {
      assert actions[1..] == [];
    }
  }

  /** An edit that keeps the address keeps the topic and never
      unsubscribes. */
  lemma SameIpKeepsTopic(devices: seq<Device>, id: int, form: DeviceForm, mqttRunning: bool)
    requires FindById(devices, id).Some? && form.ip == FindById(devices, id).value.ip
    ensures var r := EditDevice(devices, id, form, mqttRunning);
            r.device.mqttTopic == FindById(devices, id).value.mqttTopic &&
            forall a :: a in r.actions ==> a.SubscribeTopic?
  {
  }

  // ---------------------------------------------------------------------
  // Delete

  /** The devices whose id differs from `id`, in order. */
  function WithoutId(devices: seq<Device>, id: int): (r: seq<Device>)
    ensures forall d :: d in r <==> d in devices && d.id != id
    ensures |r| <= |devices|
  {
    if devices == [] then []
    else (if devices[0].id == id then [] else [devices[0]]) + WithoutId(devices[1..], id)
  }

  /** Removing an id nobody has changes nothing. */
  lemma {:induction false} WithoutAbsentId(devices: seq<Device>, id: int)
    requires forall d :: d in devices ==> d.id != id
    ensures WithoutId(devices, id) == devices
  {
    if devices != [] {
      WithoutAbsentId(devices[1..], id);
    }
  }

  /** Removing an id distributes over concatenation. */
  lemma {:induction false} WithoutIdConcat(a: seq<Device>, b: seq<Device>, id: int)
    ensures WithoutId(a + b, id) == WithoutId(a, id) + WithoutId(b, id)
  {
    if a == [] {
      assert a + b == b;
    } else {
      assert (a + b)[1..] == a[1..] + b;
      WithoutIdConcat(a[1..], b, id);
    }
  }

  datatype DeleteOutcome =
    | NothingToDelete
    | Deleted(devices: seq<Device>, actions: seq<MqttAction>)

  /** `delete_device`: the device is removed and, while MQTT runs, its topic
      (when set) is unsubscribed. */
  function DeleteDevice(devices: seq<Device>, id: int, mqttRunning: bool): (r: DeleteOutcome)
    ensures r.NothingToDelete? <==> FindById(devices, id).None?
    ensures r.Deleted? ==> r.devices == WithoutId(devices, id)
    ensures r.Deleted? ==>
              var t := FindById(devices, id).value.mqttTopic;
              (r.actions != [] <==> mqttRunning && t.Some? && t.value != "") &&
              (r.actions != [] ==> r.actions == [UnsubscribeTopic(t.value)])
  {
    match FindById(devices, id)
    case None => NothingToDelete
    case Some(d) =>
      var actions := if d.mqttTopic.Some? && d.mqttTopic.value != "" && mqttRunning
                     then [UnsubscribeTopic(d.mqttTopic.value)] else [];
      Deleted(WithoutId(devices, id), actions)
  }

  /** Deleting a device that was just added gives the table back, and the
      subscription made for it is the one the delete takes away. */
  lemma AddThenDelete(devices: seq<Device>, form: DeviceForm, mqttRunning: bool)
    requires AddDevice(devices, form, mqttRunning).Added?
    ensures var a := AddDevice(devices, form, mqttRunning);
            var r := DeleteDevice(a.devices, a.device.id, mqttRunning);
            r.Deleted? && r.devices == devices &&
            (a.actions == [] <==> r.actions == []) &&
            (a.actions != [] ==> r.actions == [UnsubscribeTopic(a.actions[0].topic)])
  {
    var a := AddDevice(devices, form, mqttRunning);
    WithoutIdConcat(devices, [a.device], a.device.id);
    WithoutAbsentId(devices, a.device.id);
    assert WithoutId([a.device], a.device.id) == [];
    assert FindById(a.devices, a.device.id).value.mqttTopic == MqttTopic(form.ip);
  }

  // ---------------------------------------------------------------------
  // Visibility

  function Ids(devices: seq<Device>): set<int> {
    set d | d in devices :: d.id
  }

  function VisibleIds(devices: seq<Device>): set<int> {
    set d | d in devices && d.visible :: d.id
  }

  /** The table after `update_visible_devices`: every device hidden, then
      the selected ones shown. */
  function SetVisible(devices: seq<Device>, selected: seq<int>): (r: seq<Device>)
    ensures |r| == |devices|
    ensures forall i :: 0 <= i < |r| ==> r[i].(visible := devices[i].visible) == devices[i]
    ensures forall i :: 0 <= i < |r| ==> (r[i].visible <==> devices[i].id in selected)
  {
    seq(|devices|, i requires 0 <= i < |devices| => devices[i].(visible := devices[i].id in selected))
  }

  /** The visible devices afterwards are exactly the selected ids that
      exist; unknown ids are ignored. */
  lemma SetVisibleSelects(devices: seq<Device>, selected: seq<int>)
    ensures VisibleIds(SetVisible(devices, selected)) == Ids(devices) * set i | i in selected
  {
    var r := SetVisible(devices, selected);
    forall id | id in Ids(devices) * set i | i in selected
      ensures id in VisibleIds(r)
    {
      var k :| 0 <= k < |devices| && devices[k].id == id;
      assert r[k] in r && r[k].visible && r[k].id == id;
    }
    forall id | id in VisibleIds(r)
      ensures id in Ids(devices) && id in selected
    {
      var k :| 0 <= k < |r| && r[k].visible && r[k].id == id;
      assert devices[k] in devices;
    }
  }

  /** Only the set of selected ids matters, and applying it twice is
      applying it once. */
  lemma SetVisibleBySet(devices: seq<Device>, s1: seq<int>, s2: seq<int>)
    requires forall i :: i in s1 <==> i in s2
    ensures SetVisible(devices, s1) == SetVisible(devices, s2)
    ensures SetVisible(SetVisible(devices, s1), s1) == SetVisible(devices, s1)
  {
    assert SetVisible(devices, s1)[..] == SetVisible(devices, s2)[..];
  }

  /** What the route does to MQTT after the update. */
  datatype Refresh = NoRefresh | RefreshAll | RefreshLegacy(key: string) | NoKeyToRefresh

  /** While MQTT runs: restart every enabled key's client, or else the
      legacy key's single client, or report that there is no key. */
  function VisibleRefresh(mqttRunning: bool, keys: seq<BemfaKey>, legacyKey: Option<string>): (r: Refresh)
    ensures !mqttRunning <==> r == NoRefresh
    ensures r == RefreshAll <==> mqttRunning && EnabledKeys(keys) != []
    ensures r.RefreshLegacy? <==> mqttRunning && EnabledKeys(keys) == [] && legacyKey.Some? && legacyKey.value != ""
    ensures r.RefreshLegacy? ==> r.key == legacyKey.value
  {
    if !mqttRunning then NoRefresh
    else if EnabledKeys(keys) != [] then RefreshAll
    else if legacyKey.Some? && legacyKey.value != "" then RefreshLegacy(legacyKey.value)
    else NoKeyToRefresh
  }

  /** The manager after the refresh: stop everything, then start again. */
  function Refreshed(m: Mqtt.Manager, r: Refresh, keys: seq<BemfaKey>, connectOk: string -> bool): Mqtt.Manager {
    match r
    case RefreshAll => Mqtt.StartAll(Mqtt.StopAll(m), keys, connectOk)
    case RefreshLegacy(k) => Mqtt.StartServiceAsWritten(Mqtt.StopAll(m), Some(k), keys, connectOk)
    case _ => m
  }

  /** `update_visible_devices`: the new table, and the manager after the
      refresh (the Bemfa sync it triggers is `BemfaSync.SyncAll`). A running
      manager with the app and an enabled key ends running, holding exactly
      the clients of the enabled keys that connect. Without an enabled key
      but with the legacy key, the manager ends holding at most that key's
      client, which is there exactly when it connects, and is marked not
      running, since `start_mqtt_service` never sets the flag that
      `stop_mqtt_service` cleared. */
  function UpdateVisibleDevices(devices: seq<Device>, selected: seq<int>, m: Mqtt.Manager,
                                keys: seq<BemfaKey>, legacyKey: Option<string>, connectOk: string -> bool)
    : (r: (seq<Device>, Mqtt.Manager))
    ensures r.0 == SetVisible(devices, selected)
    ensures !m.running ==> r.1 == m
    ensures m.running && m.hasApp && EnabledKeys(keys) != [] ==>
              r.1.running &&
              forall id :: id in r.1.clients <==> exists k :: k in keys && k.enabled && k.key == id && connectOk(id)
    ensures m.running && EnabledKeys(keys) == [] && legacyKey.Some? && legacyKey.value != "" ==>
              !r.1.running && r.1.clients.Keys <= {legacyKey.value} &&
              (legacyKey.value in r.1.clients <==> connectOk(legacyKey.value))
    ensures m.running && EnabledKeys(keys) == [] && (legacyKey.None? || legacyKey.value == "") ==> r.1 == m
  {
    RestartHoldsEnabledClients(m, keys, connectOk);
    (SetVisible(devices, selected), Refreshed(m, VisibleRefresh(m.running, keys, legacyKey), keys, connectOk))
  }

  /** Restarting every client from a stopped manager leaves exactly the
      connecting enabled keys. */
  lemma RestartHoldsEnabledClients(m: Mqtt.Manager, keys: seq<BemfaKey>, connectOk: string -> bool)
    ensures var r := Mqtt.StartAll(Mqtt.StopAll(m), keys, connectOk);
            m.hasApp && EnabledKeys(keys) != [] ==>
            r.running &&
            forall id :: id in r.clients <==> exists k :: k in keys && k.enabled && k.key == id && connectOk(id)
  {
    var r := Mqtt.StartAll(Mqtt.StopAll(m), keys, connectOk);
    var e := EnabledKeys(keys);
    assert forall id :: id in r.clients ==> exists k :: k in e && k.key == id;
  }

  // ---------------------------------------------------------------------
  // Grouping

  /** Sections, then buildings, then the devices of that building. */
  type Groups = map<string, map<string, seq<Device>>>

  /** The devices of one section and building, in table order. */
  function InGroup(devices: seq<Device>, section: string, building: string): (r: seq<Device>)
    ensures forall d :: d in r <==> d in devices && d.section == section && d.building == building
  {
    if devices == [] then []
    else
      (if devices[0].section == section && devices[0].building == building then [devices[0]] else []) +
      InGroup(devices[1..], section, building)
  }

  /** One more device at the end of the table adds it to its own group only. */
  lemma {:induction false} InGroupSnoc(devices: seq<Device>, d: Device, section: string, building: string)
    ensures InGroup(devices + [d], section, building) ==
              InGroup(devices, section, building) +
              (if d.section == section && d.building == building then [d] else [])
  {
    if devices == [] {
      assert devices + [d] == [d];
    } else {
      assert (devices + [d])[1..] == devices[1..] + [d];
      InGroupSnoc(devices[1..], d, section, building);
    }
  }

  /** A group keeps every copy of each of its devices. */
  lemma {:induction false} InGroupCount(devices: seq<Device>, d: Device)
    ensures multiset(InGroup(devices, d.section, d.building))[d] == multiset(devices)[d]
  {
    if devices != [] {
      var x := devices[0];
      var head := if x.section == d.section && x.building == d.building then [x] else [];
      var rest := InGroup(devices[1..], d.section, d.building);
      InGroupCount(devices[1..], d);
      assert InGroup(devices, d.section, d.building) == head + rest;
      assert multiset(head + rest) == multiset(head) + multiset(rest);
      assert devices == [x] + devices[1..];
      assert multiset(devices) == multiset([x]) + multiset(devices[1..]);
      assert multiset(head)[d] == multiset([x])[d];
    }
  }

  function SectionsOf(devices: seq<Device>): set<string> {
    set d | d in devices :: d.section
  }

  function BuildingsOf(devices: seq<Device>, section: string): set<string> {
    set d | d in devices && d.section == section :: d.building
  }

  lemma SectionsSnoc(devices: seq<Device>, d: Device)
    ensures SectionsOf(devices + [d]) == SectionsOf(devices) + {d.section}
  {
    assert forall x :: x in devices + [d] <==> x in devices || x == d;
  }

  lemma BuildingsSnoc(devices: seq<Device>, d: Device, section: string)
    ensures BuildingsOf(devices + [d], section) ==
              BuildingsOf(devices, section) + (if d.section == section then {d.building} else {})
  {
    assert forall x :: x in devices + [d] <==> x in devices || x == d;
  }

  /** The grouping as `_manage_visible_devices` builds it. */
  predicate GroupedAs(g: Groups, devices: seq<Device>) {
    && g.Keys == SectionsOf(devices)
    && (forall s :: s in g ==> g[s].Keys == BuildingsOf(devices, s))
    && (forall s, b :: s in g && b in g[s] ==> g[s][b] == InGroup(devices, s, b))
  }

  /** One device appended to its building, creating the section and
      building entries on first sight. */
  function AddToGroups(g: Groups, d: Device): Groups {
    var buildings := if d.section in g then g[d.section] else map[];
    var group := if d.building in buildings then buildings[d.building] else [];
    g[d.section := buildings[d.building := group + [d]]]
  }

  /** Adding the next device of the table keeps the grouping exact. */
  lemma GroupStep(g: Groups, prefix: seq<Device>, d: Device)
    requires GroupedAs(g, prefix)
    ensures GroupedAs(AddToGroups(g, d), prefix + [d])
  {
    var g1 := AddToGroups(g, d);
    var xs := prefix + [d];
    SectionsSnoc(prefix, d);
    forall s | s in g1
      ensures g1[s].Keys == BuildingsOf(xs, s)
    {
      BuildingsSnoc(prefix, d, s);
    }
    forall s, b | s in g1 && b in g1[s]
      ensures g1[s][b] == InGroup(xs, s, b)
    {
      GroupEntryStep(g, prefix, d, s, b);
    }
  }

  /** The entry of one building after the step. */
  lemma GroupEntryStep(g: Groups, prefix: seq<Device>, d: Device, s: string, b: string)
    requires GroupedAs(g, prefix)
    requires s in AddToGroups(g, d) && b in AddToGroups(g, d)[s]
    ensures AddToGroups(g, d)[s][b] == InGroup(prefix + [d], s, b)
  {
    InGroupSnoc(prefix, d, s, b);
    if InGroup(prefix, s, b) != [] {
      var x := InGroup(prefix, s, b)[0];
      assert x in prefix && x.section == s && x.building == b;
      assert s in g && b in g[s];
    }
  }

  /** `_manage_visible_devices`: one pass over the table, in table order. */
  method GroupDevices(devices: seq<Device>) returns (g: Groups)
    ensures GroupedAs(g, devices)
  {
    g := map[];
    var i := 0;
    while i < |devices|
      invariant 0 <= i <= |devices|
      invariant GroupedAs(g, devices[..i])
    {
      GroupStep(g, devices[..i], devices[i]);
      assert devices[..i + 1] == devices[..i] + [devices[i]];
      g := AddToGroups(g, devices[i]);
      i := i + 1;
    }
    assert devices[..i] == devices;
  }

  /** Each device lands in the group of its own section and building, as
      often as it occurs in the table, and in no other group. */
  lemma GroupsPlaceEachOnce(g: Groups, devices: seq<Device>, d: Device)
    requires GroupedAs(g, devices) && d in devices
    ensures d.section in g && d.building in g[d.section]
    ensures multiset(g[d.section][d.building])[d] == multiset(devices)[d]
    ensures forall s, b :: s in g && b in g[s] && (s, b) != (d.section, d.building) ==> d !in g[s][b]
  {
    InGroupCount(devices, d);
  }
}

=== FILE: routes_homekit.dfy ===
/** The decisions of the HomeKit pages in routes/homekit.py: validating and
    storing the bridge configuration and choosing what happens to the
    running service, adding, removing and toggling HomeKit devices, and the
    generated pairing code. The HomeKit manager of the service is the one
    modelled in the HomeKit module. */
module HomeKitRoutes {
  import opened Common
  import opened DeviceModel
  import opened HomeKit

  // ---------------------------------------------------------------------
  // Bridge configuration

  const DefaultBridgeName: string := "VTO Bridge"
  const DefaultBridgePort: int := 51827
  const MinPort: int := 1024
  const MaxPort: int := 65535

  /** The `bridge_port` field: absent (the default applies), a number, or
      text `int()` rejects. */
  datatype PortInput = PortAbsent | PortNumber(n: int) | PortNotNumber

  /** The submitted configuration form. */
  datatype ConfigForm = ConfigForm(bridgeName: Option<string>, bridgePin: Option<string>, bridgePort: PortInput,
                                   enabled: bool)

  /** Why the form is refused, in the order the handler finds out. */
  datatype ConfigError = PortMustBeNumber | PinNotEightDigits | PortOutOfRange

  /** `pin.isdigit() and len(pin) == 8`. */
  predicate ValidPin(pin: string) {
    |pin| == 8 && AllDigits(pin)
  }

  predicate ValidPort(port: int) {
    MinPort <= port <= MaxPort
  }

  /** The stripped fields with their defaults, then the port conversion
      (which raises before any check), the PIN check and the port range
      check. */
  function ValidateConfig(form: ConfigForm): (r: Result<HkConfig, ConfigError>)
    ensures r == Err(PortMustBeNumber) <==> form.bridgePort == PortNotNumber
    ensures r.Ok? <==>
              form.bridgePort != PortNotNumber &&
              ValidPin(Strip(FieldOrEmpty(form.bridgePin))) &&
              ValidPort(if form.bridgePort.PortNumber? then form.bridgePort.n else DefaultBridgePort)
    ensures r.Ok? ==> ValidPin(r.value.bridgePin) && ValidPort(r.value.bridgePort) &&
                      FormatPin(r.value.bridgePin).Ok? && r.value.enabled == form.enabled
  {
    var name := Strip(if form.bridgeName.Some? then form.bridgeName.value else DefaultBridgeName);
    var pin := Strip(FieldOrEmpty(form.bridgePin));
    if form.bridgePort == PortNotNumber then Err(PortMustBeNumber)
    else
      var port := if form.bridgePort.PortNumber? then form.bridgePort.n else DefaultBridgePort;
      if !AllDigits(pin) || |pin| != 8 then Err(PinNotEightDigits)
      else if !(MinPort <= port <= MaxPort) then Err(PortOutOfRange)
      else Ok(HkConfig(name, pin, port, form.enabled))
  }

  /** `request.form.get(field, '')`. */
  function FieldOrEmpty(o: Option<string>): string {
    if o.Some? then o.value else ""
  }

  /** What the handler does to the service after storing the configuration. */
  datatype ServiceAction = StartService | StopService | RestartService | LeaveService

  /** Start a stopped service that is now enabled, stop a running one that
      is now disabled, restart a running one that was and stays enabled,
      and otherwise leave it. */
  function ChooseAction(enabled: bool, running: bool, wasEnabled: bool): (a: ServiceAction)
    ensures a == StartService <==> enabled && !running
    ensures a == StopService <==> !enabled && running
    ensures a == RestartService <==> enabled && running && wasEnabled
    ensures a == LeaveService <==> (enabled == running) && !(enabled && wasEnabled)
  {
    if enabled && !running then StartService
    else if !enabled && running then StopService
    else if enabled && running && wasEnabled then RestartService
    else LeaveService
  }

  /** The service after the action; the service reads the configuration
      just stored. */
  function ApplyAction(a: ServiceAction, m: Manager, cfg: HkConfig, hasApp: bool,
                       rows: seq<HkDevice>, devices: seq<Device>): (r: Manager)
    ensures a == LeaveService ==> r == m
    ensures a == StopService ==> r == NewManager
  {
    match a
    case StartService => Start(m, Some(cfg), hasApp, rows, devices).0
    case StopService => Stop(m).0
    case RestartService => Restart(m, Some(cfg), hasApp, rows, devices).0
    case LeaveService => m
  }

  /** `save_homekit_config`: a valid form replaces the stored
      configuration (or creates it), then the service follows. */
  function SaveConfig(stored: Option<HkConfig>, form: ConfigForm, m: Manager, hasApp: bool,
                      rows: seq<HkDevice>, devices: seq<Device>)
    : (r: Result<(HkConfig, ServiceAction, Manager), ConfigError>)
    ensures r.Err? <==> ValidateConfig(form).Err?
    ensures r.Err? ==> r.error == ValidateConfig(form).error
    ensures r.Ok? ==>
              r.value.0 == ValidateConfig(form).value &&
              r.value.1 == ChooseAction(form.enabled, m.running, stored.Some? && stored.value.enabled)
  {
    match ValidateConfig(form)
    case Err(e) => Err(e)
    case Ok(cfg) =>
      var wasEnabled := stored.Some? && stored.value.enabled;
      var a := ChooseAction(cfg.enabled, m.running, wasEnabled);
      Ok((cfg, a, ApplyAction(a, m, cfg, hasApp, rows, devices)))
  }

  /** With the application present, a saved configuration leaves the
      service running exactly when it is enabled. */
  lemma SavedServiceFollowsEnabled(stored: Option<HkConfig>, form: ConfigForm, m: Manager,
                                   rows: seq<HkDevice>, devices: seq<Device>)
    requires SaveConfig(stored, form, m, true, rows, devices).Ok?
    ensures SaveConfig(stored, form, m, true, rows, devices).value.2.running <==> form.enabled
  {
    var cfg := ValidateConfig(form).value;
    assert |cfg.bridgePin| == 8;
  }

  // ---------------------------------------------------------------------
  // HomeKit devices

  /** The next accessory id a new row is given:
      `(max(homekit_aid) or 1) + 1`. The maximum is `None` without any
      stored id, and a maximum of 0 is falsy too. */
  function MaxAid(rows: seq<HkDevice>): (r: Option<int>)
    ensures r.None? <==> forall row :: row in rows ==> row.homekitAid.None?
    ensures r.Some? ==> (forall row :: row in rows && row.homekitAid.Some? ==> row.homekitAid.value <= r.value) &&
                        exists row :: row in rows && row.homekitAid == r
  {
    if rows == [] then None
    else
      var rest := MaxAid(rows[1..]);
      var here := rows[0].homekitAid;
      if here.None? then rest
      else if rest.None? || rest.value < here.value then here
      else rest
  }

  function NextAid(rows: seq<HkDevice>): (aid: int)
    ensures forall row :: row in rows && row.homekitAid.Some? ==> row.homekitAid.value < aid
    ensures aid >= 2 <==> (forall row :: row in rows ==> row.homekitAid.None?) ||
                          (exists row :: row in rows && row.homekitAid.Some? && row.homekitAid.value >= 0)
  {
    var m := MaxAid(rows);
    var base := if m.None? || m.value == 0 then 1 else m.value;
    base + 1
  }

  /** A row id not yet used. */
  function NextRowId(rows: seq<HkDevice>): (id: int)
    ensures forall row :: row in rows ==> row.rowId < id
  {
    if rows == [] then 1
    else
      var rest := NextRowId(rows[1..]);
      if rows[0].rowId + 1 > rest then rows[0].rowId + 1 else rest
  }

  /** Some row already refers to the device. */
  predicate DeviceAdded(rows: seq<HkDevice>, deviceId: int) {
    exists row :: row in rows && row.deviceId == deviceId
  }

  datatype AddError = DeviceIdNotNumber | NoSuchDevice | AlreadyAdded

  /** The new rows, the new row, the manager, and whether the accessory was
      added to the running bridge at once. */
  datatype Added = Added(rows: seq<HkDevice>, row: HkDevice, manager: Manager, live: bool)

  /** `add_homekit_device`: the device must exist and must not have a row
      yet; an empty name means the device's own name; the row gets the next
      accessory id and is enabled; a running service adds the accessory
      directly. `None` for the id is a value `int()` rejects. */
  function AddHomeKitDevice(rows: seq<HkDevice>, devices: seq<Device>, deviceId: Option<int>, name: string,
                            m: Manager, hasApp: bool)
    : (r: Result<Added, AddError>)
    ensures r == Err(DeviceIdNotNumber) <==> deviceId.None?
    ensures r == Err(NoSuchDevice) <==> deviceId.Some? && FindById(devices, deviceId.value).None?
    ensures r == Err(AlreadyAdded) <==>
              deviceId.Some? && FindById(devices, deviceId.value).Some? && DeviceAdded(rows, deviceId.value)
    ensures r.Ok? ==>
              var a := r.value;
              && a.rows == rows + [a.row]
              && a.row.deviceId == deviceId.value && a.row.enabled
              && a.row.homekitAid == Some(NextAid(rows))
              && a.row.homekitName == (if Strip(name) == "" then FindById(devices, deviceId.value).value.name
                                       else Strip(name))
              && (forall row :: row in rows ==> row.rowId != a.row.rowId)
              && (!m.running ==> a.manager == m && !a.live)
              && (m.running ==> (a.manager, a.live) == AddDeviceAccessory(m, hasApp, a.rows, devices, deviceId.value))
  {
    match deviceId
    case None => Err(DeviceIdNotNumber)
    case Some(id) =>
      match FindById(devices, id)
      case None => Err(NoSuchDevice)
      case Some(d) =>
        if DeviceAdded(rows, id) then Err(AlreadyAdded)
        else
          var hkName := if Strip(name) == "" then d.name else Strip(name);
          var row := HkDevice(NextRowId(rows), id, Some(NextAid(rows)), hkName, true);
          var rows1 := rows + [row];
          if m.running then
            var (m1, ok) := AddDeviceAccessory(m, hasApp, rows1, devices, id);
            Ok(Added(rows1, row, m1, ok))
          else Ok(Added(rows1, row, m, false))
  }

  /** A device added while a service with the application runs, whose
      device is visible and has no accessory yet, goes live exactly when
      the bridge does not hold its accessory id already, and then carries
      that id and the new row's name. */
  lemma AddedVisibleDeviceGoesLive(rows: seq<HkDevice>, devices: seq<Device>, id: int, name: string, m: Manager)
    requires m.running && id !in m.accessories
    requires FindById(devices, id).Some? && FindById(devices, id).value.visible
    requires !DeviceAdded(rows, id)
    ensures var r := AddHomeKitDevice(rows, devices, Some(id), name, m, true);
            r.Ok? &&
            (r.value.live <==> m.bridge.Some? && StableAidAsWritten(id) !in m.bridge.value.aids) &&
            (r.value.live ==> r.value.manager.accessories[id] ==
                                Accessory(StableAidAsWritten(id), r.value.row.homekitName))
  {
    var r := AddHomeKitDevice(rows, devices, Some(id), name, m, true);
    var row := r.value.row;
    assert row in r.value.rows && row.deviceId == id && row.enabled;
    var first := FirstEnabledRow(r.value.rows, id);
    assert first.Some? && first.value in rows + [row];
    assert first.value !in rows;
  }

  /** The row with the id. */
  function FindRow(rows: seq<HkDevice>, rowId: int): (r: Option<HkDevice>)
    ensures r.None? <==> forall row :: row in rows ==> row.rowId != rowId
    ensures r.Some? ==> r.value in rows && r.value.rowId == rowId
  {
    if rows == [] then None
    else if rows[0].rowId == rowId then Some(rows[0])
    else FindRow(rows[1..], rowId)
  }

  /** The rows whose id differs. */
  function WithoutRow(rows: seq<HkDevice>, rowId: int): (r: seq<HkDevice>)
    ensures forall row :: row in r <==> row in rows && row.rowId != rowId
  {
    if rows == [] then []
    else (if rows[0].rowId == rowId then [] else [rows[0]]) + WithoutRow(rows[1..], rowId)
  }

  /** `remove_homekit_device`: the row goes; a running service also drops
      the device's accessory. */
  function RemoveHomeKitDevice(rows: seq<HkDevice>, rowId: int, m: Manager): (r: Option<(seq<HkDevice>, Manager)>)
    ensures r.None? <==> FindRow(rows, rowId).None?
    ensures r.Some? ==> r.value.0 == WithoutRow(rows, rowId)
    ensures r.Some? ==>
              var devId := FindRow(rows, rowId).value.deviceId;
              r.value.1 == (if m.running then m.(accessories := m.accessories - {devId}) else m)
  {
    match FindRow(rows, rowId)
    case None => None
    case Some(row) =>
      Some((WithoutRow(rows, rowId), if m.running then RemoveDeviceAccessory(m, row.deviceId).0 else m))
  }

  /** `toggle_homekit_device`: the row's flag flipped; the running
      bridge is left as it is until restarted. */
  function ToggleHomeKitDevice(rows: seq<HkDevice>, rowId: int): (r: Option<seq<HkDevice>>)
    ensures r.None? <==> FindRow(rows, rowId).None?
    ensures r.Some? ==> |r.value| == |rows|
    ensures r.Some? ==>
              forall i :: 0 <= i < |rows| ==>
                r.value[i] == if rows[i].rowId == rowId then rows[i].(enabled := !rows[i].enabled) else rows[i]
  {
    if FindRow(rows, rowId).None? then None
    else Some(seq(|rows|, i requires 0 <= i < |rows| =>
                if rows[i].rowId == rowId then rows[i].(enabled := !rows[i].enabled) else rows[i]))
  }

  /** Toggling the same row twice restores the table. */
  lemma ToggleHomeKitTwice(rows: seq<HkDevice>, rowId: int)
    requires FindRow(rows, rowId).Some?
    ensures var once := ToggleHomeKitDevice(rows, rowId).value;
            FindRow(once, rowId).Some? && ToggleHomeKitDevice(once, rowId) == Some(rows)
  {
    var once := ToggleHomeKitDevice(rows, rowId).value;
    var row := FindRow(rows, rowId).value;
    var i :| 0 <= i < |rows| && rows[i] == row;
    assert once[i].rowId == rowId;
    assert once[i] in once;
    var twice := ToggleHomeKitDevice(once, rowId).value;
    assert twice == rows;
  }

  // ---------------------------------------------------------------------
  // Pairing code generation

  const LeastPin: int := 10000000
  const GreatestPin: int := 99999999

  lemma EightDigitBounds()
    ensures Pow10(7) == LeastPin && Pow10(8) == GreatestPin + 1
  {
    assert Pow10(1) == 10;
    assert Pow10(2) == 100;
    assert Pow10(3) == 1000;
    assert Pow10(4) == 10000;
    assert Pow10(5) == 100000;
    assert Pow10(6) == 1000000;
    assert Pow10(7) == 10000000;
  }

  /** `generate_homekit_pin`: the decimal text of a number drawn from
      [10000000, 99999999] (the draw is an input). It is eight digits with
      no leading zero, so the configuration form accepts it and the
      service can format it. */
  function GeneratePin(draw: int): (pin: string)
    requires LeastPin <= draw <= GreatestPin
    ensures ValidPin(pin) && pin[0] != '0'
    ensures FormatPin(pin).Ok?
  {
    EightDigitBounds();
    NatToStringLength(draw, 7);
    NatToStringNoLeadingZero(draw);
    NatToString(draw)
  }

  /** Distinct draws give distinct codes. */
  lemma GeneratePinInjective(a: int, b: int)
    requires LeastPin <= a <= GreatestPin && LeastPin <= b <= GreatestPin
    ensures GeneratePin(a) == GeneratePin(b) <==> a == b
  {
    if GeneratePin(a) == GeneratePin(b) {
      NatToStringInjective(a, b);
    }
  }
}

=== FILE: routes_settings.dfy ===
/** The decisions of the settings pages in routes/settings.py: the MQTT
    switch, the Bemfa key table (validation, add, edit, toggle, delete) with
    the per-key MQTT clients started or stopped alongside, and the message
    of a manual sync. */
module SettingsRoutes {
  import opened Common
  import opened BemfaSync
  import opened DeviceModel
  import Mqtt

  /** The stored `mqtt_enabled` setting turns MQTT on only when it is the
      text "true". */
  predicate MqttOn(setting: Option<string>) {
    setting == Some("true")
  }

  /** The text stored for the switch. */
  function SettingText(on: bool): (t: string)
    ensures MqttOn(Some(t)) <==> on
  {
    if on then "true" else "false"
  }

  // ---------------------------------------------------------------------
  // The MQTT switch

  datatype SaveOutcome = SettingsSaved | NoEnabledKey

  /** `save_settings`: the setting is stored first; then a stopped manager
      is started when switched on (refused without an enabled key) and a
      running one stopped when switched off. */
  function SaveSettings(on: bool, m: Mqtt.Manager, keys: seq<BemfaKey>, connectOk: string -> bool)
    : (r: (string, Mqtt.Manager, SaveOutcome))
    ensures MqttOn(Some(r.0)) <==> on
    ensures r.2 == NoEnabledKey <==> on && !m.running && EnabledKeys(keys) == []
    ensures r.2 == NoEnabledKey ==> r.1 == m
    ensures !on ==> !r.1.running && (m.running ==> r.1.clients == map[])
    ensures on && m.running ==> r.1 == m
    ensures on && m.hasApp && EnabledKeys(keys) != [] ==> r.1.running
  {
    var stored := SettingText(on);
    if on && !m.running then
      if EnabledKeys(keys) != [] then (stored, Mqtt.StartServiceAsWritten(m, None, keys, connectOk), SettingsSaved)
      else (stored, m, NoEnabledKey)
    else if !on && m.running then (stored, Mqtt.StopAll(m), SettingsSaved)
    else (stored, m, SettingsSaved)
  }

  // ---------------------------------------------------------------------
  // Key validation

  datatype KeyError = MissingField | KeyNotThirtyTwo | DuplicateKey

  const KeyLength: nat := 32

  /** Some row other than `self` already holds the key. */
  predicate KeyHeldByOther(keys: seq<BemfaKey>, key: string, self: Option<int>) {
    exists k :: k in keys && k.key == key && (self.None? || k.id != self.value)
  }

  /** The checks shared by add and edit, in order on the stripped fields:
      both filled in, a 32-character key, and no other row with that key
      (`self` is the row being edited, `None` when adding). */
  function ValidateKey(name: string, key: string, keys: seq<BemfaKey>, self: Option<int>)
    : (r: Result<(string, string), KeyError>)
    ensures r.Ok? <==>
              Strip(name) != "" && |Strip(key)| == KeyLength && !KeyHeldByOther(keys, Strip(key), self)
    ensures r.Ok? ==> r.value == (Strip(name), Strip(key))
    ensures r == Err(MissingField) <==> Strip(name) == "" || Strip(key) == ""
    ensures r == Err(KeyNotThirtyTwo) <==> Strip(name) != "" && Strip(key) != "" && |Strip(key)| != KeyLength
  {
    var n := Strip(name);
    var k := Strip(key);
    if n == "" || k == "" then Err(MissingField)
    else if |k| != KeyLength then Err(KeyNotThirtyTwo)
    else if KeyHeldByOther(keys, k, self) then Err(DuplicateKey)
    else Ok((n, k))
  }

  /** No two rows hold the same key. */
  predicate UniqueKeys(keys: seq<BemfaKey>) {
    forall i, j :: 0 <= i < j < |keys| ==> keys[i].key != keys[j].key
  }

  /** A row id not yet used. */
  function NextKeyId(keys: seq<BemfaKey>): (id: int)
    ensures forall k :: k in keys ==> k.id < id
  {
    if keys == [] then 1
    else
      var rest := NextKeyId(keys[1..]);
      if keys[0].id + 1 > rest then keys[0].id + 1 else rest
  }

  /** The row with the id, if any. */
  function FindKey(keys: seq<BemfaKey>, id: int): (r: Option<BemfaKey>)
    ensures r.None? <==> forall k :: k in keys ==> k.id != id
    ensures r.Some? ==> r.value in keys && r.value.id == id
  {
    if keys == [] then None
    else if keys[0].id == id then Some(keys[0])
    else FindKey(keys[1..], id)
  }

  // ---------------------------------------------------------------------
  // Client actions

  /** A change to one key's MQTT client. */
  datatype ClientAction = StartKey(key: string) | StopKey(key: string)

  /** What a key change does beyond the table: client actions in order, and
      whether the Bemfa sync runs. */
  datatype Effects = Effects(actions: seq<ClientAction>, sync: bool)

  const NoEffects: Effects := Effects([], false)

  /** Carries out the client actions in order. */
  function ApplyClients(m: Mqtt.Manager, actions: seq<ClientAction>, connectOk: string -> bool)
    : (r: Mqtt.Manager)
    ensures r.running == m.running && r.hasApp == m.hasApp
    decreases |actions|
  {
    if actions == [] then m
    else
      var m1 := match actions[0]
        case StartKey(k) => Mqtt.StartClient(m, k, connectOk(k))
        case StopKey(k) => Mqtt.StopClient(m, k);
      ApplyClients(m1, actions[1..], connectOk)
  }

  /** The client of an enabled key is started and the sync runs; the
      client of a disabled key is stopped. */
  function KeyEffects(key: string, enabled: bool): (e: Effects)
    ensures e.sync <==> enabled
    ensures e.actions == [if enabled then StartKey(key) else StopKey(key)]
  {
    if enabled then Effects([StartKey(key)], true) else Effects([StopKey(key)], false)
  }

  /** Applied to a manager, the effects of an enabled key leave it with a
      client exactly when the connect succeeds, and those of a disabled key
      leave it without one; no other key's client is touched. */
  lemma KeyEffectsOnClients(m: Mqtt.Manager, key: string, enabled: bool, connectOk: string -> bool)
    ensures var r := ApplyClients(m, KeyEffects(key, enabled).actions, connectOk);
            && (key in r.clients <==> enabled && connectOk(key))
            && r.clients - {key} == m.clients - {key}
            && r.running == m.running
  {
    assert KeyEffects(key, enabled).actions[1..] == [];
  }

  // ---------------------------------------------------------------------
  // Add

  datatype KeyForm = KeyForm(name: string, key: string, enabled: bool)

  /** `add_bemfa_key_api`: a valid key is appended; when it is enabled and
      MQTT is on, its client starts and the devices are synced. */
  function AddKey(keys: seq<BemfaKey>, form: KeyForm, setting: Option<string>)
    : (r: Result<(seq<BemfaKey>, Effects), KeyError>)
    ensures r.Err? <==> ValidateKey(form.name, form.key, keys, None).Err?
    ensures r.Err? ==> r.error == ValidateKey(form.name, form.key, keys, None).error
    ensures r.Ok? ==>
              var (n, k) := ValidateKey(form.name, form.key, keys, None).value;
              && |r.value.0| == |keys| + 1 && r.value.0[..|keys|] == keys
              && r.value.0[|keys|] == BemfaKey(NextKeyId(keys), n, k, form.enabled)
              && r.value.1 == (if form.enabled && MqttOn(setting) then KeyEffects(k, true) else NoEffects)
    ensures r.Ok? && UniqueKeys(keys) ==> UniqueKeys(r.value.0)
  {
    match ValidateKey(form.name, form.key, keys, None)
    case Err(e) => Err(e)
    case Ok((n, k)) =>
      var row := BemfaKey(NextKeyId(keys), n, k, form.enabled);
      var effects := if form.enabled && MqttOn(setting) then KeyEffects(k, true) else NoEffects;
      AppendKeepsKeysUnique(keys, row);
      Ok((keys + [row], effects))
  }

  /** Appending a row whose key no row holds keeps the keys unique. */
  lemma AppendKeepsKeysUnique(keys: seq<BemfaKey>, row: BemfaKey)
    ensures (keys + [row])[..|keys|] == keys && (keys + [row])[|keys|] == row
    ensures UniqueKeys(keys) && !KeyHeldByOther(keys, row.key, None) ==> UniqueKeys(keys + [row])
  {
    var r := keys + [row];
    assert r[..|keys|] == keys;
    assert forall i :: 0 <= i < |keys| ==> r[i] == keys[i] && r[i] in keys;
  }

  // ---------------------------------------------------------------------
  // Edit

  datatype EditError = KeyRowNotFound | Invalid(error: KeyError)

  /** The key `ReplaceById` matches Bemfa keys on. */
  function KeyId(k: BemfaKey): int { k.id }

  /** The client actions of an edit while MQTT is on: a changed key stops
      the old client, then the new key's client is started (and the
      devices synced) or stopped. */
  function EditEffects(oldKey: string, newKey: string, enabled: bool, on: bool): (e: Effects)
    ensures !on ==> e == NoEffects
    ensures on ==> e.sync == enabled
    ensures on ==> e.actions == (if oldKey != newKey then [StopKey(oldKey)] else []) +
                                KeyEffects(newKey, enabled).actions
  {
    if !on then NoEffects
    else
      var stopOld := if oldKey != newKey then [StopKey(oldKey)] else [];
      var e := KeyEffects(newKey, enabled);
      Effects(stopOld + e.actions, e.sync)
  }

  /** `edit_bemfa_key_api`: the same checks as adding, the duplicate check
      ignoring the row itself; then name, key and flag are replaced. */
  function EditKey(keys: seq<BemfaKey>, id: int, form: KeyForm, setting: Option<string>)
    : (r: Result<(seq<BemfaKey>, Effects), EditError>)
    ensures r == Err(KeyRowNotFound) <==> FindKey(keys, id).None?
    ensures r.Err? && r.error.Invalid? <==>
              FindKey(keys, id).Some? && ValidateKey(form.name, form.key, keys, Some(id)).Err?
    ensures r.Ok? ==>
              var prev := FindKey(keys, id).value;
              var (n, k) := ValidateKey(form.name, form.key, keys, Some(id)).value;
              && r.value.0 == ReplaceById(keys, KeyId, id, prev.(name := n, key := k, enabled := form.enabled))
              && r.value.1 == EditEffects(prev.key, k, form.enabled, MqttOn(setting))
  {
    match FindKey(keys, id)
    case None => Err(KeyRowNotFound)
    case Some(prev) =>
      match ValidateKey(form.name, form.key, keys, Some(id))
      case Err(e) => Err(Invalid(e))
      case Ok((n, k)) =>
        Ok((ReplaceById(keys, KeyId, id, prev.(name := n, key := k, enabled := form.enabled)),
            EditEffects(prev.key, k, form.enabled, MqttOn(setting))))
  }

  /** An edit keeps the keys distinct when ids are distinct. */
  lemma EditKeepsKeysUnique(keys: seq<BemfaKey>, id: int, form: KeyForm, setting: Option<string>)
    requires UniqueKeys(keys)
    requires DistinctIds(keys)
    requires EditKey(keys, id, form, setting).Ok?
    ensures UniqueKeys(EditKey(keys, id, form, setting).value.0)
  {
    var r := EditKey(keys, id, form, setting).value.0;
    var k := ValidateKey(form.name, form.key, keys, Some(id)).value.1;
    forall i, j | 0 <= i < j < |r|
      ensures r[i].key != r[j].key
    {
      if keys[i].id == id {
        assert keys[j] in keys && keys[j].id != id;
      } else if keys[j].id == id {
        assert keys[i] in keys && keys[i].id != id;
      }
    }
  }

  /** After an edit while MQTT is on, the old key (if it changed) has no
      client, and the new key has one exactly when it is enabled and its
      client connects. */
  lemma EditClients(m: Mqtt.Manager, oldKey: string, newKey: string, enabled: bool, connectOk: string -> bool)
    ensures var r := ApplyClients(m, EditEffects(oldKey, newKey, enabled, true).actions, connectOk);
            && (oldKey != newKey ==> oldKey !in r.clients)
            && (newKey in r.clients <==> enabled && connectOk(newKey))
  {
    var actions := EditEffects(oldKey, newKey, enabled, true).actions;
    if oldKey != newKey {
      var m1 := Mqtt.StopClient(m, oldKey);
      assert actions[1..] == KeyEffects(newKey, enabled).actions;
      assert ApplyClients(m, actions, connectOk) == ApplyClients(m1, actions[1..], connectOk);
    }
  }

  // ---------------------------------------------------------------------
  // Toggle and delete

  /** `toggle_bemfa_key_api`: the flag flipped; with MQTT on the key's
      client follows the new flag. */
  function ToggleKey(keys: seq<BemfaKey>, id: int, setting: Option<string>)
    : (r: Option<(seq<BemfaKey>, Effects)>)
    ensures r.None? <==> FindKey(keys, id).None?
    ensures r.Some? ==>
              var prev := FindKey(keys, id).value;
              && r.value.0 == ReplaceById(keys, KeyId, id, prev.(enabled := !prev.enabled))
              && r.value.1 == (if MqttOn(setting) then KeyEffects(prev.key, !prev.enabled) else NoEffects)
  {
    match FindKey(keys, id)
    case None => None
    case Some(prev) =>
      Some((ReplaceById(keys, KeyId, id, prev.(enabled := !prev.enabled)),
            if MqttOn(setting) then KeyEffects(prev.key, !prev.enabled) else NoEffects))
  }

  /** No two rows share an id (the primary key). */
  predicate DistinctIds(keys: seq<BemfaKey>) {
    forall i, j :: 0 <= i < j < |keys| ==> keys[i].id != keys[j].id
  }

  /** With distinct ids, the row found is the one holding the id. */
  lemma {:induction false} FindKeyAt(keys: seq<BemfaKey>, id: int, i: nat)
    requires DistinctIds(keys)
    requires i < |keys| && keys[i].id == id
    ensures FindKey(keys, id) == Some(keys[i])
  {
    if i > 0 {
      assert keys[0].id != id;
      assert DistinctIds(keys[1..]);
      FindKeyAt(keys[1..], id, i - 1);
    }
  }

  /** Toggling twice restores the table, when ids are distinct. */
  lemma ToggleTwice(keys: seq<BemfaKey>, id: int, setting: Option<string>)
    requires DistinctIds(keys)
    requires FindKey(keys, id).Some?
    ensures ToggleKey(ToggleKey(keys, id, setting).value.0, id, setting).value.0 == keys
  {
    var prev := FindKey(keys, id).value;
    var flipped := prev.(enabled := !prev.enabled);
    var once := ReplaceById(keys, KeyId, id, flipped);
    var i0 :| 0 <= i0 < |keys| && keys[i0] == prev;
    assert DistinctIds(once) by {
      forall i, j | 0 <= i < j < |once|
        ensures once[i].id != once[j].id
      {
        assert once[i].id == keys[i].id && once[j].id == keys[j].id;
      }
    }
    FindKeyAt(once, id, i0);
    var twice := ReplaceById(once, KeyId, id, flipped.(enabled := !flipped.enabled));
    assert |twice| == |keys|;
    forall i | 0 <= i < |keys|
      ensures twice[i] == keys[i]
    {
      if keys[i].id == id {
        assert keys[i] == keys[i0];
      }
    }
  }

  /** The rows whose id differs. */
  function WithoutKey(keys: seq<BemfaKey>, id: int): (r: seq<BemfaKey>)
    ensures forall k :: k in r <==> k in keys && k.id != id
  {
    if keys == [] then []
    else (if keys[0].id == id then [] else [keys[0]]) + WithoutKey(keys[1..], id)
  }

  /** `delete_bemfa_key_api`: the row goes; its client is stopped only when
      the key was enabled and MQTT is on. */
  function DeleteKey(keys: seq<BemfaKey>, id: int, setting: Option<string>)
    : (r: Option<(seq<BemfaKey>, Effects)>)
    ensures r.None? <==> FindKey(keys, id).None?
    ensures r.Some? ==> r.value.0 == WithoutKey(keys, id) && !r.value.1.sync
    ensures r.Some? ==>
              var prev := FindKey(keys, id).value;
              (r.value.1.actions != [] <==> prev.enabled && MqttOn(setting)) &&
              (r.value.1.actions != [] ==> r.value.1.actions == [StopKey(prev.key)])
  {
    match FindKey(keys, id)
    case None => None
    case Some(prev) =>
      Some((WithoutKey(keys, id),
            if prev.enabled && MqttOn(setting) then Effects([StopKey(prev.key)], false) else NoEffects))
  }

  // ---------------------------------------------------------------------
  // The manual sync message

  /** The message `sync_bemfa_devices` shows. */
  datatype SyncMessage =
    | Synced(parts: seq<string>, failed: nat, accounts: nat)
    | SyncFailed(failed: nat)
    | AllInSync
    | SyncRaised(error: string)

  /** One part per non-zero count, in the order created, updated, deleted. */
  function Parts(c: Counts): (r: seq<string>)
    ensures |r| == (if c.created > 0 then 1 else 0) + (if c.updated > 0 then 1 else 0) +
                   (if c.deleted > 0 then 1 else 0)
    ensures r != [] <==> Changed(c)
  {
    (if c.created > 0 then ["创建 " + NatToString(c.created) + " 个主题"] else []) +
    (if c.updated > 0 then ["更新 " + NatToString(c.updated) + " 个昵称"] else []) +
    (if c.deleted > 0 then ["删除 " + NatToString(c.deleted) + " 个多余主题"] else [])
  }

  /** The selection on the sync's result (`None` stands for a falsy result;
      an `Err` is the exception caught around the sync). A falsy result
      leaves the local `accounts` unbound, so building the reply raises and
      the route answers with its failure message, not with "no visible
      devices". `describe` gives `str(e)` of a sync failure and `unbound`
      that of the `UnboundLocalError`; both texts belong to the
      interpreter. */
  function SyncMessageOf(result: Result<Option<Summary>, SyncError>, describe: SyncError -> string,
                         unbound: string): (r: SyncMessage)
    ensures r.SyncRaised? <==> result.Err? || result.value.None?
    ensures r.SyncRaised? ==> r.error == (if result.Err? then describe(result.error) else unbound)
    ensures r.Synced? <==> result.Ok? && result.value.Some? && Changed(result.value.value.counts)
    ensures r.SyncFailed? <==>
              result.Ok? && result.value.Some? && !Changed(result.value.value.counts) &&
              result.value.value.counts.failed > 0
    ensures r == AllInSync <==> result.Ok? && result.value.Some? && result.value.value.counts == NoCounts
    ensures r.Synced? ==> r.parts == Parts(result.value.value.counts)
  {
    match result
    case Err(e) => SyncRaised(describe(e))
    case Ok(None) => SyncRaised(unbound)
    case Ok(Some(s)) =>
      if Changed(s.counts) then Synced(Parts(s.counts), s.counts.failed, |s.accounts|)
      else if s.counts.failed > 0 then SyncFailed(s.counts.failed)
      else AllInSync
  }

  const SyncedPrefix: string := "同步成功："
  const FailedPrefix: string := "同步失败："
  const RaisedPrefix: string := "同步失败: "
  const InSyncText: string := "所有设备主题都已同步，无需更新"

  /** The text of the message. The kinds are told apart by their openings
      (the failure count follows a full-width colon, the exception text an
      ASCII one), and the exception text can be read back. */
  function MessageText(m: SyncMessage): (r: string)
    ensures m.Synced? <==> StartsWith(r, SyncedPrefix)
    ensures m.SyncFailed? <==> StartsWith(r, FailedPrefix)
    ensures m.SyncRaised? <==> StartsWith(r, RaisedPrefix)
    ensures m == AllInSync <==> r == InSyncText
    ensures m.SyncRaised? ==> r[|RaisedPrefix|..] == m.error
    ensures m.Synced? ==> StartsWith(r[|SyncedPrefix|..], Join(m.parts, ", "))
  {
    match m
    case Synced(parts, failed, accounts) =>
      var rest := Join(parts, ", ") + "，MQTT订阅已刷新" +
                  (if failed > 0 then "，" + NatToString(failed) + " 个失败" else "") +
                  (if accounts > 1 then "（共 " + NatToString(accounts) + " 个账号）" else "");
      Opening(SyncedPrefix, rest);
      OpeningClash(SyncedPrefix, FailedPrefix, rest, 2);
      OpeningClash(SyncedPrefix, RaisedPrefix, rest, 2);
      OpeningClash(SyncedPrefix, InSyncText, rest, 0);
      assert (SyncedPrefix + rest)[|SyncedPrefix|..] == rest;
      SyncedPrefix + rest
    case SyncFailed(failed) =>
      var rest := NatToString(failed) + " 个主题操作失败";
      Opening(FailedPrefix, rest);
      OpeningClash(FailedPrefix, SyncedPrefix, rest, 2);
      OpeningClash(FailedPrefix, RaisedPrefix, rest, 4);
      OpeningClash(FailedPrefix, InSyncText, rest, 0);
      FailedPrefix + rest
    case AllInSync =>
      OpeningClash(InSyncText, SyncedPrefix, "", 0);
      OpeningClash(InSyncText, FailedPrefix, "", 0);
      OpeningClash(InSyncText, RaisedPrefix, "", 0);
      assert InSyncText + "" == InSyncText;
      InSyncText
    case SyncRaised(e) =>
      Opening(RaisedPrefix, e);
      OpeningClash(RaisedPrefix, SyncedPrefix, e, 2);
      OpeningClash(RaisedPrefix, FailedPrefix, e, 4);
      OpeningClash(RaisedPrefix, InSyncText, e, 0);
      assert (RaisedPrefix + e)[|RaisedPrefix|..] == e;
      RaisedPrefix + e
  }

  lemma Opening(p: string, rest: string)
    ensures StartsWith(p + rest, p)
  {
    assert (p + rest)[..|p|] == p;
  }

  /** A text opening with `p` neither opens with nor equals a `q` that
      differs from `p` at position `i`. */
  lemma OpeningClash(p: string, q: string, rest: string, i: nat)
    requires i < |p| && i < |q| && p[i] != q[i]
    ensures !StartsWith(p + rest, q) && p + rest != q
  {
    assert (p + rest)[i] == p[i];
  }

  /** `sep.join(parts)`. */
  function Join(parts: seq<string>, sep: string): string {
    if parts == [] then "" else if |parts| == 1 then parts[0] else parts[0] + sep + Join(parts[1..], sep)
  }

  /** The sync always hands back a dictionary, which is truthy: the
      route's failure message appears exactly when the sync itself raised. */
  lemma SyncRaisedOnlyOnError(keys: seq<BemfaKey>, legacyKey: Option<string>,
                              devices: seq<Device>, env: string -> AccountEnv,
                              describe: SyncError -> string, unbound: string)
    ensures var s := SyncAll(keys, legacyKey, devices, env);
            SyncMessageOf(if s.Ok? then Ok(Some(s.value)) else Err(s.error), describe, unbound).SyncRaised? <==> s.Err?
  {
  }
}
